=== FILE: README.md ===
# deduplipy blocking, modelled in Dafny

deduplipy deduplicates the records of a table. Comparing every record with
every other one is quadratic, so it first *blocks*. A blocking rule maps a
field value to a short token, such as the first word or the largest integer
written in it. Training pairs labelled as matches choose a small set of
(column, rule) combinations that still catch most matches. This choice is a
greedy set cover with a recall threshold. On new data, only records that
share a *fingerprint* are paired: a fingerprint is a token tagged with the
position of the rule that produced it.

The project models that core in five modules:

- `Wrappers` (Wrappers.dfy) defines `Option` and `Result`.
- `Rules` (Rules.dfy) holds the fourteen blocking rules and `all_rules`, as
  pure functions on `seq<char>`. It also models Python's `str.strip`,
  `str.split`, `re.findall` on `\d+` and `[a-zA-Z]+`, `int`/`str` on decimal
  digit strings and `sorted`.
- `SetCover` (SetCover.dfy) holds `greedy_set_cover` in two versions. The
  as-written lazy-greedy loop keeps its heap as a map from position to
  stored score. `Blocking.Fit` uses it. A corrected version fixes the
  three defects listed under Findings; `Blocking.FitCorrected` uses it.
- `Blocking` (Blocking.dfy) is class `Blocking`. Its methods are `Fit`
  (rule sets and universe in `LearnSubsets`, then cover and selected rules
  in `SelectCover`) and `Fingerprint`
  (`_fingerprint`, including the column overwrite, the melt and `dropna`), followed
  by the pure pairs table, the `drop_duplicates` step and `Transform`.
- `Deduplicator` (Deduplicator.dfy) holds the rest of class `Deduplicator`:
  - the configuration resolution of `__init__`;
  - the sample pairs table of `_create_pairs_table`;
  - the row numbering, score override and threshold filter of `predict`;
  - `_add_singletons`.

The model makes these choices:

- Records are `Row(id, fields)`, where `id` is the `ROW_ID` column and
  `fields` maps column names to string values.
- A pandas frame is a sequence of rows.
- A dictionary is a sequence of (key, value) pairs in insertion order.
- A missing value is `None`. A record's null (NaN) value in a column is
  the column's absence from its `fields`.

The main results are the following:

- Every rule returns `None` exactly when its input has nothing to take a
  token from. Otherwise its token is what the rule's name says: for
  example, the leftmost maximal digit run, or the maximum of the integers
  written in the input. No rule ever returns the empty string.
- `Fit` gives each spec the set of training indices on which its rule
  agrees. Its cover is what the as-written `greedy_set_cover` returns,
  with the reason the loop stopped. When that call fails, `Fit` fails and
  keeps the old cover. Otherwise the selected rules are exactly the specs
  whose rule set is in the cover.
- The corrected cover, which `FitCorrected` uses, reaches the requested
  recall whenever all subsets together do.
- `Fingerprint` produces exactly the (record, fingerprint) rows: those
  whose fingerprint was made by a rule that still owns its column, of
  records with no null configured value (`dropna` drops the others).
  Records that share a fingerprint got equal tokens from the same rule.
- `Transform` returns one row per id pair, with a smaller id on the left,
  and both records share a fingerprint and have no null configured value.
  Every two such records that share a fingerprint are paired.
- `Predict` keeps exactly the pairs of records without null configured
  values that share a fingerprint
  and whose score reaches the threshold: 1 for exact duplicates, the
  learner's score otherwise. So when the threshold is at most 1, every
  blocked pair of exact duplicates is kept.
- The sample table of k records has k(k+1)/2 rows, one for each pair of
  sampled records with the first no later in the pool than the second.
  An empty sample fails.
- `_add_singletons` gives each record without an id a fresh, distinct id
  above the largest existing one. It fails exactly when no record has an
  id.

## Model

| member | source | states |
|---|---|---|
| Rules.Strip | deduplipy/blocking/blocking_rules.py:6 | `str.strip()`: the input is leading whitespace, the result, then trailing whitespace. The result neither starts nor ends with Python whitespace, and it is empty exactly when the input is all whitespace. |
| Rules.SplitStrip | deduplipy/blocking/blocking_rules.py:14-16 | Splitting the stripped value gives the same words as splitting the value. |
| Rules.SplitJoin | deduplipy/blocking/blocking_rules.py:24 | Joining words with single spaces and splitting again gives back the words. |
| Rules.RunsFlatten | deduplipy/blocking/blocking_rules.py:117-118 | `findall` on a character class loses and invents no character: its runs, read together, are exactly the input's characters of that class. |
| Rules.ToNatOfNatToString | deduplipy/blocking/blocking_rules.py:111 | `int(str(n)) == n`. |
| Rules.NatToStringOfToNat | deduplipy/blocking/blocking_rules.py:80-81 | `str(int(d)) == d` for a digit string without leading zeros. |
| Rules.Sort | deduplipy/blocking/blocking_rules.py:80 | `sorted` on integers: the result is ascending and a permutation of the input. |
| Rules.WholeField | deduplipy/blocking/blocking_rules.py:5-10 | None iff the value is blank. Otherwise the token is non-empty, starts and ends with non-whitespace, and sits between whitespace-only margins of the value. |
| Rules.FirstWord | deduplipy/blocking/blocking_rules.py:13-18 | None iff the value is blank. Otherwise the token is the leftmost maximal run of non-whitespace characters. |
| Rules.FirstTwoWords | deduplipy/blocking/blocking_rules.py:21-26 | None iff the value is blank. Otherwise the token is the value's only word, or its first word, one space and its second word. |
| Rules.StrippedPrefix | deduplipy/blocking/blocking_rules.py:29-50 | None iff the value is blank. Otherwise the token is the prefix of the stripped value of length min(n, its length), and it starts with non-whitespace. |
| Rules.FirstThreeLetters | deduplipy/blocking/blocking_rules.py:29-34 | None iff blank. Otherwise the prefix of the stripped value of length min(3, its length), at least 1. |
| Rules.FirstFourLetters | deduplipy/blocking/blocking_rules.py:37-42 | None iff blank. Otherwise the prefix of the stripped value of length min(4, its length), at least 1. |
| Rules.FirstFiveLetters | deduplipy/blocking/blocking_rules.py:45-50 | None iff blank. Otherwise the prefix of the stripped value of length min(5, its length), at least 1. |
| Rules.RemoveSpaces | deduplipy/blocking/blocking_rules.py:54 | `replace(" ", "")`: no space is left, a value without spaces is unchanged, and the result is empty iff the input is only spaces. |
| Rules.RemoveSpacesCount | deduplipy/blocking/blocking_rules.py:54 | Every character other than a space keeps its number of occurrences. |
| Rules.RemoveSpacesAppend | deduplipy/blocking/blocking_rules.py:54 | Removing spaces distributes over concatenation, so the kept characters stay in their order. |
| Rules.NoSpacePrefix | deduplipy/blocking/blocking_rules.py:53-74 | None iff the value is only plain spaces. Otherwise the token is a space-free prefix of length min(n, ·) of the value with spaces removed. |
| Rules.FirstThreeLettersNoSpace | deduplipy/blocking/blocking_rules.py:53-58 | None iff only spaces. Otherwise the space-free prefix of length min(3, ·) of the value with spaces removed. |
| Rules.FirstFourLettersNoSpace | deduplipy/blocking/blocking_rules.py:61-66 | None iff only spaces. Otherwise the space-free prefix of length min(4, ·) of the value with spaces removed. |
| Rules.FirstFiveLettersNoSpace | deduplipy/blocking/blocking_rules.py:69-74 | None iff only spaces. Otherwise the space-free prefix of length min(5, ·) of the value with spaces removed. |
| Rules.Integers | deduplipy/blocking/blocking_rules.py:78-80 | The integers written in the value are empty iff it has no digit. |
| Rules.SortedIntegers | deduplipy/blocking/blocking_rules.py:77-85 | None iff there is no digit. Otherwise the token is digit words without leading zeros joined by single spaces. Their values are ascending and a permutation of the integers written in the value. |
| Rules.FirstInteger | deduplipy/blocking/blocking_rules.py:88-94 | None iff there is no digit. Otherwise the token is the leftmost maximal digit run, verbatim. |
| Rules.LastInteger | deduplipy/blocking/blocking_rules.py:97-103 | None iff there is no digit. Otherwise the token is the rightmost maximal digit run, verbatim. |
| Rules.LargestInteger | deduplipy/blocking/blocking_rules.py:106-113 | None iff there is no digit. Otherwise the token is a digit string without leading zeros. Its value is one of the integers in the value and at least every one of them. |
| Rules.LastOfSortedIsMax | deduplipy/blocking/blocking_rules.py:109-111 | The last element of a sorted permutation is a member of the original and its maximum. |
| Rules.ThreeLetterAbbreviation | deduplipy/blocking/blocking_rules.py:116-123 | None iff there are fewer than three letter runs. Otherwise the token is three letters, the initials of the first three runs; the first is the value's first letter. |
| Rules.AllRules | deduplipy/blocking/blocking_rules.py:126-141 | `all_rules` has fourteen entries. |
| Rules.AllRulesNeverEmpty | deduplipy/blocking/blocking_rules.py:126-141 | No rule of `all_rules` ever returns the empty string, so for them "falsy" and "None" coincide. |
| SetCover.PopMin | deduplipy/blocking/set_cover.py:37 | `heappop` returns a heap entry that is least by (stored score, position). |
| SetCover.SelectBest | deduplipy/blocking/set_cover.py:34-53 | The inner loop returns an entry whose fresh gain is at least the gain of every subset on the heap. It hands back the untouched remainder of the heap and the rescored unused entries. |
| SetCover.InitialHeap | deduplipy/blocking/set_cover.py:24-30 | The initial heap holds one entry per subset position, with score exactly `max - len(s)`, which is a lower bound of the fresh score. |
| SetCover.StillLowerBounds | deduplipy/blocking/set_cover.py:41-47 | As the covered set grows, stored scores stay lower bounds, which is what makes the early `break` sound. |
| SetCover.GreedySetCover | deduplipy/blocking/set_cover.py:5-64 | As written: each pick is an unpicked input subset of maximal gain, and the loop guard held before every pick. A returned cover is either no longer a proper subset of the parent set or reaches `recall`. The only failure is the heap running dry after every subset was picked. An empty parent set gives `[]`. |
| SetCover.HeapRanDry | deduplipy/blocking/set_cover.py:33-54 | When the heap is empty while the guard still holds, every subset has been picked, and the `best[2]` failure follows. |
| SetCover.GreedySetCoverFixed | deduplipy/blocking/set_cover.py:5-64 | Corrected: each pick is a distinct input subset of maximal gain inside the parent set, and each pick adds something. It stops with the parent set covered, the recall reached, or nothing left to add. The result reaches `recall` whenever all subsets together do. |
| SetCover.FixedOutcome | deduplipy/blocking/set_cover.py:57-60 | A finished cover reaches `recall` whenever the union of all subsets does. |
| SetCover.ReachesRecall | deduplipy/blocking/set_cover.py:57-58 | When all subsets together reach `recall`, a covered set that contains the parent set, reaches `recall`, or leaves no subset anything to add also reaches `recall`. |
| SetCover.UnionExhausted | deduplipy/blocking/set_cover.py:33 | When no subset has anything of the parent set left to add, the union of all subsets adds nothing inside the parent set either. |
| SetCover.FirstPickMax | deduplipy/blocking/set_cover.py:30-39 | The first pick has the largest gain over the empty cover: in the as-written scoring, the largest size. |
| SetCover.CoverageAtMostOne | deduplipy/blocking/set_cover.py:57 | Coverage never exceeds 1. |
| SetCover.Restricted | deduplipy/blocking/set_cover.py:48 | The corrected scoring replaces each subset by exactly its intersection with the parent set. |
| SetCover.PickedSubsets | deduplipy/blocking/set_cover.py:54-55 | Each returned entry is the input subset at its pick position. |
| SetCover.GuardExitExample | deduplipy/blocking/set_cover.py:33 | As written on `[{0,2},{1}]`, `{0,1}`, recall 1.0: returns `[{0,2}]`, with coverage 0.5. |
| SetCover.GuardExitFixedExample | deduplipy/blocking/set_cover.py:33 | Corrected on the same input: coverage 1.0. |
| SetCover.GainOutsideExample | deduplipy/blocking/set_cover.py:48 | As written on `[{0,5,6,7},{0,1}]`, `{0,1}`, recall 1.0: returns `[{0,5,6,7}]`, with coverage 0.5. |
| SetCover.GainOutsideFixedExample | deduplipy/blocking/set_cover.py:48 | Corrected on the same input: returns `[{0,1}]`. |
| SetCover.ExhaustedExample | deduplipy/blocking/set_cover.py:36-54 | As written on `[{}]`, `{0}`, recall 1.0: fails, because the heap runs dry. |
| SetCover.ExhaustedFixedExample | deduplipy/blocking/set_cover.py:36-54 | Corrected on the same input: returns `[]`. |
| Blocking.GetRulesSpecsLength | deduplipy/blocking/blocking.py:35-44 | One spec per (column, rule) entry of `rules_info`. |
| Blocking.GetRulesSpecsAt | deduplipy/blocking/blocking.py:35-44 | Rule m of column k is the spec at `Offset(k) + m`: columns in dictionary order, rules in list order, no rule set yet. |
| Blocking.MarkInjective | deduplipy/blocking/blocking.py:68 | Tagging with `":" + str(j)` is injective: equal tagged tokens come from equal tokens and equal positions. |
| Blocking.TrimDigitsOfTag | deduplipy/blocking/blocking.py:68 | Stripping the trailing digits of a tagged token recovers the token and its colon. |
| Blocking.ApplyRuleAgree | deduplipy/blocking/blocking.py:63-68 | Both tagged tokens are present and equal iff the rule gives both sides the same non-empty token. |
| Blocking.RuleSet | deduplipy/blocking/blocking.py:74-101 | A spec's `rule_set` holds exactly the training indices where both sides get equal non-empty tokens. |
| Blocking.MatchIndices | deduplipy/blocking/blocking.py:112 | The matched indices are ascending, in range, and are exactly the indices labelled 1. |
| Blocking.KeptPositions | deduplipy/blocking/blocking.py:117-121 | The positions of the kept specs, strictly ascending: a position is listed iff its rule set is in the cover. |
| Blocking.SelectRules | deduplipy/blocking/blocking.py:117-121 | `rules_selected` holds exactly the specs whose rule set equals a set in the cover. |
| Blocking.WithRuleSets | deduplipy/blocking/blocking.py:70-101 | The fit loop gives every spec, in place, its agreement set, and changes nothing else. |
| Blocking.IndexOfName | deduplipy/blocking/blocking.py:141 | Finds the column with a given name, or shows that there is none. |
| Blocking.RuleColumn | deduplipy/blocking/blocking.py:141-147 | A fingerprint column has one value per record. |
| Blocking.FrameReplace | deduplipy/blocking/blocking.py:141-147 | A rule whose column name already exists overwrites that column in place. The frame still has distinct names, and each column belongs to a rule no later rule overwrote. |
| Blocking.FrameAppend | deduplipy/blocking/blocking.py:141-147 | A rule with a new column name appends its column, and the same frame invariant holds. |
| Blocking.MeltColumn | deduplipy/blocking/blocking.py:148-151 | Melting one column and dropping its null values keeps exactly the (record, value) rows with a value. |
| Blocking.Melt | deduplipy/blocking/blocking.py:148-151 | Melting the frame and dropping null values keeps exactly the (record, value) rows over all columns with a value. |
| Blocking.DropNa | deduplipy/blocking/blocking.py:148-151 | The rest of `dropna()`: a melted row survives exactly when its record has a value in every id column `col_names`. |
| Blocking.MeltedFingerprints | deduplipy/blocking/blocking.py:137-151 | Before the id columns are checked, the melted table holds exactly the (record, fingerprint) rows of the records. |
| Blocking.MeltedRow | deduplipy/blocking/blocking.py:141-147 | Every value in the final frame is a fingerprint of its record. |
| Blocking.RowMelted | deduplipy/blocking/blocking.py:141-147 | Every fingerprint of a record is in the final frame, in the column of the rule that made it. |
| Blocking.SharedFingerprint | deduplipy/blocking/blocking.py:137-147 | Two records that share a fingerprint got the same non-null token from the same selected rule. |
| Blocking.MergeRow | deduplipy/blocking/blocking.py:164-166 | The merge rows of one left row: each right row with the same fingerprint. |
| Blocking.Merge | deduplipy/blocking/blocking.py:164-166 | The self-merge on `fingerprint` holds exactly the pairs of rows with equal fingerprints. |
| Blocking.Ordered | deduplipy/blocking/blocking.py:170-172 | The filter keeps exactly the rows with `row_id_1 < row_id_2`. |
| Blocking.CreatePairsTable | deduplipy/blocking/blocking.py:154-173 | A pair is in the table iff both sides are fingerprint rows with the same fingerprint and the left id is smaller. |
| Blocking.Dedup | deduplipy/blocking/blocking.py:188 | The deduplication never grows the table. |
| Blocking.DedupKeys | deduplipy/blocking/blocking.py:188 | `drop_duplicates` keeps rows of the input with distinct id pairs, and it keeps every id pair of the input. |
| Blocking.DedupKeepsFirst | deduplipy/blocking/blocking.py:188 | The first row of each id pair is the one kept. |
| Blocking.PairsSound | deduplipy/blocking/blocking.py:186-188 | Every pair `transform` returns joins two records, ordered by id, without null configured values, that share a fingerprint. |
| Blocking.PairsComplete | deduplipy/blocking/blocking.py:186-188 | Every two fingerprint rows with the same fingerprint and increasing ids yield their id pair. |
| Blocking.Blocking.constructor | deduplipy/blocking/blocking.py:12-33 | Stores the configuration, builds `_rules_specs` from `rules_info`, and leaves the object unfitted. |
| Blocking.Blocking.LearnSubsets | deduplipy/blocking/blocking.py:70-113 | Each spec gets, in place, its agreement set on the training pairs. The subsets are those sets, the matches are the indices labelled 1 in order, and the universe is exactly those indices. |
| Blocking.Blocking.SelectCover | deduplipy/blocking/blocking.py:115-121 | The cover is what `greedy_set_cover` returns on the subsets and the universe, including why its loop stopped, and `rules_selected` is exactly the specs whose set is in the cover. When the call fails, the error is returned and the old cover and selection remain. |
| Blocking.Blocking.Fit | deduplipy/blocking/blocking.py:46-123 | `LearnSubsets`' state, then `SelectCover`'s: a greedy cover that either stops being a proper subset of the universe or reaches `recall` with at least one pick, or the failure of `greedy_set_cover` after the rule sets were stored. |
| Blocking.Blocking.SelectCoverFixed | deduplipy/blocking/blocking.py:115-121 | With the corrected cover: useful greedy picks scored inside the universe, stopping only when the universe is covered, `recall` is reached or nothing is left to add, and reaching `recall` whenever all subsets together do. |
| Blocking.Blocking.FitCorrected | deduplipy/blocking/blocking.py:46-123 | `fit` with the corrected cover: `LearnSubsets`' state, then `SelectCoverFixed`'s. |
| Blocking.Blocking.Fingerprint | deduplipy/blocking/blocking.py:125-152 | Returns exactly the (record, fingerprint) rows of the records with a value in every configured column, where a fingerprint is the non-null result of a selected rule that owns its column, tagged with the rule's position. A record with a null configured value has no row. |
| Blocking.Blocking.Transform | deduplipy/blocking/blocking.py:175-191 | One pair per id pair. Each pair joins two records, with the smaller id on the left, that have no null configured value and share a fingerprint, and every two such records that share a fingerprint are paired. |
| Deduplicator.Keys | deduplipy/deduplicator/deduplicator.py:62 | `list(d.keys())`, in order. |
| Deduplicator.FirstIndex | deduplipy/deduplicator/deduplicator.py:56-59 | The position of the first occurrence of a name: it holds the name, and no earlier position does. |
| Deduplicator.Distinct | deduplipy/deduplicator/deduplicator.py:56-59 | The keys of a dictionary comprehension are the same names, each once, in the order of their first occurrence. |
| Deduplicator.Uniform | deduplipy/deduplicator/deduplicator.py:68 | `{name: value for name in names}`: the keys are the names, each once, in the order of their first occurrence, and every value is `value`. |
| Deduplicator.ResolveConfig | deduplipy/deduplicator/deduplicator.py:54-72 | Raises iff neither `col_names` nor `field_info` is given, or `rules` is neither a list nor a dict. With `col_names`, every column gets the two default metrics, with the keys in first-occurrence order. Without them, the columns are `field_info`'s keys. With a list or no rules, every column gets all fourteen rules, with the keys in first-occurrence order, which fixes the spec positions. A dict is used as given. |
| Deduplicator.NewDeduplicator | deduplipy/deduplicator/deduplicator.py:18-84 | Fails exactly as `__init__` does, with the same message. Otherwise it builds a fresh deduplicator holding the resolved configuration, and a fresh blocker with the same columns, rules info and recall, its specs built from the rules info, not yet fitted. |
| Deduplicator.Deduplicator.constructor | deduplipy/deduplicator/deduplicator.py:73-84 | Stores the resolved configuration and builds `myBlocker` from it, unfitted. |
| Deduplicator.Project | deduplipy/deduplicator/deduplicator.py:126-127 | Only the configured columns of a record are kept; a null stays null. |
| Deduplicator.SampleRows | deduplipy/deduplicator/deduplicator.py:119-121 | One sampled row per picked pool position, with that position as its id. Distinct picks give distinct ids. |
| Deduplicator.Product | deduplipy/deduplicator/deduplicator.py:123-130 | `product(xs, ys)` holds exactly the pairs of an `x` and a `y`. |
| Deduplicator.Pairing | deduplipy/deduplicator/deduplicator.py:123-130 | One `x` paired with each `y`. |
| Deduplicator.ProductKeys | deduplipy/deduplicator/deduplicator.py:123-130 | Between records with distinct ids, the product has one row per id pair. |
| Deduplicator.InsertPair | deduplipy/deduplicator/deduplicator.py:140 | Inserting a new key into a strictly sorted table keeps it strictly sorted and adds exactly that row. |
| Deduplicator.SortPairs | deduplipy/deduplicator/deduplicator.py:140 | `sort_values([row_id_1, row_id_2])`: the same rows, strictly ascending by id pair. |
| Deduplicator.UpperHalf | deduplipy/deduplicator/deduplicator.py:142-144 | Keeps exactly the rows with `row_id_1 <= row_id_2`, and keeps them sorted. |
| Deduplicator.SamplePairs | deduplipy/deduplicator/deduplicator.py:123-144 | The sample crossed with itself, sorted and filtered: exactly the ordered pairs with `id1 <= id2`, strictly sorted. |
| Deduplicator.SamplePairsCount | deduplipy/deduplicator/deduplicator.py:123-144 | k sampled records give k(k+1)/2 rows. |
| Deduplicator.UpperPairsCard | deduplipy/deduplicator/deduplicator.py:142-144 | The number of id pairs with `id1 <= id2` over k records is `1 + 2 + … + k`. |
| Deduplicator.TriangleClosed | deduplipy/deduplicator/deduplicator.py:142-144 | `2 · (1 + … + n) = n(n+1)`. |
| Deduplicator.SampleTable | deduplipy/deduplicator/deduplicator.py:107-149 | Fails iff the sample is empty, as splitting the empty product's column `0` raises. Otherwise, for k distinct picked records, the table has k(k+1)/2 rows. Each row holds the configured values of two sampled records, the first no later in the pool than the second, and every such pair of sampled records has a row. |
| Deduplicator.SampleTableCount | deduplipy/deduplicator/deduplicator.py:123-149 | k distinct picks give k(k+1)/2 table rows. |
| Deduplicator.SampleTableComplete | deduplipy/deduplicator/deduplicator.py:123-149 | Every pair of sampled records, the first no later in the pool than the second, appears in the table. |
| Deduplicator.AssignRowIds | deduplipy/deduplicator/deduplicator.py:237 | Every record's id becomes its position, and nothing else changes. |
| Deduplicator.OverrideScores | deduplipy/deduplicator/deduplicator.py:249-255 | Pairs whose two records agree on every configured column get score 1. Every other score, and every pair, is unchanged. |
| Deduplicator.AboveThreshold | deduplipy/deduplicator/deduplicator.py:258-260 | Keeps exactly the scored pairs with `score >= threshold`. |
| Deduplicator.Deduplicator.Predict | deduplipy/deduplicator/deduplicator.py:219-260 | Records are numbered by position. Every kept pair is a blocked pair of two records without null configured values sharing a fingerprint, scoring at least the threshold: 1 for exact duplicates, the learner's score otherwise. Conversely, every two such records that share a fingerprint and whose score reaches the threshold are kept, so with a threshold of at most 1 every two exact duplicates that share a fingerprint are kept. |
| Deduplicator.ScoredKept | deduplipy/deduplicator/deduplicator.py:240-260 | What `transform`, the override and the filter promise together implies what `predict` keeps, and that it keeps every pair that qualifies. |
| Deduplicator.AboveKept | deduplipy/deduplicator/deduplicator.py:240-260 | Every blocked pair whose score, after the override, reaches the threshold passes the filter. |
| Deduplicator.DuplicatesAbove | deduplipy/deduplicator/deduplicator.py:249-260 | With a threshold of at most 1, exact duplicates reach it, so every blocked pair of them is kept. |
| Deduplicator.MaxPresent | deduplipy/deduplicator/deduplicator.py:211-213 | None iff no record has an id. Otherwise it is a present id and at least every present id. |
| Deduplicator.Singletons | deduplipy/deduplicator/deduplicator.py:214-216 | Every record ends up with an id, and existing ids are unchanged. |
| Deduplicator.SingletonsRange | deduplipy/deduplicator/deduplicator.py:214-216 | The new ids run from `next` to `next + n_missing - 1`, and no two new ids are equal. |
| Deduplicator.SingletonsFresh | deduplipy/deduplicator/deduplicator.py:211-216 | Starting above every present id, each new id differs from every other id, old or new. |
| Deduplicator.AddSingletons | deduplipy/deduplicator/deduplicator.py:198-217 | Fails, changing nothing, iff no record has an id (the maximum is NaN). Otherwise the ids become `Singletons(old, max + 1)`: each missing id, in row order, gets the next number above the largest id. |

## Left out

- Python's `\d` matches every Unicode decimal digit. Here `Digit` is ASCII `0`–`9`, and `Letter` is `[a-zA-Z]`, as in the source's pattern.
- Training pairs are indexed by position: the model takes the frame's index to be `0 … n-1`, as the sample table builds it with `reset_index`.
- `Blocking.Blocking.Fingerprint`: `melt(id_vars=col_names + [ROW_ID])` also melts every column of `X` that is not an id variable (deduplipy/blocking/blocking.py:148-150). `predict` hands `transform` the caller's whole frame (deduplipy/deduplicator/deduplicator.py:237-240), so the raw values of any extra column become untagged fingerprints, and two records that share such a value are paired. The model melts only the fingerprint columns, so it misses those pairs.
- `Blocking.Blocking.Fingerprint`, `Blocking.Blocking.Transform`: they require `fitted`. Before `fit`, `rules_selected` does not exist and `_fingerprint` raises `AttributeError` (deduplipy/blocking/blocking.py:137); that error is not modelled.
- `Deduplicator.Deduplicator.Predict`: it requires a fitted blocker, for the same `AttributeError`.
- `Blocking.Blocking.Fingerprint`, `Blocking.Blocking.Transform`, `Deduplicator.Deduplicator.Predict`: `HasFields` requires a value in every selected rule's column of every record, so it also excludes a null there. On a null, the rule is called on NaN (deduplipy/blocking/blocking.py:141-147), and the built-in rules raise: `strip`, `split` and `replace` on a float raise `AttributeError` (deduplipy/blocking/blocking_rules.py:6, 54), and `re.findall` raises `TypeError` (deduplipy/blocking/blocking_rules.py:78-79). A rule a user wrote may instead return a token for NaN; a rule here takes only strings. A column missing from the whole frame raises `KeyError` at `df[col_name]` (deduplipy/blocking/blocking.py:141). None of these paths is modelled.
- `Blocking.Blocking.Fingerprint`, `Blocking.Blocking.Transform`, `Deduplicator.Deduplicator.Predict`: a configured column missing from the whole frame makes `melt` raise `KeyError` (deduplipy/blocking/blocking.py:148-150). The model cannot tell that apart from a null in every record, so no record is blocked instead.
- `Blocking.Blocking.Fit`: `HasColumns` requires both sides of every training pair to hold every spec's column, so it also excludes a null value in a training pair, which the sample table keeps. On a null, `fit` calls the rule on NaN (deduplipy/blocking/blocking.py:63-68), and the built-in rules raise `AttributeError` or `TypeError` as above; a user's rule may return a token instead. A column missing from the whole table raises `KeyError`. None of these paths is modelled.
- `SetCover.Coverage`: coverage and `recall` are exact reals. The source divides floats (deduplipy/blocking/set_cover.py:57), so a comparison with `recall` can round the other way at the boundary.
- A fingerprint column whose name equals a column of `X` overwrites that column. The model keeps fingerprint columns apart from the record's fields.
- The order of the rows `merge` produces depends on the pandas version. The model uses left row by left row, and states set-level results that do not depend on it.
- `AboveThreshold`: it keeps the order of the table, by construction; the contract states membership only.
- `pairs_col_names` and duplicate column names in the sample projection are not modelled; the projection is a map from column name to value.
- The random sample of `_create_pairs_table` is an input (`picked`, the sampled pool positions), and so is its size `int(n_samples ** 0.5)`.
- `Deduplicator.SampleTable`: it requires the picks to be distinct positions of the pool. A sample larger than the pool makes `X_pool.sample` raise `ValueError` (deduplipy/deduplicator/deduplicator.py:121); no such picks exist, so that error is not modelled.
- `Deduplicator.Project`: a configured column missing from the whole pool raises `KeyError` at `df_sample[self.col_names + [ROW_ID]]` (deduplipy/deduplicator/deduplicator.py:126). The model treats it as a null in every record.
- `_calculate_string_similarities`, the active learner (`fit`, `predict`, `predict_proba`), hierarchical clustering, the merge of clusters back into `X` and `astype(int)` are not part of this model. The learner's probability enters `Predict` as the `score` function.
- `Deduplicator.fit`'s wiring of the sample table, the learner and `myBlocker.fit` is not modelled. Each piece it calls is.
- NaN and float ids: `_add_singletons` works on integer ids or a missing value. The failure when every id is missing is the `Err` result.
- The `interaction`, `verbose` and `save_intermediate_steps` settings, the `print` calls, the `to_csv` dumps and `__repr__` are I/O and are left out.
- `Metric`: the string metrics are known by name only.
- `greedy_set_cover`'s conversion of non-set arguments to sets: every subset and the parent set are sets here.

## Findings

| source | as written | input that shows it | evidently intended | confidence | as-written member | corrected member |
|---|---|---|---|---|---|---|
| deduplipy/blocking/set_cover.py:33 | The loop runs while `result_set < parent_set`. Once a pick adds an element outside the parent set, `result_set` is no longer a proper subset and the loop stops, whatever the coverage. | subsets `[{0,2},{1}]`, parent `{0,1}`, recall 1.0: returns `[{0,2}]`, with coverage 0.5 | Run until the parent set is covered (or recall is reached) | not executed | SetCover.GuardExitExample | SetCover.GuardExitFixedExample |
| deduplipy/blocking/set_cover.py:30,48 | Scores count elements outside the parent set, so a large subset with little inside the parent set wins | subsets `[{0,5,6,7},{0,1}]`, parent `{0,1}`, recall 1.0: returns `[{0,5,6,7}]`, with coverage 0.5 | Score only the uncovered elements of the parent set | not executed | SetCover.GainOutsideExample | SetCover.GainOutsideFixedExample |
| deduplipy/blocking/set_cover.py:36-54 | When the heap is empty and the parent set is not covered, `best` stays `[]` and `best[2]` raises `IndexError` | subsets `[{}]`, parent `{0}`, recall 1.0: fails | Return the cover achieved so far | not executed | SetCover.ExhaustedExample | SetCover.ExhaustedFixedExample |

=== FILE: Blocking.dfy ===
// The blocking engine: which (column, rule) pairs to use, fitted on labelled
// training pairs by set cover, and how the selected rules turn records into
// candidate pairs through shared fingerprints.
//
// Tables are sequences of records; a record's values are a map from column
// name to string, and a column missing from a record is a null value there.
// A rule is any `String -> Option<String>` function with a name (a user may
// give their own rules, not just the fourteen built-in ones).

module Blocking {
  import opened Wrappers
  import opened Rules
  import SetCover

  /** A record of the table being deduplicated: its row id and its values. */
  datatype Row = Row(id: int, fields: map<String, String>)

  /** A training pair: the values of its first (`<col>_1`) and second
      (`<col>_2`) record. */
  datatype TrainingPair = TrainingPair(left: map<String, String>, right: map<String, String>)

  /** `rules_info`: column names with the rules to try on each, in the
      dictionary's order. */
  type RulesInfo = seq<(String, seq<Rule>)>

  /** One entry of `_rules_specs`: a column and a rule; `fit` adds the set of
      training indices on which the rule agrees. */
  datatype RuleSpec = RuleSpec(colName: String, rule: Rule, ruleSet: Option<set<nat>>)

  /** One row of the fingerprint table: a record and one of its fingerprints. */
  datatype Tagged = Tagged(row: Row, fingerprint: String)

  /** One row of the pairs table: the first record, the fingerprint the two
      share, and the second record. */
  datatype Candidate = Candidate(left: Row, fingerprint: String, right: Row)

  // ---------------------------------------------------------------------
  // _get_rules_specs

  /** Number of specs the first `k` entries of `info` contribute. */
  function Offset(info: RulesInfo, k: nat): nat
    requires k <= |info|
  {
    if k == 0 then 0 else |info[0].1| + Offset(info[1..], k - 1)
  }

  /** `_get_rules_specs`: one spec per (column, rule) of `rules_info`. */
  function GetRulesSpecs(info: RulesInfo): seq<RuleSpec> {
    if info == [] then []
    else seq(|info[0].1|, m requires 0 <= m < |info[0].1| => RuleSpec(info[0].0, info[0].1[m], None)) + GetRulesSpecs(info[1..])
  }

  /** As many specs as `rules_info` has (column, rule) entries. */
  lemma {:induction false} GetRulesSpecsLength(info: RulesInfo)
    ensures |GetRulesSpecs(info)| == Offset(info, |info|)
  {
    if info != [] {
      GetRulesSpecsLength(info[1..]);
    }
  }

  /** Rule `m` of column `k` is the spec at `Offset(info, k) + m`: columns in
      `rules_info`'s order, rules in order within a column, no rule set yet. */
  lemma {:induction false} GetRulesSpecsAt(info: RulesInfo, k: nat, m: nat)
    requires k < |info| && m < |info[k].1|
    ensures Offset(info, k) + m < |GetRulesSpecs(info)|
    ensures GetRulesSpecs(info)[Offset(info, k) + m] == RuleSpec(info[k].0, info[k].1[m], None)
  {
    var rest := GetRulesSpecs(info[1..]);
    var here := seq(|info[0].1|, m requires 0 <= m < |info[0].1| => RuleSpec(info[0].0, info[0].1[m], None));
    assert GetRulesSpecs(info) == here + rest;
    if k > 0 {
      assert info[1..][k - 1] == info[k];
      GetRulesSpecsAt(info[1..], k - 1, m);
    }
  }

  // ---------------------------------------------------------------------
  // Tokens and fingerprints

  /** `apply_rule` in `fit`: a falsy result (no token, or the empty string)
      is no token; otherwise the token is tagged with the spec's position. */
  function ApplyRule(rule: Rule, x: String, j: nat): Option<String> {
    var r := rule.apply(x);
    if r.None? || r.value == [] then None else Some(r.value + ":" + NatToString(j))
  }

  /** A value of a fingerprint column in `_fingerprint`: every non-null
      result, the empty string included, is tagged with the rule's position
      in `rules_selected`. */
  function Mark(r: Option<String>, j: nat): Option<String> {
    if r.None? then None else Some(r.value + ":" + NatToString(j))
  }

  /** A tag `":" + str(j)` can be told apart from what precedes it: equal
      tagged tokens come from equal tokens and equal positions. */
  lemma MarkInjective(a: String, j: nat, b: String, k: nat)
    requires a + ":" + NatToString(j) == b + ":" + NatToString(k)
    ensures a == b && j == k
  {
    TrimDigitsOfTag(a, NatToString(j));
    TrimDigitsOfTag(b, NatToString(k));
    assert a + ":" == b + ":";
    assert a == (a + ":")[..|a|] == b;
    assert NatToString(j) == (a + ":" + NatToString(j))[|a| + 1..];
    assert NatToString(k) == (b + ":" + NatToString(k))[|b| + 1..];
    ToNatOfNatToString(j);
    ToNatOfNatToString(k);
  }

  /** Drops the trailing run of digits. */
  function TrimDigits(t: String): String {
    if t != [] && InClass(t[|t| - 1], Digit) then TrimDigits(t[..|t| - 1]) else t
  }

  lemma {:induction false} TrimDigitsOfTag(a: String, d: String)
    requires AllIn(d, Digit)
    ensures TrimDigits(a + ":" + d) == a + ":"
    decreases |d|
  {
    var t := a + ":" + d;
    if d == [] {
      assert t == a + ":" && t[|t| - 1] == ':';
    } else {
      assert t[..|t| - 1] == a + ":" + d[..|d| - 1];
      TrimDigitsOfTag(a, d[..|d| - 1]);
    }
  }

  /** Two sides agree under a rule when both give a non-empty token and the
      tokens are equal. */
  predicate Agree(rule: Rule, x: String, y: String) {
    var a := rule.apply(x);
    a.Some? && a.value != [] && a == rule.apply(y)
  }

  /** Comparing the tagged tokens of `fit` is comparing the rule's tokens. */
  lemma ApplyRuleAgree(rule: Rule, x: String, y: String, j: nat)
    ensures (ApplyRule(rule, x, j).Some? && ApplyRule(rule, x, j) == ApplyRule(rule, y, j)) <==> Agree(rule, x, y)
  {
    if ApplyRule(rule, x, j).Some? && ApplyRule(rule, x, j) == ApplyRule(rule, y, j) {
      MarkInjective(rule.apply(x).value, j, rule.apply(y).value, j);
    }
  }

  /** Every spec's column is present on both sides of every training pair. */
  predicate HasColumns(pairs: seq<TrainingPair>, specs: seq<RuleSpec>) {
    forall i, k :: 0 <= i < |pairs| && 0 <= k < |specs| ==>
      specs[k].colName in pairs[i].left && specs[k].colName in pairs[i].right
  }

  /** The training indices on which spec `spec` agrees. */
  ghost function AgreeSet(pairs: seq<TrainingPair>, spec: RuleSpec): set<nat>
    requires forall i :: 0 <= i < |pairs| ==> spec.colName in pairs[i].left && spec.colName in pairs[i].right
  {
    set i: nat | i < |pairs| && Agree(spec.rule, pairs[i].left[spec.colName], pairs[i].right[spec.colName])
  }

  /** The `rule_set` of spec `j` in `fit`: the training indices where both
      sides get a tagged token and the two are equal. */
  method RuleSet(pairs: seq<TrainingPair>, spec: RuleSpec, j: nat) returns (s: set<nat>)
    requires forall i :: 0 <= i < |pairs| ==> spec.colName in pairs[i].left && spec.colName in pairs[i].right
    ensures forall i: nat :: i in s <==> i < |pairs| && Agree(spec.rule, pairs[i].left[spec.colName], pairs[i].right[spec.colName])
  {
    s := {};
    for i := 0 to |pairs|
      invariant forall q: nat :: q in s <==> q < i && Agree(spec.rule, pairs[q].left[spec.colName], pairs[q].right[spec.colName])
    {
      var x, y := pairs[i].left[spec.colName], pairs[i].right[spec.colName];
      var a, b := ApplyRule(spec.rule, x, j), ApplyRule(spec.rule, y, j);
      ApplyRuleAgree(spec.rule, x, y, j);
      if a.Some? && b.Some? && a == b {
        s := s + {i};
      }
    }
  }

  // ---------------------------------------------------------------------
  // Universe and rule selection

  /** `df_training[df_training.match == 1].index`: the matched indices, in order. */
  function MatchIndices(y: seq<int>): (ms: seq<nat>)
    ensures forall a, b :: 0 <= a < b < |ms| ==> ms[a] < ms[b]
    ensures forall a :: 0 <= a < |ms| ==> ms[a] < |y|
    ensures forall i: nat :: i in ms <==> i < |y| && y[i] == 1
  {
    if y == [] then []
    else
      var ms := MatchIndices(y[..|y| - 1]);
      assert forall i: nat :: i < |y| - 1 ==> y[..|y| - 1][i] == y[i];
      if y[|y| - 1] == 1 then ms + [|y| - 1] else ms
  }

  /** A spec is selected when its rule set equals, by value, a set of the cover. */
  predicate Kept(spec: RuleSpec, cover: seq<set<nat>>) {
    spec.ruleSet.Some? && spec.ruleSet.value in cover
  }

  /** The positions, from `from` on, of the specs the cover keeps, ascending. */
  function KeptPositions(specs: seq<RuleSpec>, cover: seq<set<nat>>, from: nat): (ps: seq<nat>)
    requires from <= |specs|
    ensures forall a :: 0 <= a < |ps| ==> from <= ps[a] < |specs|
    ensures forall a, b :: 0 <= a < b < |ps| ==> ps[a] < ps[b]
    ensures forall j: nat :: from <= j < |specs| ==> (j in ps <==> Kept(specs[j], cover))
    decreases |specs| - from
  {
    if from == |specs| then []
    else
      var rest := KeptPositions(specs, cover, from + 1);
      if Kept(specs[from], cover) then [from] + rest else rest
  }

  /** `rules_selected`: the kept specs, in the order of `_rules_specs`. */
  function SelectRules(specs: seq<RuleSpec>, cover: seq<set<nat>>): (selected: seq<RuleSpec>)
    ensures forall s :: s in selected <==> s in specs && Kept(s, cover)
  {
    var ps := KeptPositions(specs, cover, 0);
    var selected := seq(|ps|, a requires 0 <= a < |ps| => specs[ps[a]]);
    assert forall s :: s in specs && Kept(s, cover) ==> s in selected by {
      forall s | s in specs && Kept(s, cover) ensures s in selected {
        var j :| 0 <= j < |specs| && specs[j] == s;
        var a :| 0 <= a < |ps| && ps[a] == j;
        assert selected[a] == s;
      }
    }
    selected
  }

  // ---------------------------------------------------------------------
  // _fingerprint

  /** One fingerprint column of `_fingerprint`'s table, named
      `<col_name>_<function_name>`, with a value (or null) per record. */
  datatype FpColumn = FpColumn(name: String, values: seq<Option<String>>)

  function ColumnName(spec: RuleSpec): String {
    spec.colName + "_" + spec.rule.name
  }

  /** Every selected spec's column is present in every record. */
  predicate HasFields(rows: seq<Row>, sel: seq<RuleSpec>) {
    forall i, k :: 0 <= i < |rows| && 0 <= k < |sel| ==> sel[k].colName in rows[i].fields
  }

  /** The column the `k`th selected rule adds: its tagged result per record
      (a record without the column has none; `Fingerprint` rules that out). */
  function RuleColumn(rows: seq<Row>, spec: RuleSpec, k: nat): (values: seq<Option<String>>)
    ensures |values| == |rows|
  {
    seq(|rows|, i requires 0 <= i < |rows| =>
      if spec.colName in rows[i].fields then Mark(spec.rule.apply(rows[i].fields[spec.colName]), k) else None)
  }

  /** The position of the column called `name`, if there is one. */
  function IndexOfName(frame: seq<FpColumn>, name: String): (c: Option<nat>)
    ensures c.Some? ==> c.value < |frame| && frame[c.value].name == name
    ensures c.None? ==> forall d :: 0 <= d < |frame| ==> frame[d].name != name
  {
    if frame == [] then None
    else if frame[|frame| - 1].name == name then Some(|frame| - 1)
    else IndexOfName(frame[..|frame| - 1], name)
  }

  /** The `k`th selected rule still has its own column after the first `j`
      rules were added: no later one among them has the same column name. */
  ghost predicate Live(sel: seq<RuleSpec>, k: nat, j: nat) {
    k < j <= |sel| && forall m :: k < m < j ==> ColumnName(sel[m]) != ColumnName(sel[k])
  }

  /** The fingerprint table after the first `j` selected rules: the names are
      distinct, column `c` is the column of rule `origin[c]`, which is live,
      and every live rule has its column. */
  ghost predicate FrameOf(rows: seq<Row>, sel: seq<RuleSpec>, j: nat, frame: seq<FpColumn>, origin: seq<nat>) {
    && |origin| == |frame|
    && (forall c :: 0 <= c < |frame| ==> Live(sel, origin[c], j))
    && (forall c :: 0 <= c < |frame| && origin[c] < |sel| ==>
          frame[c] == FpColumn(ColumnName(sel[origin[c]]), RuleColumn(rows, sel[origin[c]], origin[c])))
    && (forall k: nat :: Live(sel, k, j) ==> k in origin)
    && (forall a, b :: 0 <= a < b < |frame| ==> frame[a].name != frame[b].name)
  }

  /** Rule `j`'s column overwrites column `c`, which has its name. */
  lemma FrameReplace(rows: seq<Row>, sel: seq<RuleSpec>, j: nat, frame: seq<FpColumn>, origin: seq<nat>, c: nat)
    requires j < |sel| && FrameOf(rows, sel, j, frame, origin)
    requires c < |frame| && frame[c].name == ColumnName(sel[j])
    ensures FrameOf(rows, sel, j + 1, frame[c := FpColumn(ColumnName(sel[j]), RuleColumn(rows, sel[j], j))], origin[c := j])
  {
    var name := ColumnName(sel[j]);
    forall d | 0 <= d < |frame| && d != c ensures Live(sel, origin[d], j + 1) {
      assert frame[d].name != name;
    }
    var origin' := origin[c := j];
    forall k: nat | Live(sel, k, j + 1) ensures k in origin' {
      if k < j {
        assert Live(sel, k, j);
        var d :| 0 <= d < |origin| && origin[d] == k;
        assert frame[d].name != name;
        assert origin'[d] == k;
      } else {
        assert origin'[c] == j;
      }
    }
  }

  /** Rule `j`'s column is new and goes at the end. */
  lemma FrameAppend(rows: seq<Row>, sel: seq<RuleSpec>, j: nat, frame: seq<FpColumn>, origin: seq<nat>)
    requires j < |sel| && FrameOf(rows, sel, j, frame, origin)
    requires forall d :: 0 <= d < |frame| ==> frame[d].name != ColumnName(sel[j])
    ensures FrameOf(rows, sel, j + 1, frame + [FpColumn(ColumnName(sel[j]), RuleColumn(rows, sel[j], j))], origin + [j])
  {
    var name := ColumnName(sel[j]);
    forall d | 0 <= d < |frame| ensures Live(sel, origin[d], j + 1) {
      assert frame[d].name != name;
    }
    forall k: nat | Live(sel, k, j + 1) ensures k in origin + [j] {
      if k < j {
        assert Live(sel, k, j);
      } else {
        assert (origin + [j])[|origin|] == j;
      }
    }
  }

  /** `df.melt(...)` for one column, with nulls dropped: the records with a
      value, in record order. */
  function MeltColumn(rows: seq<Row>, values: seq<Option<String>>): (df: seq<Tagged>)
    requires |values| == |rows|
    ensures forall t :: t in df <==> exists i :: 0 <= i < |rows| && rows[i] == t.row && values[i] == Some(t.fingerprint)
  {
    if rows == [] then []
    else
      var n := |rows| - 1;
      var df := MeltColumn(rows[..n], values[..n]) + (if values[n].Some? then [Tagged(rows[n], values[n].value)] else []);
      assert forall i :: 0 <= i < n ==> rows[..n][i] == rows[i] && values[..n][i] == values[i];
      df
  }

  /** `df.melt(...)` with the null values dropped: column by column, the
      non-null values. */
  function Melt(rows: seq<Row>, frame: seq<FpColumn>): (df: seq<Tagged>)
    requires forall c :: 0 <= c < |frame| ==> |frame[c].values| == |rows|
    ensures forall t :: t in df <==>
      (exists c, i :: 0 <= c < |frame| && 0 <= i < |rows| && rows[i] == t.row && frame[c].values[i] == Some(t.fingerprint))
  {
    if frame == [] then []
    else
      var df := MeltColumn(rows, frame[0].values) + Melt(rows, frame[1..]);
      assert forall c :: 1 <= c < |frame| ==> frame[1..][c - 1] == frame[c];
      df
  }

  /** A record has a value in every column of `names`; a column missing
      from a record's fields is a null. */
  predicate Complete(row: Row, names: seq<String>) {
    forall n :: n in names ==> n in row.fields
  }

  /** The rest of `dropna()` (how='any'): a melted row is also dropped when
      one of its id columns `col_names` is null, so a record with a null
      configured value loses every one of its rows. */
  function DropNa(df: seq<Tagged>, idVars: seq<String>): (r: seq<Tagged>)
    ensures forall t :: t in r <==> t in df && Complete(t.row, idVars)
  {
    if df == [] then []
    else (if Complete(df[0].row, idVars) then [df[0]] else []) + DropNa(df[1..], idVars)
  }

  /** The fingerprints of a record: for every selected rule with its own
      column and a non-null result, that result tagged with the rule's
      position in `rules_selected`. */
  ghost function Fingerprints(sel: seq<RuleSpec>, row: Row): set<String> {
    set k | 0 <= k < |sel| && Live(sel, k, |sel|) && sel[k].colName in row.fields
      && sel[k].rule.apply(row.fields[sel[k].colName]).Some?
      :: sel[k].rule.apply(row.fields[sel[k].colName]).value + ":" + NatToString(k)
  }

  /** The melted table holds exactly the (record, fingerprint) rows. */
  lemma MeltedFingerprints(rows: seq<Row>, sel: seq<RuleSpec>, frame: seq<FpColumn>, origin: seq<nat>)
    requires HasFields(rows, sel) && FrameOf(rows, sel, |sel|, frame, origin)
    ensures forall c :: 0 <= c < |frame| ==> |frame[c].values| == |rows|
    ensures forall t :: t in Melt(rows, frame) <==> t.row in rows && t.fingerprint in Fingerprints(sel, t.row)
  {
    forall t | t in Melt(rows, frame) ensures t.row in rows && t.fingerprint in Fingerprints(sel, t.row) {
      var c, i :| 0 <= c < |frame| && 0 <= i < |rows| && rows[i] == t.row && frame[c].values[i] == Some(t.fingerprint);
      MeltedRow(rows, sel, frame, origin, c, i);
    }
    forall t: Tagged | t.row in rows && t.fingerprint in Fingerprints(sel, t.row) ensures t in Melt(rows, frame) {
      var i :| 0 <= i < |rows| && rows[i] == t.row;
      var c := RowMelted(rows, sel, frame, origin, i, t.fingerprint);
    }
  }

  /** A value of the final table is a fingerprint of its record. */
  lemma MeltedRow(rows: seq<Row>, sel: seq<RuleSpec>, frame: seq<FpColumn>, origin: seq<nat>, c: nat, i: nat)
    requires HasFields(rows, sel) && FrameOf(rows, sel, |sel|, frame, origin)
    requires c < |frame| && i < |rows| && frame[c].values[i].Some?
    ensures frame[c].values[i].value in Fingerprints(sel, rows[i])
  {
    var k := origin[c];
    assert Mark(sel[k].rule.apply(rows[i].fields[sel[k].colName]), k) == frame[c].values[i];
  }

  /** A fingerprint of a record is a value of the final table, in the
      column `c` of the rule that made it. */
  lemma RowMelted(rows: seq<Row>, sel: seq<RuleSpec>, frame: seq<FpColumn>, origin: seq<nat>, i: nat, fp: String)
    returns (c: nat)
    requires HasFields(rows, sel) && FrameOf(rows, sel, |sel|, frame, origin)
    requires i < |rows| && fp in Fingerprints(sel, rows[i])
    ensures c < |frame| && frame[c].values[i] == Some(fp)
  {
    var row := rows[i];
    var k :| 0 <= k < |sel| && Live(sel, k, |sel|) && sel[k].colName in row.fields
      && sel[k].rule.apply(row.fields[sel[k].colName]).Some?
      && fp == sel[k].rule.apply(row.fields[sel[k].colName]).value + ":" + NatToString(k);
    c :| 0 <= c < |origin| && origin[c] == k;
  }

  /** Two records that share a fingerprint got the same token from the same
      selected rule: the tag keeps different rules apart. */
  lemma SharedFingerprint(sel: seq<RuleSpec>, a: Row, b: Row, fp: String)
    requires fp in Fingerprints(sel, a) && fp in Fingerprints(sel, b)
    ensures exists k :: (0 <= k < |sel| && sel[k].colName in a.fields && sel[k].colName in b.fields
      && sel[k].rule.apply(a.fields[sel[k].colName]).Some?
      && sel[k].rule.apply(a.fields[sel[k].colName]) == sel[k].rule.apply(b.fields[sel[k].colName]))
  {
    var k :| 0 <= k < |sel| && Live(sel, k, |sel|) && sel[k].colName in a.fields
      && sel[k].rule.apply(a.fields[sel[k].colName]).Some?
      && fp == sel[k].rule.apply(a.fields[sel[k].colName]).value + ":" + NatToString(k);
    var k' :| 0 <= k' < |sel| && Live(sel, k', |sel|) && sel[k'].colName in b.fields
      && sel[k'].rule.apply(b.fields[sel[k'].colName]).Some?
      && fp == sel[k'].rule.apply(b.fields[sel[k'].colName]).value + ":" + NatToString(k');
    MarkInjective(sel[k].rule.apply(a.fields[sel[k].colName]).value, k, sel[k'].rule.apply(b.fields[sel[k'].colName]).value, k');
  }

  // ---------------------------------------------------------------------
  // _create_pairs_table and drop_duplicates

  /** The merge rows of one left row: every right row with its fingerprint,
      in order. */
  function MergeRow(a: Tagged, right: seq<Tagged>): (r: seq<Candidate>)
    ensures forall c :: c in r <==> c.left == a.row && c.fingerprint == a.fingerprint && Tagged(c.right, c.fingerprint) in right
  {
    if right == [] then []
    else
      var n := |right| - 1;
      var r := MergeRow(a, right[..n]) + (if right[n].fingerprint == a.fingerprint then [Candidate(a.row, a.fingerprint, right[n].row)] else []);
      assert forall t :: t in right <==> t in right[..n] || t == right[n] by {
        assert right == right[..n] + [right[n]];
      }
      r
  }

  /** `left.merge(right, on="fingerprint")`: left row by left row. */
  function Merge(left: seq<Tagged>, right: seq<Tagged>): (r: seq<Candidate>)
    ensures forall c :: c in r <==> Tagged(c.left, c.fingerprint) in left && Tagged(c.right, c.fingerprint) in right
  {
    if left == [] then []
    else
      var n := |left| - 1;
      var r := Merge(left[..n], right) + MergeRow(left[n], right);
      assert forall t :: t in left <==> t in left[..n] || t == left[n] by {
        assert left == left[..n] + [left[n]];
      }
      r
  }

  /** The rows with `row_id_1 < row_id_2`, in order. */
  function Ordered(cs: seq<Candidate>): (r: seq<Candidate>)
    ensures forall c :: c in r <==> c in cs && c.left.id < c.right.id
  {
    if cs == [] then []
    else
      var n := |cs| - 1;
      var r := Ordered(cs[..n]) + (if cs[n].left.id < cs[n].right.id then [cs[n]] else []);
      assert forall c :: c in cs <==> c in cs[..n] || c == cs[n] by {
        assert cs == cs[..n] + [cs[n]];
      }
      r
  }

  /** `_create_pairs_table`: the self-join on fingerprint, ordered by row id. */
  function CreatePairsTable(fingerprinted: seq<Tagged>): (pairs: seq<Candidate>)
    ensures forall c :: c in pairs <==>
      Tagged(c.left, c.fingerprint) in fingerprinted && Tagged(c.right, c.fingerprint) in fingerprinted && c.left.id < c.right.id
  {
    Ordered(Merge(fingerprinted, fingerprinted))
  }

  function Key(c: Candidate): (int, int) {
    (c.left.id, c.right.id)
  }

  function KeySet(cs: seq<Candidate>): set<(int, int)> {
    set c | c in cs :: Key(c)
  }

  /** `drop_duplicates(subset=[row_id_1, row_id_2])` from the front, with
      the id pairs already `seen` dropped. */
  function Dedup(cs: seq<Candidate>, seen: set<(int, int)>): (r: seq<Candidate>)
    ensures |r| <= |cs|
    decreases |cs|
  {
    if cs == [] then []
    else if Key(cs[0]) in seen then Dedup(cs[1..], seen)
    else [cs[0]] + Dedup(cs[1..], seen + {Key(cs[0])})
  }

  /** Keeps the first row of each id pair. */
  function DropDuplicates(cs: seq<Candidate>): seq<Candidate> {
    Dedup(cs, {})
  }

  /** The kept rows come from the input, carry distinct id pairs none of
      which was seen, and cover every unseen id pair of the input. */
  lemma {:induction false} DedupKeys(cs: seq<Candidate>, seen: set<(int, int)>)
    ensures forall c :: c in Dedup(cs, seen) ==> c in cs
    ensures forall a, b :: 0 <= a < b < |Dedup(cs, seen)| ==> Key(Dedup(cs, seen)[a]) != Key(Dedup(cs, seen)[b])
    ensures KeySet(Dedup(cs, seen)) == KeySet(cs) - seen
    decreases |cs|
  {
    if cs != [] {
      assert cs == [cs[0]] + cs[1..];
      var k := Key(cs[0]);
      if k in seen {
        DedupKeys(cs[1..], seen);
      } else {
        DedupKeys(cs[1..], seen + {k});
        var rest := Dedup(cs[1..], seen + {k});
        var r := Dedup(cs, seen);
        assert r == [cs[0]] + rest;
        forall a, b | 0 <= a < b < |r| ensures Key(r[a]) != Key(r[b]) {
          assert r[b] == rest[b - 1];
          assert Key(rest[b - 1]) in KeySet(rest);
          if a > 0 {
            assert r[a] == rest[a - 1];
          }
        }
        assert KeySet(r) == {k} + KeySet(rest);
      }
    }
  }

  /** The first row of each id pair not yet seen is kept. */
  lemma {:induction false} DedupKeepsFirst(cs: seq<Candidate>, seen: set<(int, int)>, i: nat)
    requires i < |cs| && Key(cs[i]) !in seen && Key(cs[i]) !in KeySet(cs[..i])
    ensures cs[i] in Dedup(cs, seen)
    decreases i
  {
    var k := Key(cs[0]);
    if i == 0 {
    } else {
      assert cs[0] in cs[..i];
      assert cs[1..][..i - 1] == cs[1..i];
      assert KeySet(cs[1..i]) <= KeySet(cs[..i]) by {
        forall c | c in cs[1..i] ensures c in cs[..i] {
          var m :| 0 <= m < i - 1 && cs[1..i][m] == c;
          assert cs[..i][m + 1] == c;
        }
      }
      if k in seen {
        DedupKeepsFirst(cs[1..], seen, i - 1);
      } else {
        DedupKeepsFirst(cs[1..], seen + {k}, i - 1);
      }
    }
  }

  // ---------------------------------------------------------------------
  // The estimator

  /** The loop of `fit` over the specs: each gets the set of training
      indices on which its rule agrees. */
  method WithRuleSets(pairs: seq<TrainingPair>, specs: seq<RuleSpec>) returns (fitted: seq<RuleSpec>)
    requires HasColumns(pairs, specs)
    ensures |fitted| == |specs|
    ensures forall j :: 0 <= j < |specs| ==> fitted[j] == specs[j].(ruleSet := Some(AgreeSet(pairs, specs[j])))
  {
    fitted := specs;
    for j := 0 to |specs|
      invariant |fitted| == |specs|
      invariant forall k :: 0 <= k < j ==> fitted[k] == specs[k].(ruleSet := Some(AgreeSet(pairs, specs[k])))
      invariant forall k :: j <= k < |specs| ==> fitted[k] == specs[k]
    {
      var s := RuleSet(pairs, fitted[j], j);
      assert s == AgreeSet(pairs, specs[j]);
      fitted := fitted[j := fitted[j].(ruleSet := Some(s))];
    }
  }

  /** Every kept pair joins two fingerprint rows with the same fingerprint. */
  lemma PairsSound(df: seq<Tagged>, rows: seq<Row>, sel: seq<RuleSpec>, names: seq<String>)
    requires forall t :: t in df <==> t.row in rows && Complete(t.row, names) && t.fingerprint in Fingerprints(sel, t.row)
    ensures forall c :: c in DropDuplicates(CreatePairsTable(df)) ==> (c.left in rows && c.right in rows && c.left.id < c.right.id
      && Complete(c.left, names) && Complete(c.right, names)
      && c.fingerprint in Fingerprints(sel, c.left) && c.fingerprint in Fingerprints(sel, c.right))
  {
    DedupKeys(CreatePairsTable(df), {});
    forall c | c in DropDuplicates(CreatePairsTable(df))
      ensures c.left in rows && c.right in rows && c.left.id < c.right.id
      && Complete(c.left, names) && Complete(c.right, names)
    {
      assert Tagged(c.left, c.fingerprint) in df && Tagged(c.right, c.fingerprint) in df;
    }
  }

  /** Every two records with a shared fingerprint, in id order, are paired. */
  lemma PairsComplete(df: seq<Tagged>)
    ensures forall a, b, fp :: (Tagged(a, fp) in df && Tagged(b, fp) in df && a.id < b.id) ==>
      (a.id, b.id) in KeySet(DropDuplicates(CreatePairsTable(df)))
  {
    var joined := CreatePairsTable(df);
    DedupKeys(joined, {});
    assert KeySet(DropDuplicates(joined)) == KeySet(joined);
    forall a, b, fp | Tagged(a, fp) in df && Tagged(b, fp) in df && a.id < b.id
      ensures (a.id, b.id) in KeySet(joined)
    {
      var c := Candidate(a, fp, b);
      assert c in joined;
      assert Key(c) == (a.id, b.id);
    }
  }

  /** What `fit` keeps of `greedy_set_cover` as written: `cover` is the
      subsets at `picks`, distinct positions, each with the largest gain
      among those not yet picked while `universe` was still a proper
      superset of what was covered; and the loop stopped because that no
      longer held, or because the recall was reached with at least one pick. */
  ghost predicate CoverOf(subsets: seq<set<nat>>, universe: set<nat>, recall: real, picks: seq<nat>, cover: seq<set<nat>>) {
    SetCover.Returned(subsets, universe, recall, Ok(cover), picks)
  }

  /** What the corrected cover gives: greedy picks scored inside `universe`,
      each adding something, stopping only once `universe` is covered, the
      recall is reached or nothing is left to add; so the recall is reached
      whenever all subsets together reach it. */
  ghost predicate FixedCoverOf(subsets: seq<set<nat>>, universe: set<nat>, recall: real, picks: seq<nat>, cover: seq<set<nat>>) {
    && SetCover.ValidPicks(|subsets|, picks) && cover == SetCover.PickedSubsets(subsets, picks)
    && SetCover.Record(SetCover.NotCovered, SetCover.Restricted(subsets, universe), subsets, universe, recall, picks, cover)
    && SetCover.Useful(SetCover.Restricted(subsets, universe), picks, cover)
    && SetCover.Finished(subsets, universe, recall, cover)
    && (universe != {} && SetCover.Coverage(SetCover.UnionOf(subsets), universe) >= recall ==>
          SetCover.Coverage(SetCover.UnionOf(cover), universe) >= recall)
  }

  /** What the first half of `fit` computes from the specs `specs0` it
      starts with: each spec with its agreement set, the subsets, the
      matched indices and the universe. */
  ghost predicate Learned(pairs: seq<TrainingPair>, y: seq<int>, specs0: seq<RuleSpec>,
                          specs: seq<RuleSpec>, subsets: seq<set<nat>>, matches: seq<nat>, universe: set<nat>)
    requires HasColumns(pairs, specs0)
  {
    && |specs| == |specs0|
    && (forall j :: 0 <= j < |specs| ==> specs[j] == specs0[j].(ruleSet := Some(AgreeSet(pairs, specs0[j]))))
    && |subsets| == |specs| && (forall j :: 0 <= j < |subsets| ==> specs[j].ruleSet == Some(subsets[j]))
    && matches == MatchIndices(y) && (forall i: nat :: i in universe <==> i < |y| && y[i] == 1)
  }

  /** `Blocking`: the configuration, the rule specs, and what `fit` learns. */
  class Blocking {
    const colNames: seq<String>
    const rulesInfo: RulesInfo
    const recall: real
    var rulesSpecs: seq<RuleSpec>
    var subsets: seq<set<nat>>
    var matches: seq<nat>
    var universe: set<nat>
    var cover: seq<set<nat>>
    /** The positions in `subsets` the cover picked, in pick order. */
    ghost var coverPicks: seq<nat>
    var rulesSelected: seq<RuleSpec>
    /** `fit` has run. */
    ghost var fitted: bool

    constructor(colNames: seq<String>, rulesInfo: RulesInfo, recall: real)
      ensures this.colNames == colNames && this.rulesInfo == rulesInfo && this.recall == recall
      ensures rulesSpecs == GetRulesSpecs(rulesInfo) && !fitted
    {
      this.colNames := colNames;
      this.rulesInfo := rulesInfo;
      this.recall := recall;
      rulesSpecs := GetRulesSpecs(rulesInfo);
      subsets, matches, universe, cover, rulesSelected := [], [], {}, [], [];
      coverPicks := [];
      fitted := false;
    }

    /** `fit` up to the cover: the rule sets (lines 70-101), the subsets,
        the matched indices and the universe (lines 110-113). */
    method LearnSubsets(pairs: seq<TrainingPair>, y: seq<int>)
      requires |y| == |pairs| && HasColumns(pairs, rulesSpecs)
      modifies this`rulesSpecs, this`subsets, this`matches, this`universe
      ensures Learned(pairs, y, old(rulesSpecs), rulesSpecs, subsets, matches, universe)
    {
      var specs := WithRuleSets(pairs, rulesSpecs);
      var ms := MatchIndices(y);
      rulesSpecs, matches, universe := specs, ms, set i | i in ms;
      subsets := seq(|specs|, j requires 0 <= j < |specs| => specs[j].ruleSet.value);
    }

    /** The rest of `fit`: `greedy_set_cover` of the universe and the specs
        whose rule set is in the cover.  When it fails, `fit` raises and the
        old cover and selection remain. */
    method SelectCover() returns (r: Result<(), SetCover.CoverError>)
      modifies this`cover, this`coverPicks, this`rulesSelected, this`fitted
      ensures r.Ok? ==> CoverOf(subsets, universe, recall, coverPicks, cover)
      ensures r.Ok? ==> rulesSelected == SelectRules(rulesSpecs, cover) && fitted
      ensures r.Err? ==> SetCover.Returned(subsets, universe, recall, Err(SetCover.HeapExhausted), coverPicks)
      ensures r.Err? ==> cover == old(cover) && rulesSelected == old(rulesSelected) && fitted == old(fitted)
    {
      var c, picks := SetCover.GreedySetCover(subsets, universe, recall);
      coverPicks := picks;
      if c.Err? {
        return Err(c.error);
      }
      cover, rulesSelected, fitted := c.value, SelectRules(rulesSpecs, c.value), true;
      r := Ok(());
    }

    /** The corrected cover of the universe in place of `greedy_set_cover`. */
    method SelectCoverFixed()
      modifies this`cover, this`coverPicks, this`rulesSelected, this`fitted
      ensures FixedCoverOf(subsets, universe, recall, coverPicks, cover)
      ensures rulesSelected == SelectRules(rulesSpecs, cover) && fitted
    {
      var c, picks := SetCover.GreedySetCoverFixed(subsets, universe, recall);
      cover, coverPicks, rulesSelected, fitted := c, picks, SelectRules(rulesSpecs, c), true;
    }

    /** `fit`: each spec's rule set, the universe of matched indices, the
        greedy cover of it and the specs whose rule set is in the cover.
        When `greedy_set_cover` fails, `fit` raises after the rule sets and
        the universe were stored. */
    method Fit(pairs: seq<TrainingPair>, y: seq<int>) returns (r: Result<(), SetCover.CoverError>)
      requires |y| == |pairs| && HasColumns(pairs, rulesSpecs)
      modifies this
      ensures Learned(pairs, y, old(rulesSpecs), rulesSpecs, subsets, matches, universe)
      ensures r.Ok? ==> CoverOf(subsets, universe, recall, coverPicks, cover)
      ensures r.Ok? ==> rulesSelected == SelectRules(rulesSpecs, cover) && fitted
      ensures r.Err? ==> SetCover.Returned(subsets, universe, recall, Err(SetCover.HeapExhausted), coverPicks)
      ensures r.Err? ==> cover == old(cover) && rulesSelected == old(rulesSelected) && fitted == old(fitted)
    {
      LearnSubsets(pairs, y);
      r := SelectCover();
    }

    /** `fit` with the corrected cover in place of `greedy_set_cover`. */
    method FitCorrected(pairs: seq<TrainingPair>, y: seq<int>)
      requires |y| == |pairs| && HasColumns(pairs, rulesSpecs)
      modifies this
      ensures Learned(pairs, y, old(rulesSpecs), rulesSpecs, subsets, matches, universe)
      ensures FixedCoverOf(subsets, universe, recall, coverPicks, cover)
      ensures rulesSelected == SelectRules(rulesSpecs, cover) && fitted
    {
      LearnSubsets(pairs, y);
      SelectCoverFixed();
    }

    /** `_fingerprint`: one row per record without a null configured value
        and fingerprint of it. */
    method Fingerprint(rows: seq<Row>) returns (df: seq<Tagged>)
      requires fitted && HasFields(rows, rulesSelected)
      ensures forall t :: t in df <==>
        t.row in rows && Complete(t.row, colNames) && t.fingerprint in Fingerprints(rulesSelected, t.row)
    {
      var frame: seq<FpColumn> := [];
      ghost var origin: seq<nat> := [];
      for j := 0 to |rulesSelected|
        invariant FrameOf(rows, rulesSelected, j, frame, origin)
      {
        var spec := rulesSelected[j];
        var column := FpColumn(ColumnName(spec), RuleColumn(rows, spec, j));
        var c := IndexOfName(frame, column.name);
        if c.Some? {
          FrameReplace(rows, rulesSelected, j, frame, origin, c.value);
          frame, origin := frame[c.value := column], origin[c.value := j];
        } else {
          FrameAppend(rows, rulesSelected, j, frame, origin);
          frame, origin := frame + [column], origin + [j];
        }
      }
      MeltedFingerprints(rows, rulesSelected, frame, origin);
      df := DropNa(Melt(rows, frame), colNames);
    }

    /** `transform`: the candidate pairs, one per id pair, each sharing a
        fingerprint; every two records without null configured values that
        share one are paired. */
    method Transform(rows: seq<Row>) returns (pairs: seq<Candidate>)
      requires fitted && HasFields(rows, rulesSelected)
      ensures forall a, b :: 0 <= a < b < |pairs| ==> Key(pairs[a]) != Key(pairs[b])
      ensures forall c :: c in pairs ==> (c.left in rows && c.right in rows && c.left.id < c.right.id
        && Complete(c.left, colNames) && Complete(c.right, colNames)
        && c.fingerprint in Fingerprints(rulesSelected, c.left) && c.fingerprint in Fingerprints(rulesSelected, c.right))
      ensures forall a, b :: (a in rows && b in rows && a.id < b.id && Complete(a, colNames) && Complete(b, colNames)
        && Fingerprints(rulesSelected, a) * Fingerprints(rulesSelected, b) != {}) ==> (a.id, b.id) in KeySet(pairs)
    {
      var fingerprinted := Fingerprint(rows);
      var joined := CreatePairsTable(fingerprinted);
      pairs := DropDuplicates(joined);
      DedupKeys(joined, {});
      PairsSound(fingerprinted, rows, rulesSelected, colNames);
      PairsComplete(fingerprinted);
      forall a, b | a in rows && b in rows && a.id < b.id && Complete(a, colNames) && Complete(b, colNames)
        && Fingerprints(rulesSelected, a) * Fingerprints(rulesSelected, b) != {}
        ensures (a.id, b.id) in KeySet(pairs)
      {
        var fp :| fp in Fingerprints(rulesSelected, a) && fp in Fingerprints(rulesSelected, b);
        assert Tagged(a, fp) in fingerprinted && Tagged(b, fp) in fingerprinted;
      }
    }
  }
}

=== FILE: Deduplicator.dfy ===
/** The bookkeeping `Deduplicator` does around the blocker: resolving its
    configuration, building the sample table of record pairs, numbering the
    records, overriding and filtering pair scores, and giving every record
    left unclustered an id of its own. */
module Deduplicator {
  import opened Wrappers
  import opened Rules
  import opened Blocking

  // ---------------------------------------------------------------------
  // Configuration
  // ---------------------------------------------------------------------

  /** A string metric, known here only by its name. */
  datatype Metric = Metric(name: String)

  /** The two metrics every column gets when only column names are given. */
  function DefaultMetrics(): seq<Metric> {
    [Metric("adjusted_ratio"), Metric("adjusted_token_sort_ratio")]
  }

  /** `field_info`: a dictionary from column name to metrics, in key order. */
  type FieldInfo = seq<(String, seq<Metric>)>

  /** The `rules` argument: absent, a list (whose contents are ignored), a
      dictionary, or a value of any other type. */
  datatype RulesArg = NoRules | RuleList(fns: seq<Rule>) | RuleDict(info: RulesInfo) | OtherRules

  datatype Config = Config(colNames: seq<String>, fieldInfo: FieldInfo, rulesInfo: RulesInfo)

  /** The keys of a dictionary, in order. */
  function Keys<V>(d: seq<(String, V)>): (ks: seq<String>)
    ensures |ks| == |d| && forall i :: 0 <= i < |d| ==> ks[i] == d[i].0
  {
    seq(|d|, i requires 0 <= i < |d| => d[i].0)
  }

  /** Where `x` first occurs in `names`. */
  function FirstIndex(names: seq<String>, x: String): (i: nat)
    requires x in names
    ensures i < |names| && names[i] == x && x !in names[..i]
  {
    if names[0] == x then 0
    else
      var i := 1 + FirstIndex(names[1..], x);
      assert names[..i] == [names[0]] + names[1..][..i - 1];
      i
  }

  /** A first occurrence inside a prefix is the first occurrence overall. */
  lemma FirstIndexPrefix(names: seq<String>, k: nat, x: String)
    requires k <= |names| && x in names[..k]
    ensures FirstIndex(names, x) == FirstIndex(names[..k], x)
  {
    var i, j := FirstIndex(names, x), FirstIndex(names[..k], x);
    assert names[j] == x;
  }

  /** The keys a dictionary comprehension over `names` ends up with: each
      name once, at its first occurrence, in the order of first occurrence. */
  function Distinct(names: seq<String>): (r: seq<String>)
    ensures forall x :: x in r <==> x in names
    ensures forall i, j :: 0 <= i < j < |r| ==> r[i] != r[j]
    ensures forall i, j :: 0 <= i < j < |r| ==> FirstIndex(names, r[i]) < FirstIndex(names, r[j])
  {
    if names == [] then []
    else
      var n := |names| - 1;
      var r := Distinct(names[..n]);
      forall x | x in r ensures FirstIndex(names, x) == FirstIndex(names[..n], x) {
        FirstIndexPrefix(names, n, x);
      }
      if names[n] in r then r
      else
        assert FirstIndex(names, names[n]) == n;
        r + [names[n]]
  }

  /** `{name: value for name in names}`: the keys in the order of their
      first occurrence, each with `value`. */
  function Uniform<V>(names: seq<String>, value: V): (d: seq<(String, V)>)
    ensures Keys(d) == Distinct(names)
    ensures forall c :: c in Keys(d) <==> c in names
    ensures forall i, j :: 0 <= i < j < |d| ==> d[i].0 != d[j].0
    ensures forall i :: 0 <= i < |d| ==> d[i].1 == value
  {
    var ks := Distinct(names);
    var d := seq(|ks|, i requires 0 <= i < |ks| => (ks[i], value));
    assert Keys(d) == ks;
    d
  }

  /** `__init__`: the column names, field info and rules info, or the error
      the constructor raises. */
  function ResolveConfig(colNames: Option<seq<String>>, fieldInfo: Option<FieldInfo>, rules: RulesArg)
    : (r: Result<Config, String>)
    ensures r.Err? <==> ((colNames.None? || colNames.value == []) && fieldInfo.None?) || rules.OtherRules?
    ensures r.Ok? && colNames.Some? && colNames.value != [] ==>
      && r.value.colNames == colNames.value
      && Keys(r.value.fieldInfo) == Distinct(colNames.value)
      && (forall c :: c in Keys(r.value.fieldInfo) <==> c in colNames.value)
      && (forall i, j :: 0 <= i < j < |r.value.fieldInfo| ==> r.value.fieldInfo[i].0 != r.value.fieldInfo[j].0)
      && (forall i :: 0 <= i < |r.value.fieldInfo| ==> r.value.fieldInfo[i].1 == DefaultMetrics())
    ensures r.Ok? && (colNames.None? || colNames.value == []) ==>
      r.value.fieldInfo == fieldInfo.value && r.value.colNames == Keys(fieldInfo.value)
    ensures r.Ok? && !rules.RuleDict? ==>
      && Keys(r.value.rulesInfo) == Distinct(r.value.colNames)
      && (forall c :: c in Keys(r.value.rulesInfo) <==> c in r.value.colNames)
      && (forall i, j :: 0 <= i < j < |r.value.rulesInfo| ==> r.value.rulesInfo[i].0 != r.value.rulesInfo[j].0)
      && (forall i :: 0 <= i < |r.value.rulesInfo| ==> r.value.rulesInfo[i].1 == AllRules())
    ensures r.Ok? && rules.RuleDict? ==> r.value.rulesInfo == rules.info
  {
    if colNames.Some? && colNames.value != [] then
      WithRules(colNames.value, Uniform(colNames.value, DefaultMetrics()), rules)
    else if fieldInfo.None? then
      Err("'NoneType' object has no attribute 'keys'")
    else
      WithRules(Keys(fieldInfo.value), fieldInfo.value, rules)
  }

  /** The rules half of `__init__`, once the columns are known. */
  function WithRules(colNames: seq<String>, fieldInfo: FieldInfo, rules: RulesArg): Result<Config, String> {
    match rules
    case NoRules => Ok(Config(colNames, fieldInfo, Uniform(colNames, AllRules())))
    case RuleList(_) => Ok(Config(colNames, fieldInfo, Uniform(colNames, AllRules())))
    case RuleDict(info) => Ok(Config(colNames, fieldInfo, info))
    case OtherRules => Err("`rules` must be a list or a dict")
  }

  // ---------------------------------------------------------------------
  // The sample pairs table
  // ---------------------------------------------------------------------

  /** A row of the cross product: a sampled record on each side. */
  type SamplePair = (Row, Row)

  /** Only the configured columns of a record; a configured column the
      record lacks stays null. */
  function Project(record: map<String, String>, colNames: seq<String>): (r: map<String, String>)
    ensures forall c :: c in r <==> c in record && c in colNames
  {
    map c | c in record && c in colNames :: record[c]
  }

  /** No two records share an id. */
  predicate UniqueIds(rows: seq<Row>) {
    forall i, j :: 0 <= i < j < |rows| ==> rows[i].id != rows[j].id
  }

  /** The sample: pool record `picked[i]`, with its pool position as id and
      only the configured columns. */
  function SampleRows(pool: seq<map<String, String>>, picked: seq<nat>, colNames: seq<String>): (rows: seq<Row>)
    requires forall i :: 0 <= i < |picked| ==> picked[i] < |pool|
    ensures |rows| == |picked|
    ensures (forall i, j :: 0 <= i < j < |picked| ==> picked[i] != picked[j]) ==> UniqueIds(rows)
  {
    seq(|picked|, i requires 0 <= i < |picked| => Row(picked[i], Project(pool[picked[i]], colNames)))
  }

  function PairKey(p: SamplePair): (int, int) {
    (p.0.id, p.1.id)
  }

  /** `p` comes before `q` when sorting by `(row_id_1, row_id_2)`. */
  predicate KeyBefore(p: SamplePair, q: SamplePair) {
    p.0.id < q.0.id || (p.0.id == q.0.id && p.1.id < q.1.id)
  }

  predicate StrictlySorted(ps: seq<SamplePair>) {
    forall i, j :: 0 <= i < j < |ps| ==> KeyBefore(ps[i], ps[j])
  }

  predicate DistinctKeys(ps: seq<SamplePair>) {
    forall i, j :: 0 <= i < j < |ps| ==> PairKey(ps[i]) != PairKey(ps[j])
  }

  /** `itertools.product(xs, ys)`: every `x` with each `y` in turn. */
  function Product(xs: seq<Row>, ys: seq<Row>): (r: seq<SamplePair>)
    ensures forall p :: p in r <==> p.0 in xs && p.1 in ys
  {
    if xs == [] then []
    else Pairing(xs[0], ys) + Product(xs[1..], ys)
  }

  /** `x` paired with each of `ys`. */
  function Pairing(x: Row, ys: seq<Row>): (r: seq<SamplePair>)
    ensures forall p :: p in r <==> p.0 == x && p.1 in ys
  {
    var r := seq(|ys|, j requires 0 <= j < |ys| => (x, ys[j]));
    assert forall p: SamplePair :: p.0 == x && p.1 in ys ==> p in r by {
      forall p: SamplePair | p.0 == x && p.1 in ys ensures p in r {
        var j :| 0 <= j < |ys| && ys[j] == p.1;
        assert r[j] == p;
      }
    }
    r
  }

  lemma {:induction false} PairingKeys(x: Row, ys: seq<Row>)
    requires UniqueIds(ys)
    ensures DistinctKeys(Pairing(x, ys))
  {
    var r := Pairing(x, ys);
    forall i, j | 0 <= i < j < |r| ensures PairKey(r[i]) != PairKey(r[j]) {
      assert r[i].1 == ys[i] && r[j].1 == ys[j];
    }
  }

  lemma DistinctKeysAppend(a: seq<SamplePair>, b: seq<SamplePair>)
    requires DistinctKeys(a) && DistinctKeys(b)
    requires forall p, q :: p in a && q in b ==> PairKey(p) != PairKey(q)
    ensures DistinctKeys(a + b)
  {
    forall i, j | 0 <= i < j < |a + b| ensures PairKey((a + b)[i]) != PairKey((a + b)[j]) {
      if j < |a| {
      } else if i < |a| {
        assert (a + b)[i] in a && (a + b)[j] in b;
      } else {
        assert (a + b)[i] == b[i - |a|] && (a + b)[j] == b[j - |a|];
      }
    }
  }

  /** Between records with distinct ids, the product has one row per id pair. */
  lemma {:induction false} ProductKeys(xs: seq<Row>, ys: seq<Row>)
    requires UniqueIds(xs) && UniqueIds(ys)
    ensures DistinctKeys(Product(xs, ys))
  {
    if xs != [] {
      ProductKeys(xs[1..], ys);
      PairingKeys(xs[0], ys);
      forall p, q | p in Pairing(xs[0], ys) && q in Product(xs[1..], ys) ensures PairKey(p) != PairKey(q) {
        var k :| 0 <= k < |xs[1..]| && xs[1..][k] == q.0;
        assert xs[k + 1] == q.0;
      }
      DistinctKeysAppend(Pairing(xs[0], ys), Product(xs[1..], ys));
    }
  }

  /** Insert `p` into a sorted sequence none of whose keys is `p`'s. */
  function InsertPair(p: SamplePair, ps: seq<SamplePair>): (r: seq<SamplePair>)
    requires StrictlySorted(ps) && forall q :: q in ps ==> PairKey(q) != PairKey(p)
    ensures |r| == |ps| + 1
    ensures forall q :: q in r <==> q == p || q in ps
    ensures StrictlySorted(r)
  {
    if ps == [] || KeyBefore(p, ps[0]) then
      assert forall q :: q in ps ==> KeyBefore(p, q) by {
        if ps != [] {
          SortedCons(ps);
        }
      }
      PrependSorted(p, ps);
      [p] + ps
    else
      assert ps[0] in ps;
      SortedCons(ps);
      var rest := InsertPair(p, ps[1..]);
      assert KeyBefore(ps[0], p) by {
        assert PairKey(ps[0]) != PairKey(p);
      }
      PrependSorted(ps[0], rest);
      [ps[0]] + rest
  }

  /** `sort_values([row_id_1, row_id_2])` on rows whose keys are distinct. */
  function SortPairs(ps: seq<SamplePair>): (r: seq<SamplePair>)
    requires DistinctKeys(ps)
    ensures |r| == |ps|
    ensures forall q :: q in r <==> q in ps
    ensures StrictlySorted(r)
  {
    if ps == [] then []
    else
      assert DistinctKeys(ps[1..]) by {
        forall i, j | 0 <= i < j < |ps[1..]| ensures PairKey(ps[1..][i]) != PairKey(ps[1..][j]) {
          assert ps[1..][i] == ps[i + 1] && ps[1..][j] == ps[j + 1];
        }
      }
      var rest := SortPairs(ps[1..]);
      assert forall q :: q in rest ==> PairKey(q) != PairKey(ps[0]) by {
        forall q | q in rest ensures PairKey(q) != PairKey(ps[0]) {
          var k :| 1 <= k < |ps| && ps[k] == q;
        }
      }
      InsertPair(ps[0], rest)
  }

  /** The rows with `row_id_1 <= row_id_2`, in order. */
  function UpperHalf(ps: seq<SamplePair>): (r: seq<SamplePair>)
    ensures forall q :: q in r <==> q in ps && q.0.id <= q.1.id
    ensures StrictlySorted(ps) ==> StrictlySorted(r)
  {
    if ps == [] then []
    else
      var rest := UpperHalf(ps[1..]);
      if ps[0].0.id <= ps[0].1.id then
        var r := [ps[0]] + rest;
        assert StrictlySorted(ps) ==> StrictlySorted(r) by {
          if StrictlySorted(ps) {
            SortedCons(ps);
            PrependSorted(ps[0], rest);
          }
        }
        r
      else
        rest
  }

  /** A key before all of a sorted sequence's keys can go in front of it. */
  lemma PrependSorted(p: SamplePair, ps: seq<SamplePair>)
    requires StrictlySorted(ps) && forall q :: q in ps ==> KeyBefore(p, q)
    ensures StrictlySorted([p] + ps)
  {
    var r := [p] + ps;
    forall i, j | 0 <= i < j < |r| ensures KeyBefore(r[i], r[j]) {
      assert r[j] == ps[j - 1];
      if i > 0 {
        assert r[i] == ps[i - 1];
      }
    }
  }

  /** The sample crossed with itself, sorted by id pair, restricted to
      `row_id_1 <= row_id_2`. */
  function SamplePairs(rows: seq<Row>): (r: seq<SamplePair>)
    requires UniqueIds(rows)
    ensures forall p :: p in r <==> p.0 in rows && p.1 in rows && p.0.id <= p.1.id
    ensures StrictlySorted(r)
  {
    ProductKeys(rows, rows);
    UpperHalf(SortPairs(Product(rows, rows)))
  }

  /** The values of both sides of each pair. */
  function PairsTable(ps: seq<SamplePair>): (table: seq<TrainingPair>)
    ensures |table| == |ps|
    ensures forall i :: 0 <= i < |ps| ==> table[i] == TrainingPair(ps[i].0.fields, ps[i].1.fields)
  {
    seq(|ps|, i requires 0 <= i < |ps| => TrainingPair(ps[i].0.fields, ps[i].1.fields))
  }

  lemma SampleTableCount(pool: seq<map<String, String>>, picked: seq<nat>, colNames: seq<String>, table: seq<TrainingPair>)
    requires forall i :: 0 <= i < |picked| ==> picked[i] < |pool|
    requires forall i, j :: 0 <= i < j < |picked| ==> picked[i] != picked[j]
    requires table == PairsTable(SamplePairs(SampleRows(pool, picked, colNames)))
    ensures 2 * |table| == |picked| * (|picked| + 1)
  {
    SamplePairsCount(SampleRows(pool, picked, colNames));
  }

  /** `_create_pairs_table`, given the positions `picked` of the sampled
      records in the pool: the values of both sides of each sample pair.
      An empty sample fails: the empty product has no column `0` to split
      into the two sides (line 133). */
  function SampleTable(pool: seq<map<String, String>>, picked: seq<nat>, colNames: seq<String>)
    : (r: Result<seq<TrainingPair>, String>)
    requires forall i :: 0 <= i < |picked| ==> picked[i] < |pool|
    requires forall i, j :: 0 <= i < j < |picked| ==> picked[i] != picked[j]
    ensures r.Err? <==> picked == []
    ensures r.Ok? ==> 2 * |r.value| == |picked| * (|picked| + 1)
    ensures r.Ok? ==> forall i :: 0 <= i < |r.value| ==> FromSample(pool, picked, colNames, r.value[i])
    ensures r.Ok? ==> AllSampled(pool, picked, colNames, r.value)
  {
    if picked == [] then Err("KeyError: 0")
    else
      var rows := SampleRows(pool, picked, colNames);
      var ps := SamplePairs(rows);
      var table := PairsTable(ps);
      SampleTableCount(pool, picked, colNames, table);
      SampleTableRows(pool, picked, colNames, ps, table);
      SampleTableComplete(pool, picked, colNames, ps, table);
      Ok(table)
  }

  /** `t` holds the values of two sampled records, the first no later in
      the pool than the second. */
  predicate FromSample(pool: seq<map<String, String>>, picked: seq<nat>, colNames: seq<String>, t: TrainingPair)
    requires forall i :: 0 <= i < |picked| ==> picked[i] < |pool|
  {
    exists a, b :: (0 <= a < |picked| && 0 <= b < |picked| && picked[a] <= picked[b]
      && t == TrainingPair(Project(pool[picked[a]], colNames), Project(pool[picked[b]], colNames)))
  }

  lemma SampleTableRows(pool: seq<map<String, String>>, picked: seq<nat>, colNames: seq<String>,
                        ps: seq<SamplePair>, table: seq<TrainingPair>)
    requires forall i :: 0 <= i < |picked| ==> picked[i] < |pool|
    requires forall p :: p in ps ==>
      p.0 in SampleRows(pool, picked, colNames) && p.1 in SampleRows(pool, picked, colNames) && p.0.id <= p.1.id
    requires |table| == |ps| && forall i :: 0 <= i < |ps| ==> table[i] == TrainingPair(ps[i].0.fields, ps[i].1.fields)
    ensures forall i :: 0 <= i < |table| ==> FromSample(pool, picked, colNames, table[i])
  {
    var rows := SampleRows(pool, picked, colNames);
    forall i | 0 <= i < |table| ensures FromSample(pool, picked, colNames, table[i]) {
      assert ps[i] in ps;
      var a :| 0 <= a < |rows| && rows[a] == ps[i].0;
      var b :| 0 <= b < |rows| && rows[b] == ps[i].1;
      assert picked[a] <= picked[b];
    }
  }

  /** Every pair of sampled records, the first no later in the pool than
      the second, has a row of `table`. */
  predicate AllSampled(pool: seq<map<String, String>>, picked: seq<nat>, colNames: seq<String>, table: seq<TrainingPair>)
    requires forall i :: 0 <= i < |picked| ==> picked[i] < |pool|
  {
    forall a, b :: 0 <= a < |picked| && 0 <= b < |picked| && picked[a] <= picked[b] ==>
      TrainingPair(Project(pool[picked[a]], colNames), Project(pool[picked[b]], colNames)) in table
  }

  /** Every pair of sampled records, the first no later in the pool than
      the second, has a row of the table. */
  lemma SampleTableComplete(pool: seq<map<String, String>>, picked: seq<nat>, colNames: seq<String>,
                            ps: seq<SamplePair>, table: seq<TrainingPair>)
    requires forall i :: 0 <= i < |picked| ==> picked[i] < |pool|
    requires forall p: SamplePair ::
      (p.0 in SampleRows(pool, picked, colNames) && p.1 in SampleRows(pool, picked, colNames) && p.0.id <= p.1.id) ==> p in ps
    requires |table| == |ps| && forall i :: 0 <= i < |ps| ==> table[i] == TrainingPair(ps[i].0.fields, ps[i].1.fields)
    ensures AllSampled(pool, picked, colNames, table)
  {
    var rows := SampleRows(pool, picked, colNames);
    forall a, b | 0 <= a < |picked| && 0 <= b < |picked| && picked[a] <= picked[b]
      ensures TrainingPair(Project(pool[picked[a]], colNames), Project(pool[picked[b]], colNames)) in table
    {
      var p: SamplePair := (rows[a], rows[b]);
      assert p.0 in rows && p.1 in rows;
      var k :| 0 <= k < |ps| && ps[k] == p;
      assert table[k] == TrainingPair(Project(pool[picked[a]], colNames), Project(pool[picked[b]], colNames));
    }
  }

  /** The id pairs of a table. */
  function PairKeys(ps: seq<SamplePair>): set<(int, int)> {
    set p | p in ps :: PairKey(p)
  }

  /** No two records of a set share an id. */
  predicate UniqueIn(rs: set<Row>) {
    forall a, b :: a in rs && b in rs && a.id == b.id ==> a == b
  }

  /** Every id pair `(a.id, b.id)` with `a.id <= b.id` over `rs`. */
  function UpperPairs(rs: set<Row>): set<(int, int)> {
    set a, b | a in rs && b in rs && a.id <= b.id :: (a.id, b.id)
  }

  /** Every id of `rs` paired with `m` on the right. */
  function WithRight(rs: set<Row>, m: int): set<(int, int)> {
    set a | a in rs :: (a.id, m)
  }

  /** For `k` sampled records the table has `k(k+1)/2` rows. */
  lemma SamplePairsCount(rows: seq<Row>)
    requires UniqueIds(rows)
    ensures 2 * |SamplePairs(rows)| == |rows| * (|rows| + 1)
  {
    var r := SamplePairs(rows);
    var rs := RowSet(rows);
    SortedCard(r);
    assert PairKeys(r) == UpperPairs(rs) by {
      forall k | k in UpperPairs(rs) ensures k in PairKeys(r) {
        var a, b :| a in rs && b in rs && a.id <= b.id && k == (a.id, b.id);
        assert (a, b) in r;
      }
    }
    RowSetCard(rows);
    UpperPairsCard(rs);
    TriangleClosed(|rows|);
  }

  lemma {:induction false} SortedCard(ps: seq<SamplePair>)
    requires StrictlySorted(ps)
    ensures |PairKeys(ps)| == |ps|
  {
    if ps != [] {
      SortedCons(ps);
      SortedCard(ps[1..]);
    }
  }

  lemma SortedCons(ps: seq<SamplePair>)
    requires ps != [] && StrictlySorted(ps)
    ensures StrictlySorted(ps[1..]) && forall q :: q in ps[1..] ==> KeyBefore(ps[0], q)
    ensures PairKeys(ps) == {PairKey(ps[0])} + PairKeys(ps[1..]) && PairKey(ps[0]) !in PairKeys(ps[1..])
  {
    var tail := ps[1..];
    forall i, j | 0 <= i < j < |tail| ensures KeyBefore(tail[i], tail[j]) {
      assert tail[i] == ps[i + 1] && tail[j] == ps[j + 1];
    }
    assert forall p :: p in ps <==> p == ps[0] || p in tail;
    forall p | p in tail ensures KeyBefore(ps[0], p) {
      var k :| 0 <= k < |tail| && tail[k] == p;
      assert ps[k + 1] == p;
    }
  }

  function RowSet(rows: seq<Row>): set<Row> {
    set x | x in rows
  }

  /** Records with distinct ids are distinct, so their set is as large. */
  lemma {:induction false} RowSetCard(rows: seq<Row>)
    requires UniqueIds(rows)
    ensures UniqueIn(RowSet(rows)) && |RowSet(rows)| == |rows|
  {
    if rows != [] {
      assert UniqueIds(rows[1..]) by {
        forall i, j | 0 <= i < j < |rows[1..]| ensures rows[1..][i].id != rows[1..][j].id {
          assert rows[1..][i] == rows[i + 1] && rows[1..][j] == rows[j + 1];
        }
      }
      RowSetCard(rows[1..]);
      RowSetCons(rows);
    }
  }

  lemma RowSetCons(rows: seq<Row>)
    requires rows != [] && UniqueIds(rows)
    ensures RowSet(rows) == {rows[0]} + RowSet(rows[1..]) && rows[0] !in RowSet(rows[1..])
    ensures forall x :: x in RowSet(rows[1..]) ==> x.id != rows[0].id
  {
    assert forall x :: x in rows <==> x == rows[0] || x in rows[1..];
    forall x | x in rows[1..] ensures x.id != rows[0].id {
      var k :| 0 <= k < |rows[1..]| && rows[1..][k] == x;
      assert rows[k + 1] == x;
    }
  }

  /** A non-empty set of records has one with the largest id. */
  lemma {:induction false} MaxOf(rs: set<Row>) returns (m: Row)
    requires rs != {}
    ensures m in rs && forall a :: a in rs ==> a.id <= m.id
    decreases |rs|
  {
    var x :| x in rs;
    var rest := rs - {x};
    if rest == {} {
      assert forall a :: a in rs ==> a == x by {
        forall a | a in rs ensures a == x { assert a !in rest; }
      }
      m := x;
    } else {
      var r := MaxOf(rest);
      m := if x.id < r.id then r else x;
      assert forall a :: a in rs ==> a == x || a in rest;
    }
  }

  lemma {:induction false} WithRightCard(rs: set<Row>, m: int)
    requires UniqueIn(rs)
    ensures |WithRight(rs, m)| == |rs|
    decreases |rs|
  {
    if rs != {} {
      var x :| x in rs;
      WithRightCard(rs - {x}, m);
      assert WithRight(rs, m) == WithRight(rs - {x}, m) + {(x.id, m)};
      assert (x.id, m) !in WithRight(rs - {x}, m);
    }
  }

  /** Removing the record with the largest id removes exactly the pairs
      that have it on the right. */
  lemma UpperPairsSplit(rs: set<Row>, m: Row)
    requires UniqueIn(rs) && m in rs && forall a :: a in rs ==> a.id <= m.id
    ensures UpperPairs(rs) == UpperPairs(rs - {m}) + WithRight(rs, m.id)
    ensures UpperPairs(rs - {m}) !! WithRight(rs, m.id)
  {
    var rest := rs - {m};
    forall k | k in UpperPairs(rs) ensures k in UpperPairs(rest) || k in WithRight(rs, m.id) {
      var a, b :| a in rs && b in rs && a.id <= b.id && k == (a.id, b.id);
      if b.id != m.id {
        assert a in rest && b in rest;
      }
    }
    forall k | k in UpperPairs(rest) ensures k !in WithRight(rs, m.id) {
      var a, b :| a in rest && b in rest && a.id <= b.id && k == (a.id, b.id);
    }
  }

  /** `0 + 1 + … + n`. */
  function Triangle(n: nat): nat {
    if n == 0 then 0 else n + Triangle(n - 1)
  }

  lemma {:induction false} TriangleClosed(n: nat)
    ensures 2 * Triangle(n) == n * (n + 1)
  {
    if n > 0 {
      TriangleClosed(n - 1);
      assert (n - 1) * n + 2 * n == n * (n + 1);
    }
  }

  lemma {:induction false} UpperPairsCard(rs: set<Row>)
    requires UniqueIn(rs)
    ensures |UpperPairs(rs)| == Triangle(|rs|)
    decreases |rs|
  {
    if rs != {} {
      var m := MaxOf(rs);
      var rest := rs - {m};
      assert UniqueIn(rest);
      UpperPairsCard(rest);
      WithRightCard(rs, m.id);
      UpperPairsSplit(rs, m);
      var left, right := UpperPairs(rest), WithRight(rs, m.id);
      assert |left + right| == |left| + |right|;
      assert |rest| == |rs| - 1;
    }
  }

  // ---------------------------------------------------------------------
  // predict
  // ---------------------------------------------------------------------

  /** `X[ROW_ID] = arange(len(X))`: every record numbered by its position. */
  method AssignRowIds(X: array<Row>)
    modifies X
    ensures forall i :: 0 <= i < X.Length ==> X[i] == old(X[i]).(id := i)
  {
    for i := 0 to X.Length
      invariant forall k :: 0 <= k < i ==> X[k] == old(X[k]).(id := k)
      invariant forall k :: i <= k < X.Length ==> X[k] == old(X[k])
    {
      X[i] := X[i].(id := i);
    }
  }

  /** A candidate pair with the learner's score. */
  datatype Scored = Scored(pair: Candidate, score: real)

  /** Both records of `c` have every configured column. */
  predicate HasValues(c: Candidate, colNames: seq<String>) {
    forall n :: n in colNames ==> n in c.left.fields && n in c.right.fields
  }

  /** Two records agree on every configured column. */
  predicate Duplicates(a: Row, b: Row, colNames: seq<String>) {
    forall n :: n in colNames ==> n in a.fields && n in b.fields && a.fields[n] == b.fields[n]
  }

  /** The two records of a candidate pair are exact duplicates. */
  predicate SameValues(c: Candidate, colNames: seq<String>) {
    Duplicates(c.left, c.right, colNames)
  }

  /** The score override of `predict`: an exact duplicate scores 1. */
  method OverrideScores(table: array<Scored>, colNames: seq<String>)
    requires forall i :: 0 <= i < table.Length ==> HasValues(table[i].pair, colNames)
    modifies table
    ensures forall i :: 0 <= i < table.Length ==>
      && table[i].pair == old(table[i].pair)
      && table[i].score == (if SameValues(table[i].pair, colNames) then 1.0 else old(table[i].score))
  {
    for i := 0 to table.Length
      invariant forall k :: 0 <= k < i ==>
        && table[k].pair == old(table[k].pair)
        && table[k].score == (if SameValues(table[k].pair, colNames) then 1.0 else old(table[k].score))
      invariant forall k :: i <= k < table.Length ==> table[k] == old(table[k])
    {
      if SameValues(table[i].pair, colNames) {
        table[i] := table[i].(score := 1.0);
      }
    }
  }

  /** The threshold filter of `predict`: the pairs scoring at least
      `threshold`, in order. */
  function AboveThreshold(table: seq<Scored>, threshold: real): (kept: seq<Scored>)
    ensures forall p :: p in kept <==> p in table && p.score >= threshold
    ensures |kept| <= |table|
  {
    if table == [] then []
    else
      var rest := AboveThreshold(table[1..], threshold);
      if table[0].score >= threshold then [table[0]] + rest else rest
  }

  // ---------------------------------------------------------------------
  // _add_singletons
  // ---------------------------------------------------------------------

  /** The largest id present, or `None` when no record has one (pandas
      then yields NaN). */
  function MaxPresent(ids: seq<Option<int>>): (m: Option<int>)
    ensures m.None? <==> forall i :: 0 <= i < |ids| ==> ids[i].None?
    ensures m.Some? ==> m in ids && forall i :: 0 <= i < |ids| && ids[i].Some? ==> ids[i].value <= m.value
  {
    if ids == [] then None
    else
      var m := MaxPresent(ids[..|ids| - 1]);
      var last := ids[|ids| - 1];
      assert forall i :: 0 <= i < |ids| - 1 ==> ids[..|ids| - 1][i] == ids[i];
      if last.None? then m
      else if m.None? || m.value < last.value then last
      else m
  }

  /** How many records have no id. */
  function CountMissing(ids: seq<Option<int>>): (n: nat)
    ensures n <= |ids|
  {
    if ids == [] then 0
    else CountMissing(ids[..|ids| - 1]) + (if ids[|ids| - 1].None? then 1 else 0)
  }

  /** The ids after `_add_singletons` with first new id `next`: the `k`th
      record without an id (counting from 0) gets `next + k`. */
  function Singletons(ids: seq<Option<int>>, next: int): (r: seq<Option<int>>)
    ensures |r| == |ids|
    ensures forall i :: 0 <= i < |r| ==> r[i].Some?
    ensures forall i :: 0 <= i < |r| && ids[i].Some? ==> r[i] == ids[i]
  {
    seq(|ids|, i requires 0 <= i < |ids| => if ids[i].None? then Some(next + CountMissing(ids[..i])) else ids[i])
  }

  /** Records without an id are numbered in row order. */
  lemma {:induction false} CountMissingGrows(ids: seq<Option<int>>, i: nat, j: nat)
    requires i < j <= |ids| && ids[i].None?
    ensures CountMissing(ids[..i]) < CountMissing(ids[..j])
    decreases j
  {
    var s := ids[..j];
    assert s[..|s| - 1] == ids[..j - 1];
    if j - 1 == i {
      assert ids[..j - 1] == ids[..i];
    } else {
      CountMissingGrows(ids, i, j - 1);
    }
  }

  /** The new ids are `next, next+1, …, next+n-1` for `n` missing ids, and
      no two records get the same one. */
  lemma SingletonsRange(ids: seq<Option<int>>, next: int)
    ensures forall i :: 0 <= i < |ids| && ids[i].None? ==>
      next <= Singletons(ids, next)[i].value < next + CountMissing(ids)
    ensures forall i, j :: 0 <= i < j < |ids| && ids[i].None? && ids[j].None? ==>
      Singletons(ids, next)[i] != Singletons(ids, next)[j]
  {
    forall i | 0 <= i < |ids| && ids[i].None?
      ensures next <= Singletons(ids, next)[i].value < next + CountMissing(ids)
    {
      CountMissingGrows(ids, i, |ids|);
      assert ids[..|ids|] == ids;
    }
    forall i, j | 0 <= i < j < |ids| && ids[i].None? && ids[j].None?
      ensures Singletons(ids, next)[i] != Singletons(ids, next)[j]
    {
      CountMissingGrows(ids, i, j);
    }
  }

  /** Starting above every present id, each new id differs from every
      other id, old or new. */
  lemma SingletonsFresh(ids: seq<Option<int>>, next: int, r: seq<Option<int>>)
    requires forall k :: 0 <= k < |ids| && ids[k].Some? ==> ids[k].value < next
    requires r == Singletons(ids, next)
    ensures forall i, j :: 0 <= i < |r| && 0 <= j < |r| && i != j && ids[i].None? ==> r[i] != r[j]
  {
    SingletonsRange(ids, next);
    forall i, j | 0 <= i < |r| && 0 <= j < |r| && i != j && ids[i].None? ensures r[i] != r[j] {
      if ids[j].Some? {
        assert r[j].value < next <= r[i].value;
      } else if j < i {
        assert r[j] != r[i];
      }
    }
  }

  /** `_add_singletons` on the `deduplication_id` column. */
  method AddSingletons(ids: array<Option<int>>) returns (r: Result<(), String>)
    modifies ids
    ensures r.Err? <==> forall i :: 0 <= i < ids.Length ==> old(ids[i]).None?
    ensures r.Err? ==> ids[..] == old(ids[..])
    ensures r.Ok? ==> ids[..] == Singletons(old(ids[..]), MaxPresent(old(ids[..])).value + 1)
  {
    var m := MaxPresent(ids[..]);
    if m.None? {
      return Err("arange: cannot compute length");
    }
    ghost var before := ids[..];
    var next := m.value + 1;
    var n := 0;
    for i := 0 to ids.Length
      invariant n == CountMissing(before[..i])
      invariant forall k :: 0 <= k < i ==> ids[k] == Singletons(before, next)[k]
      invariant forall k :: i <= k < ids.Length ==> ids[k] == before[k]
    {
      assert before[..i + 1][..i] == before[..i];
      if ids[i].None? {
        ids[i] := Some(next + n);
        n := n + 1;
      }
    }
    r := Ok(());
  }

  // ---------------------------------------------------------------------
  // The deduplicator object
  // ---------------------------------------------------------------------

  class Deduplicator {
    const colNames: seq<String>
    const fieldInfo: FieldInfo
    const rulesInfo: RulesInfo
    const recall: real
    /** `myBlocker`. */
    const blocker: Blocking

    /** `__init__` once its configuration has been resolved. */
    constructor(config: Config, recall: real)
      ensures colNames == config.colNames && fieldInfo == config.fieldInfo && rulesInfo == config.rulesInfo
      ensures this.recall == recall && fresh(blocker)
      ensures blocker.colNames == colNames && blocker.rulesInfo == rulesInfo && blocker.recall == recall
      ensures blocker.rulesSpecs == GetRulesSpecs(rulesInfo) && !blocker.fitted
      ensures Valid()
    {
      colNames := config.colNames;
      fieldInfo := config.fieldInfo;
      rulesInfo := config.rulesInfo;
      this.recall := recall;
      blocker := new Blocking(config.colNames, config.rulesInfo, recall);
    }

    /** The blocker works on the deduplicator's own columns. */
    ghost predicate Valid() {
      blocker.colNames == colNames
    }

    /** `predict` up to clustering: number the records, block them, score
        each candidate pair with `score` (the learner, which sees only the
        two records' values), override exact
        duplicates to 1 and keep the pairs scoring at least `threshold`. */
    method Predict(X: array<Row>, score: (Row, Row) -> real, threshold: real) returns (kept: seq<Scored>)
      requires Valid() && blocker.fitted && HasFields(X[..], blocker.rulesSelected)
      modifies X
      ensures forall i :: 0 <= i < X.Length ==> X[i] == old(X[i]).(id := i)
      ensures KeptSound(X[..], blocker.rulesSelected, colNames, score, threshold, kept)
      ensures KeptAbove(X[..], blocker.rulesSelected, colNames, score, threshold, kept)
      ensures threshold <= 1.0 ==> KeptDuplicates(X[..], blocker.rulesSelected, colNames, kept)
    {
      AssignRowIds(X);
      var rows := X[..];
      assert HasFields(rows, blocker.rulesSelected) by {
        forall i | 0 <= i < |rows| ensures rows[i].fields == old(X[i]).fields {}
      }
      var pairs := blocker.Transform(rows);
      var table := new Scored[|pairs|](i requires 0 <= i < |pairs| => Scored(pairs[i], score(pairs[i].left, pairs[i].right)));
      assert forall i :: 0 <= i < table.Length ==> HasValues(table[i].pair, colNames) by {
        forall i | 0 <= i < table.Length ensures HasValues(table[i].pair, colNames) {
          assert table[i].pair in pairs;
        }
      }
      OverrideScores(table, colNames);
      kept := AboveThreshold(table[..], threshold);
      ScoredKept(rows, blocker.rulesSelected, pairs, table[..], score, threshold, colNames);
    }
  }

  /** Every kept pair scores at least `threshold`, with 1 for an exact
      duplicate and the learner's score otherwise, and is a candidate pair
      of two records sharing a fingerprint. */
  ghost predicate KeptSound(rows: seq<Row>, sel: seq<RuleSpec>, colNames: seq<String>,
                            score: (Row, Row) -> real, threshold: real, kept: seq<Scored>)
  {
    forall p :: p in kept ==>
      && p.score >= threshold
      && p.score == Effective(p.pair.left, p.pair.right, colNames, score)
      && p.pair.left in rows && p.pair.right in rows && p.pair.left.id < p.pair.right.id
      && Complete(p.pair.left, colNames) && Complete(p.pair.right, colNames)
      && p.pair.fingerprint in Fingerprints(sel, p.pair.left)
      && p.pair.fingerprint in Fingerprints(sel, p.pair.right)
  }

  /** The score `predict` filters on: 1 for exact duplicates, the
      learner's score otherwise. */
  function Effective(a: Row, b: Row, colNames: seq<String>, score: (Row, Row) -> real): real {
    if Duplicates(a, b, colNames) then 1.0 else score(a, b)
  }

  /** Two records that share a fingerprint and whose score reaches
      `threshold` are kept as a pair. */
  ghost predicate KeptAbove(rows: seq<Row>, sel: seq<RuleSpec>, colNames: seq<String>,
                            score: (Row, Row) -> real, threshold: real, kept: seq<Scored>) {
    forall a, b ::
      (a in rows && b in rows && a.id < b.id && Complete(a, colNames) && Complete(b, colNames)
      && Fingerprints(sel, a) * Fingerprints(sel, b) != {}
      && Effective(a, b, colNames, score) >= threshold) ==>
      exists p :: p in kept && Key(p.pair) == (a.id, b.id)
  }

  /** Two records that share a fingerprint and agree on every configured
      column are kept as a pair. */
  ghost predicate KeptDuplicates(rows: seq<Row>, sel: seq<RuleSpec>, colNames: seq<String>, kept: seq<Scored>) {
    forall a, b ::
      (a in rows && b in rows && a.id < b.id && Complete(a, colNames) && Complete(b, colNames)
      && Fingerprints(sel, a) * Fingerprints(sel, b) != {}
      && Duplicates(a, b, colNames)) ==>
      exists p :: p in kept && Key(p.pair) == (a.id, b.id)
  }

  /** Constructing a `Deduplicator`: the resolved configuration and a
      blocker built from it, or the error `__init__` raises. */
  method NewDeduplicator(colNames: Option<seq<String>>, fieldInfo: Option<FieldInfo>, rules: RulesArg, recall: real)
    returns (r: Result<Deduplicator, String>)
    ensures r.Err? <==> ResolveConfig(colNames, fieldInfo, rules).Err?
    ensures r.Err? ==> r.error == ResolveConfig(colNames, fieldInfo, rules).error
    ensures r.Ok? ==> var c := ResolveConfig(colNames, fieldInfo, rules).value;
      && fresh(r.value) && fresh(r.value.blocker)
      && r.value.colNames == c.colNames && r.value.fieldInfo == c.fieldInfo && r.value.rulesInfo == c.rulesInfo
      && r.value.recall == recall && r.value.Valid()
      && r.value.blocker.colNames == c.colNames && r.value.blocker.rulesInfo == c.rulesInfo
      && r.value.blocker.recall == recall && r.value.blocker.rulesSpecs == GetRulesSpecs(c.rulesInfo)
      && !r.value.blocker.fitted
  {
    match ResolveConfig(colNames, fieldInfo, rules)
    case Err(e) =>
      r := Err(e);
    case Ok(config) =>
      var d := new Deduplicator(config, recall);
      r := Ok(d);
  }

  /** What `predict` keeps, from what `transform` promises about its pairs
      and what the override and filter do to their scores. */
  lemma ScoredKept(rows: seq<Row>, sel: seq<RuleSpec>, pairs: seq<Candidate>, table: seq<Scored>,
                   score: (Row, Row) -> real, threshold: real, colNames: seq<String>)
    requires forall i :: 0 <= i < |rows| ==> rows[i].id == i
    requires forall c :: c in pairs ==> (c.left in rows && c.right in rows && c.left.id < c.right.id
      && Complete(c.left, colNames) && Complete(c.right, colNames)
      && c.fingerprint in Fingerprints(sel, c.left) && c.fingerprint in Fingerprints(sel, c.right))
    requires forall a, b :: (a in rows && b in rows && a.id < b.id && Complete(a, colNames) && Complete(b, colNames)
      && Fingerprints(sel, a) * Fingerprints(sel, b) != {}) ==> (a.id, b.id) in KeySet(pairs)
    requires |table| == |pairs|
    requires forall i :: 0 <= i < |table| ==>
      table[i].pair == pairs[i] && table[i].score == Effective(pairs[i].left, pairs[i].right, colNames, score)
    ensures KeptSound(rows, sel, colNames, score, threshold, AboveThreshold(table, threshold))
    ensures KeptAbove(rows, sel, colNames, score, threshold, AboveThreshold(table, threshold))
    ensures threshold <= 1.0 ==> KeptDuplicates(rows, sel, colNames, AboveThreshold(table, threshold))
  {
    var kept := AboveThreshold(table, threshold);
    forall p | p in kept
      ensures p.score == Effective(p.pair.left, p.pair.right, colNames, score) && p.pair in pairs
    {
      var k :| 0 <= k < |table| && table[k] == p;
    }
    AboveKept(rows, sel, pairs, table, score, threshold, colNames);
    if threshold <= 1.0 {
      DuplicatesAbove(rows, sel, colNames, score, threshold, kept);
    }
  }

  /** Every blocked pair whose score reaches `threshold` passes the filter. */
  lemma AboveKept(rows: seq<Row>, sel: seq<RuleSpec>, pairs: seq<Candidate>, table: seq<Scored>,
                  score: (Row, Row) -> real, threshold: real, colNames: seq<String>)
    requires forall i :: 0 <= i < |rows| ==> rows[i].id == i
    requires forall c :: c in pairs ==> c.left in rows && c.right in rows
    requires forall a, b :: (a in rows && b in rows && a.id < b.id && Complete(a, colNames) && Complete(b, colNames)
      && Fingerprints(sel, a) * Fingerprints(sel, b) != {}) ==> (a.id, b.id) in KeySet(pairs)
    requires |table| == |pairs|
    requires forall i :: 0 <= i < |table| ==>
      table[i].pair == pairs[i] && table[i].score == Effective(pairs[i].left, pairs[i].right, colNames, score)
    ensures KeptAbove(rows, sel, colNames, score, threshold, AboveThreshold(table, threshold))
  {
    var kept := AboveThreshold(table, threshold);
    forall a, b | a in rows && b in rows && a.id < b.id && Complete(a, colNames) && Complete(b, colNames)
      && Fingerprints(sel, a) * Fingerprints(sel, b) != {}
      && Effective(a, b, colNames, score) >= threshold
      ensures exists p :: p in kept && Key(p.pair) == (a.id, b.id)
    {
      assert (a.id, b.id) in KeySet(pairs);
      var k :| 0 <= k < |pairs| && Key(pairs[k]) == (a.id, b.id);
      SameRow(rows, a, pairs[k].left);
      SameRow(rows, b, pairs[k].right);
      assert table[k] in table;
    }
  }

  /** With a threshold of at most 1, exact duplicates reach it. */
  lemma DuplicatesAbove(rows: seq<Row>, sel: seq<RuleSpec>, colNames: seq<String>,
                        score: (Row, Row) -> real, threshold: real, kept: seq<Scored>)
    requires threshold <= 1.0 && KeptAbove(rows, sel, colNames, score, threshold, kept)
    ensures KeptDuplicates(rows, sel, colNames, kept)
  {
    forall a, b | a in rows && b in rows && a.id < b.id && Complete(a, colNames) && Complete(b, colNames)
      && Fingerprints(sel, a) * Fingerprints(sel, b) != {}
      && Duplicates(a, b, colNames)
      ensures exists p :: p in kept && Key(p.pair) == (a.id, b.id)
    {
      assert Effective(a, b, colNames, score) == 1.0;
    }
  }

  /** Records numbered by position are told apart by their ids. */
  lemma SameRow(rows: seq<Row>, a: Row, b: Row)
    requires forall i :: 0 <= i < |rows| ==> rows[i].id == i
    requires a in rows && b in rows && a.id == b.id
    ensures a == b
  {
    var i :| 0 <= i < |rows| && rows[i] == a;
    var j :| 0 <= j < |rows| && rows[j] == b;
  }
}

=== FILE: Rules.dfy ===
/**
 * The blocking predicates of deduplipy/blocking/blocking_rules.py: pure
 * functions from one field value to an optional token.  Strings are
 * sequences of characters; `None` is the rule's "no token".
 */
module Rules {
  import opened Wrappers

  type String = seq<char>

  /** A blocking predicate: a field value to an optional token. */
  type RuleFn = String -> Option<String>

  /** A rule function together with its Python `__name__`. */
  datatype Rule = Rule(name: String, apply: RuleFn)

  // ---------------------------------------------------------------------
  // Character classes

  /** Python's `str.isspace()`: the characters `strip()` and `split()` treat as whitespace. */
  predicate IsSpace(c: char) {
    var n := c as int;
    n == 0x20 || 0x09 <= n <= 0x0D || 0x1C <= n <= 0x1F || n == 0x85 || n == 0xA0
    || n == 0x1680 || 0x2000 <= n <= 0x200A || n == 0x2028 || n == 0x2029
    || n == 0x202F || n == 0x205F || n == 0x3000
  }

  /** The character classes the rules scan for: `\d` (ASCII), `[a-zA-Z]`, and
      the non-whitespace characters that `str.split()` groups into words. */
  datatype CharClass = Digit | Letter | NonSpace

  predicate InClass(c: char, k: CharClass) {
    match k
    case Digit => '0' <= c <= '9'
    case Letter => 'a' <= c <= 'z' || 'A' <= c <= 'Z'
    case NonSpace => !IsSpace(c)
  }

  ghost predicate AllSpace(s: String) {
    forall i :: 0 <= i < |s| ==> IsSpace(s[i])
  }

  predicate AllIn(s: String, k: CharClass) {
    forall i :: 0 <= i < |s| ==> InClass(s[i], k)
  }

  predicate NoneIn(s: String, k: CharClass) {
    forall i :: 0 <= i < |s| ==> !InClass(s[i], k)
  }

  // ---------------------------------------------------------------------
  // str.strip()

  function TrimLeft(s: String): (r: String)
    ensures |r| <= |s| && r == s[|s| - |r|..]
    ensures AllSpace(s[..|s| - |r|])
    ensures r != [] ==> !IsSpace(r[0])
  {
    if s != [] && IsSpace(s[0]) then
      var r := TrimLeft(s[1..]);
      assert s[1..][..|s| - 1 - |r|] == s[1..|s| - |r|];
      r
    else s
  }

  function TrimRight(s: String): (r: String)
    ensures |r| <= |s| && r == s[..|r|]
    ensures AllSpace(s[|r|..])
    ensures r != [] ==> !IsSpace(r[|r| - 1])
  {
    if s != [] && IsSpace(s[|s| - 1]) then
      var r := TrimRight(s[..|s| - 1]);
      assert s[|r|..] == s[..|s| - 1][|r|..] + [s[|s| - 1]];
      r
    else s
  }

  /** `str.strip()`: `s` is leading whitespace, then the result, then
      trailing whitespace, and the result neither starts nor ends with
      whitespace; it is empty exactly when `s` is all whitespace. */
  function Strip(s: String): (r: String)
    ensures (r == []) == AllSpace(s)
    ensures r != [] ==> !IsSpace(r[0]) && !IsSpace(r[|r| - 1])
    ensures exists i :: Surrounds(s, i, r)
  {
    StripParts(s);
    TrimRight(TrimLeft(s))
  }

  lemma StripParts(s: String)
    ensures var r := TrimRight(TrimLeft(s));
      && ((r == []) == AllSpace(s))
      && Surrounds(s, |s| - |TrimLeft(s)|, r)
  {
    SurroundsTrim(s, TrimLeft(s));
  }

  /** Trimming the right of `l`, a suffix of `s` after whitespace, leaves
      `s` surrounding the result. */
  lemma SurroundsTrim(s: String, l: String)
    requires |l| <= |s| && l == s[|s| - |l|..] && AllSpace(s[..|s| - |l|])
    requires l != [] ==> !IsSpace(l[0])
    ensures var r := TrimRight(l);
      && ((r == []) == AllSpace(s))
      && Surrounds(s, |s| - |l|, r)
  {
    Surrounded(s, l, TrimRight(l));
  }

  lemma Surrounded(s: String, l: String, r: String)
    requires |l| <= |s| && l == s[|s| - |l|..] && AllSpace(s[..|s| - |l|])
    requires l != [] ==> !IsSpace(l[0])
    requires |r| <= |l| && r == l[..|r|] && AllSpace(l[|r|..])
    ensures (r == []) == AllSpace(s)
    ensures Surrounds(s, |s| - |l|, r)
  {
    var i := |s| - |l|;
    assert s[i..i + |r|] == l[..|r|];
    assert s[i + |r|..] == l[|r|..];
    if r == [] {
      AllSpaceAppend(s[..i], l);
      assert s == s[..i] + l;
    } else {
      assert s[i] == l[0];
    }
  }

  lemma AllSpaceAppend(a: String, b: String)
    requires AllSpace(a) && AllSpace(b)
    ensures AllSpace(a + b)
  {
  }

  /** `s[i..]` starts with `r`, and everything around that occurrence is whitespace. */
  ghost predicate Surrounds(s: String, i: int, r: String) {
    0 <= i <= i + |r| <= |s| && s[i..i + |r|] == r && AllSpace(s[..i]) && AllSpace(s[i + |r|..])
  }

  // ---------------------------------------------------------------------
  // Maximal runs of one character class: `re.findall(r"\d+")`,
  // `re.findall(r"[a-zA-Z]+")` and `str.split()`

  /** Length of the longest prefix of `s` whose characters are all in `k`. */
  function RunLen(s: String, k: CharClass): (n: nat)
    ensures n <= |s| && AllIn(s[..n], k)
    ensures n < |s| ==> !InClass(s[n], k)
  {
    if s == [] || !InClass(s[0], k) then 0
    else
      var n := 1 + RunLen(s[1..], k);
      assert s[..n] == [s[0]] + s[1..][..n - 1];
      n
  }

  /** The maximal runs of characters of class `k`, left to right. */
  function Runs(s: String, k: CharClass): (rs: seq<String>)
    ensures forall j :: 0 <= j < |rs| ==> rs[j] != [] && AllIn(rs[j], k)
    decreases |s|
  {
    if s == [] then []
    else if !InClass(s[0], k) then Runs(s[1..], k)
    else
      var n := RunLen(s, k);
      [s[..n]] + Runs(s[n..], k)
  }

  /** `str.split()` with no separator: the maximal non-whitespace runs. */
  function Split(s: String): seq<String> {
    Runs(s, NonSpace)
  }

  /** `sep.join(ws)`. */
  function Join(sep: String, ws: seq<String>): String {
    if |ws| == 0 then []
    else if |ws| == 1 then ws[0]
    else ws[0] + sep + Join(sep, ws[1..])
  }

  /** The characters of `s` that belong to `k`, in order. */
  function Filter(s: String, k: CharClass): (r: String)
    ensures AllIn(r, k)
  {
    if s == [] then []
    else (if InClass(s[0], k) then [s[0]] else []) + Filter(s[1..], k)
  }

  function Flatten(rs: seq<String>): String {
    if rs == [] then [] else rs[0] + Flatten(rs[1..])
  }

  /** `r` occurs in `s` at position `i` as a whole run: non-empty, all of
      class `k`, and not extended by a class-`k` character on either side. */
  ghost predicate MaximalRunAt(s: String, k: CharClass, i: int, r: String) {
    && 0 <= i && i + |r| <= |s| && r != []
    && s[i..i + |r|] == r && AllIn(r, k)
    && (i == 0 || !InClass(s[i - 1], k))
    && (i + |r| == |s| || !InClass(s[i + |r|], k))
  }

  lemma {:induction false} RunsEmptyIff(s: String, k: CharClass)
    ensures Runs(s, k) == [] <==> NoneIn(s, k)
    decreases |s|
  {
    if s != [] && !InClass(s[0], k) {
      RunsEmptyIff(s[1..], k);
      if NoneIn(s[1..], k) {
        forall i | 0 <= i < |s| ensures !InClass(s[i], k) {
          if i > 0 { assert s[i] == s[1..][i - 1]; }
        }
      }
    }
  }

  lemma {:induction false} FilterAppend(a: String, b: String, k: CharClass)
    ensures Filter(a + b, k) == Filter(a, k) + Filter(b, k)
    decreases |a|
  {
    if a == [] {
      assert a + b == b;
    } else {
      assert (a + b)[0] == a[0];
      assert (a + b)[1..] == a[1..] + b;
      FilterAppend(a[1..], b, k);
      var h := if InClass(a[0], k) then [a[0]] else [];
      assert Filter(a + b, k) == h + Filter((a + b)[1..], k);
      assert Filter(a, k) == h + Filter(a[1..], k);
      assert Filter(a + b, k) == h + (Filter(a[1..], k) + Filter(b, k));
    }
  }

  lemma {:induction false} FilterAllIn(a: String, k: CharClass)
    requires AllIn(a, k)
    ensures Filter(a, k) == a
    decreases |a|
  {
    if a != [] { FilterAllIn(a[1..], k); }
  }

  /** Read together, the runs are exactly the class-`k` characters of `s`:
      `findall` loses and invents no character. */
  lemma {:induction false} RunsFlatten(s: String, k: CharClass)
    ensures Flatten(Runs(s, k)) == Filter(s, k)
    decreases |s|
  {
    if s == [] {
    } else if !InClass(s[0], k) {
      RunsFlatten(s[1..], k);
    } else {
      var n := RunLen(s, k);
      RunsFlatten(s[n..], k);
      assert s == s[..n] + s[n..];
      FilterAppend(s[..n], s[n..], k);
      FilterAllIn(s[..n], k);
      assert Runs(s, k)[1..] == Runs(s[n..], k);
    }
  }

  /** `r` is the leftmost maximal run of `s`: it starts at `i` and no class-`k` character precedes it. */
  ghost predicate IsFirstRun(s: String, k: CharClass, i: int, r: String) {
    MaximalRunAt(s, k, i, r) && NoneIn(s[..i], k)
  }

  /** `r` is the rightmost maximal run of `s`: it starts at `i` and no class-`k` character follows it. */
  ghost predicate IsLastRun(s: String, k: CharClass, i: int, r: String) {
    MaximalRunAt(s, k, i, r) && NoneIn(s[i + |r|..], k)
  }

  function Last(rs: seq<String>): String
    requires rs != []
  {
    rs[|rs| - 1]
  }

  /** A maximal run of a suffix `s[d..]` is a maximal run of `s`, unless it
      starts the suffix right after a class-`k` character. */
  lemma ShiftRun(s: String, d: int, k: CharClass, i: int, r: String)
    requires 0 <= d <= |s| && MaximalRunAt(s[d..], k, i, r)
    requires i == 0 && d > 0 ==> !InClass(s[d - 1], k)
    ensures MaximalRunAt(s, k, d + i, r)
  {
    assert s[d + i..d + i + |r|] == s[d..][i..i + |r|];
    if i > 0 { assert s[d + i - 1] == s[d..][i - 1]; }
    if d + i + |r| < |s| { assert s[d + i + |r|] == s[d..][i + |r|]; }
  }

  lemma {:induction false} FirstRun(s: String, k: CharClass)
    requires Runs(s, k) != []
    ensures exists i :: IsFirstRun(s, k, i, Runs(s, k)[0])
    decreases |s|
  {
    if !InClass(s[0], k) {
      var rs := Runs(s[1..], k);
      assert Runs(s, k) == rs;
      FirstRun(s[1..], k);
      var i :| IsFirstRun(s[1..], k, i, rs[0]);
      FirstRunShift(s, k, i, rs[0]);
    } else {
      var n := RunLen(s, k);
      assert Runs(s, k)[0] == s[..n];
      RunAtStart(s, k, n);
    }
  }

  /** A first run of `s[1..]` is the first run of `s` when `s[0]` is not of class `k`. */
  lemma FirstRunShift(s: String, k: CharClass, i: int, r: String)
    requires s != [] && !InClass(s[0], k) && IsFirstRun(s[1..], k, i, r)
    ensures IsFirstRun(s, k, i + 1, r)
  {
    ShiftRun(s, 1, k, i, r);
    var p := s[..i + 1];
    forall j | 0 <= j < |p|
      ensures !InClass(p[j], k)
    {
      if j > 0 { assert p[j] == s[1..][..i][j - 1]; }
    }
  }

  /** The class-`k` prefix of `s`, when there is one, is its first run. */
  lemma RunAtStart(s: String, k: CharClass, n: nat)
    requires 0 < n <= |s| && AllIn(s[..n], k) && (n < |s| ==> !InClass(s[n], k))
    ensures IsFirstRun(s, k, 0, s[..n])
  {
  }

  lemma {:induction false} LastRun(s: String, k: CharClass)
    requires Runs(s, k) != []
    ensures exists i :: IsLastRun(s, k, i, Last(Runs(s, k)))
    decreases |s|, 1
  {
    if !InClass(s[0], k) {
      LastRunSkip(s, k);
    } else {
      LastRunHere(s, k);
    }
  }

  lemma {:induction false} LastRunSkip(s: String, k: CharClass)
    requires Runs(s, k) != [] && !InClass(s[0], k)
    ensures exists i :: IsLastRun(s, k, i, Last(Runs(s, k)))
    decreases |s|, 0
  {
    var rs := Runs(s[1..], k);
    assert Runs(s, k) == rs;
    LastRun(s[1..], k);
    var i :| IsLastRun(s[1..], k, i, Last(rs));
    LastRunShift(s, k, 1, i, Last(rs));
  }

  lemma {:induction false} LastRunHere(s: String, k: CharClass)
    requires s != [] && InClass(s[0], k)
    ensures exists i :: IsLastRun(s, k, i, Last(Runs(s, k)))
    decreases |s|, 0
  {
    var n := RunLen(s, k);
    var tail := Runs(s[n..], k);
    assert Runs(s, k) == [s[..n]] + tail;
    if tail == [] {
      RunsEmptyIff(s[n..], k);
      OnlyRun(s, k, n);
      assert Last(Runs(s, k)) == s[..n];
    } else {
      LastRun(s[n..], k);
      var i :| IsLastRun(s[n..], k, i, Last(tail));
      assert s[n..][i] == Last(tail)[0];
      assert Last(Runs(s, k)) == Last(tail);
      LastRunShift(s, k, n, i, Last(tail));
    }
  }

  /** A class-`k` prefix with nothing of class `k` after it is the last run. */
  lemma OnlyRun(s: String, k: CharClass, n: nat)
    requires 0 < n <= |s| && AllIn(s[..n], k) && NoneIn(s[n..], k)
    ensures IsLastRun(s, k, 0, s[..n])
  {
    assert n < |s| ==> s[n] == s[n..][0];
  }

  /** A last run of `s[d..]` is the last run of `s`, when it cannot extend
      a run ending at `d`. */
  lemma LastRunShift(s: String, k: CharClass, d: nat, i: int, r: String)
    requires 0 < d <= |s| && IsLastRun(s[d..], k, i, r) && (i == 0 ==> !InClass(s[d - 1], k))
    ensures IsLastRun(s, k, d + i, r)
  {
    ShiftRun(s, d, k, i, r);
    assert s[d + i + |r|..] == s[d..][i + |r|..];
  }

  lemma {:induction false} RunLenOfPrefix(a: String, b: String, k: CharClass)
    requires AllIn(a, k)
    requires b == [] || !InClass(b[0], k)
    ensures RunLen(a + b, k) == |a|
    decreases |a|
  {
    if a != [] {
      assert (a + b)[1..] == a[1..] + b;
      RunLenOfPrefix(a[1..], b, k);
    }
  }

  /** Words: non-empty strings without whitespace, as `split()` yields them. */
  predicate IsWords(ws: seq<String>) {
    forall j :: 0 <= j < |ws| ==> ws[j] != [] && AllIn(ws[j], NonSpace)
  }

  /** Splitting a space-joined list of words gives back the words. */
  lemma {:induction false} SplitJoin(ws: seq<String>)
    requires IsWords(ws)
    ensures Split(Join(" ", ws)) == ws
    decreases |ws|
  {
    if |ws| == 1 {
      RunLenOfPrefix(ws[0], [], NonSpace);
      assert ws[0] + [] == ws[0];
      assert Runs(ws[0][|ws[0]|..], NonSpace) == [];
    } else if |ws| > 1 {
      var rest := Join(" ", ws[1..]);
      var s := ws[0] + " " + rest;
      assert s == ws[0] + (" " + rest);
      RunLenOfPrefix(ws[0], " " + rest, NonSpace);
      assert s[..|ws[0]|] == ws[0];
      assert s[|ws[0]|..] == " " + rest;
      assert (" " + rest)[1..] == rest;
      SplitJoin(ws[1..]);
      assert IsSpace(' ');
      assert Runs(" " + rest, NonSpace) == Runs(rest, NonSpace);
      assert s[0] == ws[0][0];
      assert Runs(s, NonSpace) == [s[..|ws[0]|]] + Runs(s[|ws[0]|..], NonSpace);
    }
  }

  // ---------------------------------------------------------------------
  // int(n) and str(n) on decimal digit strings

  function DigitValue(c: char): nat
    requires InClass(c, Digit)
  {
    c as int - '0' as int
  }

  function DigitChar(d: nat): (c: char)
    requires d < 10
    ensures InClass(c, Digit) && DigitValue(c) == d
  {
    ('0' as int + d) as char
  }

  /** `int(d)` for a string of ASCII digits. */
  function ToNat(d: String): nat
    requires AllIn(d, Digit)
  {
    if d == [] then 0 else 10 * ToNat(d[..|d| - 1]) + DigitValue(d[|d| - 1])
  }

  /** `str(n)` for a natural number: decimal, without leading zeros. */
  function NatToString(n: nat): (r: String)
    ensures r != [] && AllIn(r, Digit)
    ensures |r| > 1 ==> r[0] != '0'
  {
    if n < 10 then [DigitChar(n)]
    else NatToString(n / 10) + [DigitChar(n % 10)]
  }

  /** `int(str(n)) == n`. */
  lemma {:induction false} ToNatOfNatToString(n: nat)
    ensures ToNat(NatToString(n)) == n
  {
    if n >= 10 {
      var r := NatToString(n);
      assert r[..|r| - 1] == NatToString(n / 10);
      ToNatOfNatToString(n / 10);
    }
  }

  lemma {:induction false} ToNatZero(d: String)
    requires AllIn(d, Digit) && ToNat(d) == 0
    ensures forall i :: 0 <= i < |d| ==> d[i] == '0'
    decreases |d|
  {
    if d != [] {
      ToNatZero(d[..|d| - 1]);
      forall i | 0 <= i < |d| - 1 ensures d[i] == '0' {
        assert d[i] == d[..|d| - 1][i];
      }
    }
  }

  /** `str(int(d))` drops nothing from a digit string without a leading
      zero: the only thing `int` then `str` removes is leading zeros. */
  lemma {:induction false} NatToStringOfToNat(d: String)
    requires d != [] && AllIn(d, Digit) && (|d| > 1 ==> d[0] != '0')
    ensures NatToString(ToNat(d)) == d
    decreases |d|
  {
    if |d| > 1 {
      var a := d[..|d| - 1];
      assert a[0] == d[0];
      if ToNat(a) == 0 { ToNatZero(a); assert false; }
      NatToStringOfToNat(a);
      var n := ToNat(d);
      assert n / 10 == ToNat(a) && n % 10 == DigitValue(d[|d| - 1]);
      assert d == a + [d[|d| - 1]];
    }
  }

  /** `[int(n) for n in rs]` */
  function Values(rs: seq<String>): (vs: seq<nat>)
    requires forall j :: 0 <= j < |rs| ==> AllIn(rs[j], Digit)
    ensures |vs| == |rs|
    ensures forall j :: 0 <= j < |rs| ==> vs[j] == ToNat(rs[j])
  {
    if rs == [] then [] else [ToNat(rs[0])] + Values(rs[1..])
  }

  /** `[str(n) for n in vs]` */
  function Strings(vs: seq<nat>): (ss: seq<String>)
    ensures |ss| == |vs| && IsWords(ss)
    ensures forall j :: 0 <= j < |vs| ==> ss[j] == NatToString(vs[j])
  {
    if vs == [] then []
    else
      var ss := [NatToString(vs[0])] + Strings(vs[1..]);
      assert forall j :: 0 <= j < |ss| ==> AllIn(ss[j], Digit);
      ss
  }

  // ---------------------------------------------------------------------
  // sorted() on integers

  predicate Sorted(vs: seq<nat>) {
    forall i, j :: 0 <= i < j < |vs| ==> vs[i] <= vs[j]
  }

  function Insert(x: nat, vs: seq<nat>): (r: seq<nat>)
    requires Sorted(vs)
    ensures Sorted(r) && multiset(r) == multiset(vs) + multiset{x}
  {
    if vs == [] || x <= vs[0] then [x] + vs
    else
      var t := Insert(x, vs[1..]);
      assert vs == [vs[0]] + vs[1..];
      BoundedAbove(vs[0], x, vs[1..], t);
      SortedCons(vs[0], t);
      [vs[0]] + t
  }

  lemma BoundedAbove(h: nat, x: nat, u: seq<nat>, t: seq<nat>)
    requires h <= x && (forall i :: 0 <= i < |u| ==> h <= u[i])
    requires multiset(t) == multiset(u) + multiset{x}
    ensures forall i :: 0 <= i < |t| ==> h <= t[i]
  {
    forall i | 0 <= i < |t| ensures h <= t[i] {
      assert t[i] in multiset(t);
      assert t[i] == x || t[i] in multiset(u);
    }
  }

  lemma SortedCons(h: nat, t: seq<nat>)
    requires Sorted(t) && forall i :: 0 <= i < |t| ==> h <= t[i]
    ensures Sorted([h] + t)
  {
    forall i, j | 0 <= i < j < |[h] + t| ensures ([h] + t)[i] <= ([h] + t)[j] {
      assert ([h] + t)[j] == t[j - 1];
    }
  }

  /** `sorted(vs)`: ascending, duplicates kept. */
  function Sort(vs: seq<nat>): (r: seq<nat>)
    ensures Sorted(r) && multiset(r) == multiset(vs)
  {
    if vs == [] then []
    else
      assert vs == [vs[0]] + vs[1..];
      Insert(vs[0], Sort(vs[1..]))
  }

  // ---------------------------------------------------------------------
  // Facts linking the helpers

  /** Characters of no class-`k` character in front change nothing about the runs. */
  lemma {:induction false} RunsSkipLeading(a: String, t: String, k: CharClass)
    requires NoneIn(a, k)
    ensures Runs(a + t, k) == Runs(t, k)
    decreases |a|
  {
    if a == [] {
      assert a + t == t;
    } else {
      assert (a + t)[0] == a[0];
      assert (a + t)[1..] == a[1..] + t;
      RunsSkipLeading(a[1..], t, k);
    }
  }

  /** Nor do such characters behind. */
  lemma {:induction false} RunsSkipTrailing(t: String, a: String, k: CharClass)
    requires NoneIn(a, k)
    ensures Runs(t + a, k) == Runs(t, k)
    decreases |t|
  {
    if t == [] {
      assert t + a == a;
      RunsEmptyIff(a, k);
    } else if !InClass(t[0], k) {
      assert (t + a)[0] == t[0];
      assert (t + a)[1..] == t[1..] + a;
      RunsSkipTrailing(t[1..], a, k);
    } else {
      var n := RunLen(t, k);
      assert t + a == t[..n] + (t[n..] + a);
      RunLenOfPrefix(t[..n], t[n..] + a, k);
      assert (t + a)[..n] == t[..n];
      assert (t + a)[n..] == t[n..] + a;
      RunsSkipTrailing(t[n..], a, k);
    }
  }

  lemma AllSpaceHasNoWord(a: String)
    requires AllSpace(a)
    ensures NoneIn(a, NonSpace)
  {
  }

  /** `x.strip().split() == x.split()`. */
  lemma SplitStrip(x: String)
    ensures Split(Strip(x)) == Split(x)
  {
    StripParts(x);
    SplitSurrounded(x, |x| - |TrimLeft(x)|, Strip(x));
  }

  lemma SplitSurrounded(x: String, i: int, r: String)
    requires Surrounds(x, i, r)
    ensures Split(r) == Split(x)
  {
    var a, b := x[..i], x[i + |r|..];
    assert x == a + (r + b) by {
      assert x == x[..i] + x[i..i + |r|] + x[i + |r|..];
    }
    AllSpaceHasNoWord(a);
    AllSpaceHasNoWord(b);
    RunsSkipLeading(a, r + b, NonSpace);
    RunsSkipTrailing(r, b, NonSpace);
  }

  /** A blank value has no words; any other value has at least one. */
  lemma SplitEmptyIff(x: String)
    ensures Split(x) == [] <==> AllSpace(x)
  {
    RunsEmptyIff(x, NonSpace);
  }

  /** Reading back the numbers written by `str` gives the numbers. */
  lemma {:induction false} ValuesOfStrings(vs: seq<nat>)
    ensures Values(Strings(vs)) == vs
  {
    if vs != [] {
      ToNatOfNatToString(vs[0]);
      ValuesOfStrings(vs[1..]);
      assert Strings(vs)[1..] == Strings(vs[1..]);
    }
  }

  lemma JoinNonEmpty(sep: String, ws: seq<String>)
    requires ws != [] && ws[0] != []
    ensures Join(sep, ws) != []
  {
  }

  // ---------------------------------------------------------------------
  // The fourteen rules

  /** `whole_field`: the value without surrounding whitespace, or None when
      nothing else is left. */
  function WholeField(x: String): (r: Option<String>)
    ensures r.None? <==> AllSpace(x)
    ensures r.Some? ==> r.value != [] && !IsSpace(r.value[0]) && !IsSpace(r.value[|r.value| - 1])
    ensures r.Some? ==> exists i :: Surrounds(x, i, r.value)
  {
    var t := Strip(x);
    if |t| > 0 then Some(t) else None
  }

  /** `first_word`: the leftmost whitespace-free word of the value. */
  function FirstWord(x: String): (r: Option<String>)
    ensures r.None? <==> AllSpace(x)
    ensures r.Some? ==> r.value != [] && AllIn(r.value, NonSpace)
    ensures r.Some? ==> exists i :: IsFirstRun(x, NonSpace, i, r.value)
  {
    var t := Strip(x);
    if |t| > 0 then
      SplitStrip(x);
      SplitEmptyIff(x);
      FirstRun(x, NonSpace);
      Some(Split(t)[0])
    else None
  }

  function Min(a: int, b: int): int {
    if a <= b then a else b
  }

  /** `first_two_words`: the first two words (or the only one) joined by a
      single space; splitting it again gives exactly those words. */
  function FirstTwoWords(x: String): (r: Option<String>)
    ensures r.None? <==> AllSpace(x)
    ensures r.Some? ==> r.value != []
    ensures r.Some? ==> Split(r.value) == Split(x)[..Min(2, |Split(x)|)] && |Split(x)| >= 1
    ensures r.Some? && |Split(x)| == 1 ==> r.value == Split(x)[0]
    ensures r.Some? && |Split(x)| >= 2 ==> r.value == Split(x)[0] + " " + Split(x)[1]
  {
    var t := Strip(x);
    if |t| > 0 then
      var ws := Split(t);
      SplitStrip(x);
      SplitEmptyIff(x);
      SplitJoin(ws[..Min(2, |ws|)]);
      JoinNonEmpty(" ", ws[..Min(2, |ws|)]);
      Some(Join(" ", ws[..Min(2, |ws|)]))
    else None
  }

  /** `x.strip()[:n]` when the stripped value is not blank: a prefix of the
      stripped value of length min(n, its length). */
  function StrippedPrefix(x: String, n: nat): (r: Option<String>)
    ensures r.None? <==> AllSpace(x)
    ensures r.Some? ==> |r.value| == Min(n, |Strip(x)|) && r.value <= Strip(x)
    ensures r.Some? && n > 0 ==> r.value != [] && !IsSpace(r.value[0])
  {
    var t := Strip(x);
    if |t| > 0 then Some(t[..Min(n, |t|)]) else None
  }

  /** `first_three_letters` */
  function FirstThreeLetters(x: String): (r: Option<String>)
    ensures r.None? <==> AllSpace(x)
    ensures r.Some? ==> 0 < |r.value| <= 3 && r.value <= Strip(x)
    ensures r.Some? ==> |r.value| == Min(3, |Strip(x)|)
  {
    StrippedPrefix(x, 3)
  }

  /** `first_four_letters` */
  function FirstFourLetters(x: String): (r: Option<String>)
    ensures r.None? <==> AllSpace(x)
    ensures r.Some? ==> 0 < |r.value| <= 4 && r.value <= Strip(x)
    ensures r.Some? ==> |r.value| == Min(4, |Strip(x)|)
  {
    StrippedPrefix(x, 4)
  }

  /** `first_five_letters` */
  function FirstFiveLetters(x: String): (r: Option<String>)
    ensures r.None? <==> AllSpace(x)
    ensures r.Some? ==> 0 < |r.value| <= 5 && r.value <= Strip(x)
    ensures r.Some? ==> |r.value| == Min(5, |Strip(x)|)
  {
    StrippedPrefix(x, 5)
  }

  /** Every character of `x` is a plain space (U+0020). */
  predicate OnlySpaces(x: String) {
    forall i :: 0 <= i < |x| ==> x[i] == ' '
  }

  /** `x.replace(" ", "")`: every plain space character removed, every other
      character kept, in order. */
  function RemoveSpaces(x: String): (r: String)
    ensures ' ' !in r
    ensures r == [] <==> OnlySpaces(x)
    ensures ' ' !in x ==> r == x
  {
    if x == [] then []
    else
      assert x == [x[0]] + x[1..];
      (if x[0] == ' ' then [] else [x[0]]) + RemoveSpaces(x[1..])
  }

  /** Every character other than a space keeps its number of occurrences. */
  lemma {:induction false} RemoveSpacesCount(x: String)
    ensures multiset(RemoveSpaces(x)) == multiset(x)[' ' := 0]
    decreases |x|
  {
    if x != [] {
      RemoveSpacesCount(x[1..]);
      assert x == [x[0]] + x[1..];
    }
  }

  /** Removing spaces works piece by piece, so the kept characters stay in
      their order: with `RemoveSpaces(" ") == ""` and the identity on
      space-free strings, this pins the result down. */
  lemma {:induction false} RemoveSpacesAppend(a: String, b: String)
    ensures RemoveSpaces(a + b) == RemoveSpaces(a) + RemoveSpaces(b)
    decreases |a|
  {
    if a == [] {
      assert a + b == b;
    } else {
      RemoveSpacesAppend(a[1..], b);
      RemoveSpacesStep(a, b);
    }
  }

  lemma RemoveSpacesStep(a: String, b: String)
    requires a != []
    requires RemoveSpaces(a[1..] + b) == RemoveSpaces(a[1..]) + RemoveSpaces(b)
    ensures RemoveSpaces(a + b) == RemoveSpaces(a) + RemoveSpaces(b)
  {
    var c: String := if a[0] == ' ' then [] else [a[0]];
    assert RemoveSpaces(a + b) == c + RemoveSpaces(a[1..] + b) by {
      TailOfAppend(a, b);
    }
    ConcatAssoc(c, RemoveSpaces(a[1..]), RemoveSpaces(b));
  }

  lemma ConcatAssoc(c: String, u: String, v: String)
    ensures c + (u + v) == (c + u) + v
  {
  }

  lemma TailOfAppend(a: String, b: String)
    requires a != []
    ensures (a + b)[0] == a[0] && (a + b)[1..] == a[1..] + b
  {
  }

  /** `x.replace(" ", "")[:n]` when something remains. */
  function NoSpacePrefix(x: String, n: nat): (r: Option<String>)
    ensures r.None? <==> OnlySpaces(x)
    ensures r.Some? ==> ' ' !in r.value && r.value <= RemoveSpaces(x)
    ensures r.Some? ==> |r.value| == Min(n, |RemoveSpaces(x)|)
  {
    var t := RemoveSpaces(x);
    if |t| > 0 then Some(t[..Min(n, |t|)]) else None
  }

  /** `first_three_letters_no_space` */
  function FirstThreeLettersNoSpace(x: String): (r: Option<String>)
    ensures r.None? <==> OnlySpaces(x)
    ensures r.Some? ==> 0 < |r.value| <= 3 && ' ' !in r.value && r.value <= RemoveSpaces(x)
    ensures r.Some? ==> |r.value| == Min(3, |RemoveSpaces(x)|)
  {
    NoSpacePrefix(x, 3)
  }

  /** `first_four_letters_no_space` */
  function FirstFourLettersNoSpace(x: String): (r: Option<String>)
    ensures r.None? <==> OnlySpaces(x)
    ensures r.Some? ==> 0 < |r.value| <= 4 && ' ' !in r.value && r.value <= RemoveSpaces(x)
    ensures r.Some? ==> |r.value| == Min(4, |RemoveSpaces(x)|)
  {
    NoSpacePrefix(x, 4)
  }

  /** `first_five_letters_no_space` */
  function FirstFiveLettersNoSpace(x: String): (r: Option<String>)
    ensures r.None? <==> OnlySpaces(x)
    ensures r.Some? ==> 0 < |r.value| <= 5 && ' ' !in r.value && r.value <= RemoveSpaces(x)
    ensures r.Some? ==> |r.value| == Min(5, |RemoveSpaces(x)|)
  {
    NoSpacePrefix(x, 5)
  }

  /** The integers written in `x` (`int(n)` of each ASCII digit run), in order of appearance. */
  function Integers(x: String): (vs: seq<nat>)
    ensures vs == [] <==> NoneIn(x, Digit)
  {
    RunsEmptyIff(x, Digit);
    Values(Runs(x, Digit))
  }

  /** `sorted_integers`: reading the tokens back gives the integers of `x`
      in ascending order, duplicates kept. */
  function SortedIntegers(x: String): (r: Option<String>)
    ensures r.None? <==> NoneIn(x, Digit)
    ensures r.Some? ==> r.value != [] && IsWords(Split(r.value))
    ensures r.Some? ==> forall j :: 0 <= j < |Split(r.value)| ==> AllIn(Split(r.value)[j], Digit)
    ensures r.Some? ==> var vs := Values(Split(r.value));
      Sorted(vs) && multiset(vs) == multiset(Integers(x))
    ensures r.Some? ==> r.value == Join(" ", Split(r.value))
    ensures r.Some? ==> forall j :: 0 <= j < |Split(r.value)| ==>
      Split(r.value)[j] == NatToString(ToNat(Split(r.value)[j]))
  {
    var vs := Sort(Integers(x));
    var ss := Strings(vs);
    if |ss| > 0 then
      SplitJoin(ss);
      JoinNonEmpty(" ", ss);
      ValuesOfStrings(vs);
      Some(Join(" ", ss))
    else None
  }

  /** `first_integer`: the leftmost digit run, verbatim (leading zeros kept). */
  function FirstInteger(x: String): (r: Option<String>)
    ensures r.None? <==> NoneIn(x, Digit)
    ensures r.Some? ==> exists i :: IsFirstRun(x, Digit, i, r.value)
  {
    var rs := Runs(x, Digit);
    RunsEmptyIff(x, Digit);
    if |rs| > 0 then
      FirstRun(x, Digit);
      Some(rs[0])
    else None
  }

  /** `last_integer`: the rightmost digit run, verbatim. */
  function LastInteger(x: String): (r: Option<String>)
    ensures r.None? <==> NoneIn(x, Digit)
    ensures r.Some? ==> exists i :: IsLastRun(x, Digit, i, r.value)
  {
    var rs := Runs(x, Digit);
    RunsEmptyIff(x, Digit);
    if |rs| > 0 then
      LastRun(x, Digit);
      Some(Last(rs))
    else None
  }

  /** `largest_integer`: the greatest integer written in `x`, as `str` writes it. */
  function LargestInteger(x: String): (r: Option<String>)
    ensures r.None? <==> NoneIn(x, Digit)
    ensures r.Some? ==> r.value != [] && AllIn(r.value, Digit)
    ensures r.Some? ==> ToNat(r.value) in Integers(x)
    ensures r.Some? ==> forall v :: v in Integers(x) ==> v <= ToNat(r.value)
    ensures r.Some? ==> r.value == NatToString(ToNat(r.value))
  {
    var vs := Sort(Integers(x));
    if |vs| > 0 then
      LastOfSortedIsMax(vs, Integers(x));
      ToNatOfNatToString(vs[|vs| - 1]);
      Some(NatToString(vs[|vs| - 1]))
    else None
  }

  /** The last element of a sorted permutation of `us` is the maximum of `us`. */
  lemma LastOfSortedIsMax(vs: seq<nat>, us: seq<nat>)
    requires Sorted(vs) && vs != [] && multiset(vs) == multiset(us)
    ensures vs[|vs| - 1] in us
    ensures forall v :: v in us ==> v <= vs[|vs| - 1]
  {
    assert vs[|vs| - 1] in multiset(vs);
    forall v | v in us ensures v <= vs[|vs| - 1] {
      assert v in multiset(us);
      assert v in vs;
    }
  }

  /** `three_letter_abbreviation`: the initials of the first three runs of
      ASCII letters; the first is the first letter of `x`. */
  function ThreeLetterAbbreviation(x: String): (r: Option<String>)
    ensures r.None? <==> |Runs(x, Letter)| < 3
    ensures r.Some? ==> |r.value| == 3 && AllIn(r.value, Letter)
    ensures r.Some? ==> Filter(x, Letter) != [] && r.value[0] == Filter(x, Letter)[0]
    ensures r.Some? ==> forall j :: 0 <= j < 3 ==> r.value[j] == Runs(x, Letter)[j][0]
  {
    var ws := Runs(x, Letter);
    if |ws| >= 3 then
      RunsFlatten(x, Letter);
      assert Flatten(ws) == ws[0] + Flatten(ws[1..]);
      Some([ws[0][0], ws[1][0], ws[2][0]])
    else None
  }

  /** Entry `j` of `all_rules`. */
  function RuleAt(j: nat): Rule
    requires j < 14
  {
    match j
    case 0 => Rule("whole_field", WholeField)
    case 1 => Rule("first_word", FirstWord)
    case 2 => Rule("first_two_words", FirstTwoWords)
    case 3 => Rule("first_three_letters", FirstThreeLetters)
    case 4 => Rule("first_four_letters", FirstFourLetters)
    case 5 => Rule("first_five_letters", FirstFiveLetters)
    case 6 => Rule("first_three_letters_no_space", FirstThreeLettersNoSpace)
    case 7 => Rule("first_four_letters_no_space", FirstFourLettersNoSpace)
    case 8 => Rule("first_five_letters_no_space", FirstFiveLettersNoSpace)
    case 9 => Rule("sorted_integers", SortedIntegers)
    case 10 => Rule("first_integer", FirstInteger)
    case 11 => Rule("last_integer", LastInteger)
    case 12 => Rule("largest_integer", LargestInteger)
    case 13 => Rule("three_letter_abbreviation", ThreeLetterAbbreviation)
  }

  /** `all_rules`, in the source's order. */
  function AllRules(): (rules: seq<Rule>)
    ensures |rules| == 14
  {
    seq(14, j requires 0 <= j < 14 => RuleAt(j))
  }

  /** None of the built-in rules ever returns the empty string, so for them
      "falsy" and "None" coincide. */
  lemma AllRulesNeverEmpty(x: String)
    ensures forall j :: 0 <= j < |AllRules()| ==> AllRules()[j].apply(x) != Some([])
  {
    forall j | 0 <= j < |AllRules()| ensures AllRules()[j].apply(x) != Some([]) {
      RuleAtNeverEmpty(x, j);
    }
  }

  lemma RuleAtNeverEmpty(x: String, j: nat)
    requires j < 14
    ensures RuleAt(j).apply(x) != Some([])
  {
    TokensNotEmpty(x);
    match j
    case 0 => assert RuleAt(0).apply == WholeField;
    case 1 => assert RuleAt(1).apply == FirstWord;
    case 2 => assert RuleAt(2).apply == FirstTwoWords;
    case 3 => assert RuleAt(3).apply == FirstThreeLetters;
    case 4 => assert RuleAt(4).apply == FirstFourLetters;
    case 5 => assert RuleAt(5).apply == FirstFiveLetters;
    case 6 => assert RuleAt(6).apply == FirstThreeLettersNoSpace;
    case 7 => assert RuleAt(7).apply == FirstFourLettersNoSpace;
    case 8 => assert RuleAt(8).apply == FirstFiveLettersNoSpace;
    case 9 => assert RuleAt(9).apply == SortedIntegers;
    case 10 => assert RuleAt(10).apply == FirstInteger;
    case 11 => assert RuleAt(11).apply == LastInteger;
    case 12 => assert RuleAt(12).apply == LargestInteger;
    case 13 => assert RuleAt(13).apply == ThreeLetterAbbreviation;
  }

  lemma TokensNotEmpty(x: String)
    ensures WholeField(x) != Some([]) && FirstWord(x) != Some([]) && FirstTwoWords(x) != Some([])
    ensures FirstThreeLetters(x) != Some([]) && FirstFourLetters(x) != Some([]) && FirstFiveLetters(x) != Some([])
    ensures FirstThreeLettersNoSpace(x) != Some([]) && FirstFourLettersNoSpace(x) != Some([])
    ensures FirstFiveLettersNoSpace(x) != Some([]) && SortedIntegers(x) != Some([])
    ensures FirstInteger(x) != Some([]) && LastInteger(x) != Some([]) && LargestInteger(x) != Some([])
    ensures ThreeLetterAbbreviation(x) != Some([])
  {
  }
}

=== FILE: SetCover.dfy ===
/**
 * `greedy_set_cover` of deduplipy/blocking/set_cover.py: a lazy greedy set
 * cover over a priority heap, stopping early once a recall threshold is met.
 *
 * The heap holds one entry `[score, count, s]` per subset, where `count` is
 * the subset's position in `subsets` and `score` is `max - gain`, the gain
 * having been computed when the entry was last pushed.  Since a subset's gain
 * can only shrink as the covered set grows, a stored score never exceeds the
 * fresh one; this is what lets a round stop popping as soon as the popped
 * entry's stored score cannot beat the best fresh score seen so far.
 *
 * Here the heap is a map from position to stored score; popping takes the
 * entry that is least by (score, position), as Python's `heapq` does on
 * these lists.
 */
module SetCover {
  import opened Wrappers

  /** A heap entry without its set: the stored score and the position (`count`). */
  datatype Entry = Entry(score: int, pos: nat)

  /** The one way the source fails: the heap runs dry while the cover is
      still short, `best` stays `[]`, and `best[2]` raises `IndexError`. */
  datatype CoverError = HeapExhausted

  /** Marginal gain `len(s - result_set)`. */
  function Gain(s: set<nat>, covered: set<nat>): nat {
    |s - covered|
  }

  /** The union of the subsets picked so far, as `result_set.update` builds it. */
  function UnionOf(ss: seq<set<nat>>): set<nat> {
    if ss == [] then {} else UnionOf(ss[..|ss| - 1]) + ss[|ss| - 1]
  }

  /** `len(result_set.intersection(parent_set)) / len(parent_set)`. */
  function Coverage(covered: set<nat>, parent: set<nat>): real
    requires parent != {}
  {
    (|covered * parent| as real) / (|parent| as real)
  }

  /** Python's list ordering on `[score, count, s]` entries (counts are unique). */
  predicate Before(a: Entry, b: Entry) {
    a.score < b.score || (a.score == b.score && a.pos <= b.pos)
  }

  /** Every stored score is at most the fresh score `maxScore - gain`. */
  ghost predicate LowerBounds(heap: map<nat, int>, scoring: seq<set<nat>>, maxScore: int, covered: set<nat>) {
    forall p :: p in heap ==> p < |scoring| && heap[p] <= maxScore - Gain(scoring[p], covered)
  }

  ghost function Positions(es: seq<Entry>): set<nat> {
    set e | e in es :: e.pos
  }

  /** Picks are distinct positions of a list of `n` subsets. */
  ghost predicate ValidPicks(n: nat, picks: seq<nat>) {
    && (forall i :: 0 <= i < |picks| ==> picks[i] < n)
    && (forall i, j :: 0 <= i < j < |picks| ==> picks[i] != picks[j])
  }

  /** `p` has the greatest gain over `covered` among the positions of `scoring` not in `picked`. */
  ghost predicate MaxGainAt(scoring: seq<set<nat>>, picked: seq<nat>, covered: set<nat>, p: nat)
    requires p < |scoring|
  {
    forall q :: 0 <= q < |scoring| && q !in picked ==> Gain(scoring[q], covered) <= Gain(scoring[p], covered)
  }

  /** Every pick had maximal gain over the union of the subsets picked before it. */
  ghost predicate Greedy(scoring: seq<set<nat>>, picks: seq<nat>, results: seq<set<nat>>)
    requires |picks| == |results| && forall i :: 0 <= i < |picks| ==> picks[i] < |scoring|
  {
    forall i :: 0 <= i < |picks| ==> MaxGainAt(scoring, picks[..i], UnionOf(results[..i]), picks[i])
  }

  /** `results[i] == subsets[picks[i]]`: every entry returned is an input subset. */
  ghost predicate Chosen(subsets: seq<set<nat>>, picks: seq<nat>, results: seq<set<nat>>) {
    |results| == |picks| && forall i :: 0 <= i < |picks| ==> picks[i] < |subsets| && results[i] == subsets[picks[i]]
  }

  lemma GainShrinks(s: set<nat>, a: set<nat>, b: set<nat>)
    requires a <= b
    ensures Gain(s, b) <= Gain(s, a)
  {
    assert s - b <= s - a;
    SubsetCard(s - b, s - a);
  }

  lemma {:induction false} SubsetCard(a: set<nat>, b: set<nat>)
    requires a <= b
    ensures |a| <= |b|
    decreases |b|
  {
    if a != {} {
      var x :| x in a;
      SubsetCard(a - {x}, b - {x});
    }
  }

  /** Heap pop: the least entry by (stored score, position). */
  method PopMin(heap: map<nat, int>) returns (e: Entry)
    requires heap != map[]
    ensures e.pos in heap && e.score == heap[e.pos]
    ensures forall q :: q in heap ==> Before(e, Entry(heap[q], q))
  {
    var keys := heap.Keys;
    var p :| p in keys;
    e := Entry(heap[p], p);
    keys := keys - {p};
    while keys != {}
      invariant keys <= heap.Keys
      invariant e.pos in heap && e.score == heap[e.pos]
      invariant forall q :: q in heap && q !in keys ==> Before(e, Entry(heap[q], q))
      decreases keys
    {
      var q :| q in keys;
      if Before(Entry(heap[q], q), e) {
        e := Entry(heap[q], q);
      }
      keys := keys - {q};
    }
  }

  /** One round of the inner `while heap` loop (set_cover.py lines 34-53):
      pop entries, rescoring them against `covered`, until the heap is empty
      or the popped stored score cannot beat the best fresh score.  Returns
      the best entry, the heap left over and the rescored `unused` entries. */
  method SelectBest(scoring: seq<set<nat>>, maxScore: int, covered: set<nat>, heap: map<nat, int>)
    returns (best: Entry, rest: map<nat, int>, unused: seq<Entry>)
    requires heap != map[] && LowerBounds(heap, scoring, maxScore, covered)
    ensures Selected(scoring, maxScore, covered, heap, best, rest, unused)
    ensures forall q :: q in heap ==> Gain(scoring[q], covered) <= Gain(scoring[best.pos], covered)
  {
    var h := heap;
    var chosen: Option<Entry> := None;
    unused := [];
    var stop := false;
    ghost var popped: set<nat> := {};
    while h != map[] && !stop
      invariant Scan(scoring, maxScore, covered, heap, h, chosen, unused, popped, stop)
      decreases |h.Keys| + (if stop then 0 else 1)
    {
      var e := PopMin(h);
      if chosen.Some? && e.score >= chosen.value.score {
        // the popped entry goes straight back onto the heap
        ScanStop(scoring, maxScore, covered, heap, h, chosen.value, unused, popped, e);
        stop := true;
      } else {
        var rescored := Rescore(scoring, maxScore, covered, e.pos);
        var chosen', unused' := chosen, unused;
        if chosen.None? {
          chosen' := Some(Entry(rescored, e.pos));
        } else if rescored >= chosen.value.score {
          unused' := unused + [Entry(rescored, e.pos)];
        } else {
          unused' := unused + [chosen.value];
          chosen' := Some(Entry(rescored, e.pos));
        }
        ScanPop(scoring, maxScore, covered, heap, h, chosen, unused, popped, e.pos, chosen', unused');
        assert (h - {e.pos}).Keys < h.Keys;
        h, chosen, unused, popped := h - {e.pos}, chosen', unused', popped + {e.pos};
      }
    }
    ScanEnd(scoring, maxScore, covered, heap, h, chosen, unused, popped, stop);
    best := chosen.value;
    rest := h;
  }

  /** The invariant of the inner loop.  `h` is the heap still to pop from
      and `popped` the positions taken off it; `chosen` is the best entry so
      far and `unused` the other popped entries, all rescored; once `stop`
      is set, nothing left in `h` can beat `chosen`. */
  ghost predicate Scan(scoring: seq<set<nat>>, maxScore: int, covered: set<nat>, heap: map<nat, int>,
                       h: map<nat, int>, chosen: Option<Entry>, unused: seq<Entry>, popped: set<nat>, stop: bool) {
    && LowerBounds(heap, scoring, maxScore, covered)
    && (forall p :: p in h ==> p in heap && h[p] == heap[p])
    && (forall q :: q in h || q in popped <==> q in heap)
    && (forall q :: q in h ==> q !in popped)
    && (chosen.None? ==> popped == {} && unused == [] && !stop)
    && (chosen.Some? ==> forall q :: q in popped <==> q in Positions(unused) || q == chosen.value.pos)
    && (chosen.Some? ==> chosen.value.pos in heap && chosen.value.pos !in Positions(unused))
    && (chosen.Some? ==> chosen.value.score == Rescore(scoring, maxScore, covered, chosen.value.pos))
    && (forall e :: e in unused ==> e.pos in heap && e.score == Rescore(scoring, maxScore, covered, e.pos))
    && (chosen.Some? ==> forall q :: q in popped ==> chosen.value.score <= Rescore(scoring, maxScore, covered, q))
    && (stop ==> chosen.Some? && forall q :: q in h ==> chosen.value.score <= Rescore(scoring, maxScore, covered, q))
  }

  /** A popped stored score that cannot beat `chosen` ends the round: by
      heap order and the lower bounds, no entry left can beat it either. */
  lemma ScanStop(scoring: seq<set<nat>>, maxScore: int, covered: set<nat>, heap: map<nat, int>,
                 h: map<nat, int>, chosen: Entry, unused: seq<Entry>, popped: set<nat>, e: Entry)
    requires Scan(scoring, maxScore, covered, heap, h, Some(chosen), unused, popped, false)
    requires e.pos in h && e.score == h[e.pos] && forall q :: q in h ==> Before(e, Entry(h[q], q))
    requires e.score >= chosen.score
    ensures Scan(scoring, maxScore, covered, heap, h, Some(chosen), unused, popped, true)
  {
    forall q | q in h ensures chosen.score <= Rescore(scoring, maxScore, covered, q) {
      assert Before(e, Entry(h[q], q));
    }
  }

  /** Taking a popped entry off the heap, rescored, as lines 38-53 do. */
  lemma ScanPop(scoring: seq<set<nat>>, maxScore: int, covered: set<nat>, heap: map<nat, int>,
                h: map<nat, int>, chosen: Option<Entry>, unused: seq<Entry>, popped: set<nat>, p: nat,
                chosen': Option<Entry>, unused': seq<Entry>)
    requires Scan(scoring, maxScore, covered, heap, h, chosen, unused, popped, false)
    requires p in h
    requires var r := Entry(Rescore(scoring, maxScore, covered, p), p);
      || (chosen.None? && chosen' == Some(r) && unused' == unused)
      || (chosen.Some? && r.score >= chosen.value.score && chosen' == chosen && unused' == unused + [r])
      || (chosen.Some? && r.score < chosen.value.score && chosen' == Some(r) && unused' == unused + [chosen.value])
    ensures Scan(scoring, maxScore, covered, heap, h - {p}, chosen', unused', popped + {p}, false)
  {
    var r := Entry(Rescore(scoring, maxScore, covered, p), p);
    if chosen.Some? {
      if r.score >= chosen.value.score {
        PositionsAppend(unused, r);
      } else {
        PositionsAppend(unused, chosen.value);
      }
    }
  }

  /** The round always ends with a chosen entry, which beats every entry of the heap. */
  lemma ScanEnd(scoring: seq<set<nat>>, maxScore: int, covered: set<nat>, heap: map<nat, int>,
                h: map<nat, int>, chosen: Option<Entry>, unused: seq<Entry>, popped: set<nat>, stop: bool)
    requires heap != map[] && Scan(scoring, maxScore, covered, heap, h, chosen, unused, popped, stop)
    requires h == map[] || stop
    ensures chosen.Some?
    ensures Selected(scoring, maxScore, covered, heap, chosen.value, h, unused)
    ensures forall q :: q in heap ==> Gain(scoring[q], covered) <= Gain(scoring[chosen.value.pos], covered)
  {
  }

  /** The score an entry gets when it is popped and rescored: `max - len(s - result_set)`. */
  function Rescore(scoring: seq<set<nat>>, maxScore: int, covered: set<nat>, p: nat): int
    requires p < |scoring|
  {
    maxScore - Gain(scoring[p], covered)
  }

  lemma PositionsAppend(es: seq<Entry>, e: Entry)
    ensures Positions(es + [e]) == Positions(es) + {e.pos}
  {
    assert forall x :: x in es + [e] <==> x in es || x == e;
  }

  /** `while unused: heapq.heappush(heap, unused.pop())`. */
  method PushBack(heap: map<nat, int>, unused: seq<Entry>, ghost scoring: seq<set<nat>>, ghost maxScore: int, ghost covered: set<nat>)
    returns (h: map<nat, int>)
    requires LowerBounds(heap, scoring, maxScore, covered)
    requires forall e :: e in unused ==> e.pos < |scoring| && e.score <= maxScore - Gain(scoring[e.pos], covered)
    ensures forall q :: q in h <==> q in heap || q in Positions(unused)
    ensures LowerBounds(h, scoring, maxScore, covered)
  {
    h := heap;
    var todo := unused;
    while todo != []
      invariant forall q :: q in h || q in Positions(todo) <==> q in heap || q in Positions(unused)
      invariant LowerBounds(h, scoring, maxScore, covered)
      invariant forall e :: e in todo ==> e in unused
    {
      var e := todo[|todo| - 1];
      assert todo == todo[..|todo| - 1] + [e];
      assert Positions(todo) == Positions(todo[..|todo| - 1]) + {e.pos};
      todo := todo[..|todo| - 1];
      h := h[e.pos := e.score];
    }
  }

  /** The initial heap: `[max - len(s), len(heap), s]` for each subset in order. */
  method InitialHeap(subsets: seq<set<nat>>, maxScore: int) returns (heap: map<nat, int>)
    ensures forall q: nat :: q in heap <==> q < |subsets|
    ensures |heap.Keys| == |subsets|
    ensures forall q :: q in heap ==> heap[q] == maxScore - |subsets[q]|
    ensures LowerBounds(heap, subsets, maxScore, {})
  {
    heap := map[];
    for p := 0 to |subsets|
      invariant forall q: nat :: q in heap <==> q < p
      invariant |heap.Keys| == p
      invariant forall q :: q in heap ==> heap[q] == maxScore - |subsets[q]|
    {
      assert p !in heap.Keys;
      heap := heap[p := maxScore - |subsets[p]|];
    }
    forall q | q in heap ensures heap[q] <= maxScore - Gain(subsets[q], {}) {
      assert subsets[q] - {} == subsets[q];
    }
  }

  /** After a round the heap holds the unpicked positions again, one fewer than before. */
  lemma HeapAfterRound(n: nat, picks: seq<nat>, before: map<nat, int>, after: map<nat, int>, p: nat)
    requires forall q: nat :: q in before <==> q < n && q !in picks
    requires p in before && forall q :: q in after <==> q in before && q != p
    ensures forall q: nat :: q in after <==> q < n && q !in picks + [p]
    ensures |after.Keys| == |before.Keys| - 1
  {
    assert after.Keys == before.Keys - {p};
  }

  lemma UnionOfAppend(ss: seq<set<nat>>, s: set<nat>)
    ensures UnionOf(ss + [s]) == UnionOf(ss) + s
  {
    assert (ss + [s])[..|ss|] == ss;
  }

  /** Appending a pick keeps the record of earlier picks intact. */
  lemma ExtendGreedy(scoring: seq<set<nat>>, subsets: seq<set<nat>>, picks: seq<nat>, results: seq<set<nat>>, p: nat)
    requires |scoring| == |subsets| && p < |subsets|
    requires Chosen(subsets, picks, results) && Greedy(scoring, picks, results)
    requires MaxGainAt(scoring, picks, UnionOf(results), p)
    ensures Chosen(subsets, picks + [p], results + [subsets[p]])
    ensures Greedy(scoring, picks + [p], results + [subsets[p]])
  {
    var picks', results' := picks + [p], results + [subsets[p]];
    forall i | 0 <= i < |picks'|
      ensures MaxGainAt(scoring, picks'[..i], UnionOf(results'[..i]), picks'[i])
    {
      if i < |picks| {
        assert picks'[..i] == picks[..i] && results'[..i] == results[..i];
      } else {
        assert picks'[..i] == picks && results'[..i] == results;
      }
    }
  }

  /** The condition of the outer `while`: as written `result_set < parent_set`;
      corrected, `not parent_set <= result_set`. */
  datatype Guard = ProperSubset | NotCovered

  predicate Open(guard: Guard, covered: set<nat>, parent: set<nat>) {
    match guard
    case ProperSubset => covered < parent
    case NotCovered => !(parent <= covered)
  }

  /** Every proper prefix of `results` left `parent` uncovered, and every
      non-empty one fell short of `recall`: the conditions under which the
      outer loop goes on. */
  ghost predicate Continued(guard: Guard, parent: set<nat>, recall: real, results: seq<set<nat>>) {
    forall i :: 0 <= i < |results| ==> Going(guard, parent, recall, results[..i])
  }

  /** The loop is still running after the subsets `done` were added. */
  ghost predicate Going(guard: Guard, parent: set<nat>, recall: real, done: seq<set<nat>>) {
    Open(guard, UnionOf(done), parent) && (done != [] ==> Coverage(UnionOf(done), parent) < recall)
  }

  lemma ExtendContinued(guard: Guard, parent: set<nat>, recall: real, results: seq<set<nat>>, s: set<nat>)
    requires Continued(guard, parent, recall, results) && Going(guard, parent, recall, results)
    ensures Continued(guard, parent, recall, results + [s])
  {
    forall i | 0 <= i < |results| + 1 ensures Going(guard, parent, recall, (results + [s])[..i]) {
      if i < |results| {
        assert (results + [s])[..i] == results[..i];
      } else {
        assert (results + [s])[..i] == results;
      }
    }
  }

  lemma ExtendPicks(n: nat, picks: seq<nat>, p: nat)
    requires ValidPicks(n, picks) && p < n && p !in picks
    ensures ValidPicks(n, picks + [p])
  {
  }

  lemma PickedAppend(subsets: seq<set<nat>>, picks: seq<nat>, p: nat)
    requires forall i :: 0 <= i < |picks| ==> picks[i] < |subsets|
    requires p < |subsets|
    ensures PickedSubsets(subsets, picks + [p]) == PickedSubsets(subsets, picks) + [subsets[p]]
  {
  }

  /** The end of a round: the `unused` entries go back onto the heap, which
      then holds every position not yet picked, with scores that are still
      lower bounds for the grown covered set. */
  method Refill(ghost guard: Guard, ghost scoring: seq<set<nat>>, ghost subsets: seq<set<nat>>, ghost parent: set<nat>,
                ghost recall: real, heap: map<nat, int>, ghost picks: seq<nat>, ghost results: seq<set<nat>>,
                ghost before: set<nat>, ghost after: set<nat>, best: Entry, rest: map<nat, int>, unused: seq<Entry>)
    returns (h: map<nat, int>)
    requires Invariant(guard, scoring, subsets, parent, recall, heap, picks, results, before)
    requires Selected(scoring, |parent|, before, heap, best, rest, unused)
    requires before <= after
    ensures forall q: nat :: q in h <==> q < |subsets| && q !in picks + [best.pos]
    ensures |h.Keys| + |picks + [best.pos]| == |subsets|
    ensures |h.Keys| < |heap.Keys|
    ensures LowerBounds(h, scoring, |parent|, after)
  {
    StillLowerBounds(scoring, |parent|, before, after, rest, unused);
    h := PushBack(rest, unused, scoring, |parent|, after);
    HeapAfterRound(|subsets|, picks, heap, h, best.pos);
  }

  /** The state after a round that did not reach `recall` satisfies the loop invariant again. */
  lemma Reinstate(guard: Guard, scoring: seq<set<nat>>, subsets: seq<set<nat>>, parent: set<nat>, recall: real,
                  heap: map<nat, int>, picks: seq<nat>, results: seq<set<nat>>, covered: set<nat>)
    requires Record(guard, scoring, subsets, parent, recall, picks, results)
    requires forall q: nat :: q in heap <==> q < |subsets| && q !in picks
    requires |heap.Keys| + |picks| == |subsets|
    requires LowerBounds(heap, scoring, |parent|, covered)
    requires covered == UnionOf(results)
    requires results != [] && parent != {} && Coverage(covered, parent) < recall
    ensures Invariant(guard, scoring, subsets, parent, recall, heap, picks, results, covered)
  {
  }

  /** Picking `best` extends the record of picks. */
  lemma PickStep(guard: Guard, scoring: seq<set<nat>>, subsets: seq<set<nat>>, parent: set<nat>, recall: real,
                 heap: map<nat, int>, picks: seq<nat>, results: seq<set<nat>>, covered: set<nat>,
                 best: Entry, rest: map<nat, int>, unused: seq<Entry>)
    requires Invariant(guard, scoring, subsets, parent, recall, heap, picks, results, covered)
    requires Open(guard, covered, parent)
    requires Selected(scoring, |parent|, covered, heap, best, rest, unused)
    requires MaxGainAt(scoring, picks, covered, best.pos)
    ensures Record(guard, scoring, subsets, parent, recall, picks + [best.pos], results + [subsets[best.pos]])
    ensures UnionOf(results + [subsets[best.pos]]) == covered + subsets[best.pos]
    ensures parent != {}
  {
    AfterPick(guard, scoring, subsets, parent, recall, picks, results, best.pos);
  }

  /** Adding the round's best subset keeps every loop invariant about the picks. */
  lemma AfterPick(guard: Guard, scoring: seq<set<nat>>, subsets: seq<set<nat>>, parent: set<nat>, recall: real,
                  picks: seq<nat>, results: seq<set<nat>>, p: nat)
    requires |scoring| == |subsets| && p < |subsets| && p !in picks
    requires ValidPicks(|subsets|, picks) && results == PickedSubsets(subsets, picks)
    requires Greedy(scoring, picks, results) && MaxGainAt(scoring, picks, UnionOf(results), p)
    requires Continued(guard, parent, recall, results) && Going(guard, parent, recall, results)
    ensures ValidPicks(|subsets|, picks + [p])
    ensures results + [subsets[p]] == PickedSubsets(subsets, picks + [p])
    ensures UnionOf(results + [subsets[p]]) == UnionOf(results) + subsets[p]
    ensures Greedy(scoring, picks + [p], results + [subsets[p]])
    ensures Continued(guard, parent, recall, results + [subsets[p]])
  {
    ExtendGreedy(scoring, subsets, picks, results, p);
    ExtendContinued(guard, parent, recall, results, subsets[p]);
    UnionOfAppend(results, subsets[p]);
    PickedAppend(subsets, picks, p);
    ExtendPicks(|subsets|, picks, p);
  }

  /** Stored scores stay lower bounds once the covered set grows. */
  lemma StillLowerBounds(scoring: seq<set<nat>>, maxScore: int, before: set<nat>, after: set<nat>,
                         rest: map<nat, int>, unused: seq<Entry>)
    requires before <= after
    requires LowerBounds(rest, scoring, maxScore, before)
    requires forall e :: e in unused ==> e.pos < |scoring| && e.score <= maxScore - Gain(scoring[e.pos], before)
    ensures LowerBounds(rest, scoring, maxScore, after)
    ensures forall e :: e in unused ==> e.pos < |scoring| && e.score <= maxScore - Gain(scoring[e.pos], after)
  {
    forall p | p in rest ensures rest[p] <= maxScore - Gain(scoring[p], after) {
      GainShrinks(scoring[p], before, after);
    }
    forall e | e in unused ensures e.score <= maxScore - Gain(scoring[e.pos], after) {
      GainShrinks(scoring[e.pos], before, after);
    }
  }

  /** What the picks so far satisfy: distinct positions, each with maximal
      gain over the subsets picked before it, and the outer loop's condition
      held after every proper prefix of them. */
  ghost predicate Record(guard: Guard, scoring: seq<set<nat>>, subsets: seq<set<nat>>, parent: set<nat>, recall: real,
                         picks: seq<nat>, results: seq<set<nat>>) {
    && |scoring| == |subsets|
    && ValidPicks(|subsets|, picks)
    && results == PickedSubsets(subsets, picks)
    && Greedy(scoring, picks, results)
    && Continued(guard, parent, recall, results)
  }

  /** The invariant of the outer loop: the record of picks, and a heap that
      holds exactly the positions not picked, with lower-bound scores. */
  ghost predicate Invariant(guard: Guard, scoring: seq<set<nat>>, subsets: seq<set<nat>>, parent: set<nat>, recall: real,
                            heap: map<nat, int>, picks: seq<nat>, results: seq<set<nat>>, covered: set<nat>) {
    && Record(guard, scoring, subsets, parent, recall, picks, results)
    && (forall q: nat :: q in heap <==> q < |subsets| && q !in picks)
    && |heap.Keys| + |picks| == |subsets|
    && LowerBounds(heap, scoring, |parent|, covered)
    && covered == UnionOf(results)
    && (results != [] ==> parent != {} && Coverage(covered, parent) < recall)
  }

  /** What a round of selection (SelectBest) hands back. */
  ghost predicate Selected(scoring: seq<set<nat>>, maxScore: int, covered: set<nat>, heap: map<nat, int>,
                           best: Entry, rest: map<nat, int>, unused: seq<Entry>) {
    && best.pos in heap && best.pos < |scoring|
    && best.score == maxScore - Gain(scoring[best.pos], covered)
    && (forall q :: q in rest || q in Positions(unused) <==> q in heap && q != best.pos)
    && (forall q :: q in rest ==> rest[q] == heap[q])
    && (forall e :: e in unused ==> e.pos in heap && e.pos < |scoring| && e.score == maxScore - Gain(scoring[e.pos], covered))
  }

  lemma InitialInvariant(guard: Guard, scoring: seq<set<nat>>, subsets: seq<set<nat>>, parent: set<nat>, recall: real,
                         heap: map<nat, int>)
    requires |scoring| == |subsets|
    requires forall q: nat :: q in heap <==> q < |subsets|
    requires |heap.Keys| == |subsets| && LowerBounds(heap, scoring, |parent|, {})
    ensures Invariant(guard, scoring, subsets, parent, recall, heap, [], [], {})
  {
    assert PickedSubsets(subsets, []) == [];
    assert Greedy(scoring, [], []);
    assert Continued(guard, parent, recall, []);
    assert Record(guard, scoring, subsets, parent, recall, [], []);
    assert forall q: nat :: q in heap <==> q < |subsets| && q !in [];
    assert UnionOf([]) == {};
  }

  /** The end of a round once `best` is chosen (set_cover.py lines 54-63):
      append it, compute the coverage, and either stop with `reached` or
      push the unused entries back. */
  method Advance(guard: Guard, scoring: seq<set<nat>>, subsets: seq<set<nat>>, parent: set<nat>, recall: real,
                 heap: map<nat, int>, ghost picks: seq<nat>, results: seq<set<nat>>, covered: set<nat>,
                 best: Entry, rest: map<nat, int>, unused: seq<Entry>)
    returns (heap': map<nat, int>, ghost picks': seq<nat>, results': seq<set<nat>>, covered': set<nat>, reached: bool)
    requires Invariant(guard, scoring, subsets, parent, recall, heap, picks, results, covered)
    requires Open(guard, covered, parent)
    requires Selected(scoring, |parent|, covered, heap, best, rest, unused)
    requires MaxGainAt(scoring, picks, covered, best.pos)
    ensures picks' == picks + [best.pos] && results' == results + [subsets[best.pos]]
    ensures covered' == covered + subsets[best.pos] == UnionOf(results') && |picks'| <= |subsets|
    ensures Record(guard, scoring, subsets, parent, recall, picks', results')
    ensures parent != {} && (reached <==> Coverage(covered', parent) >= recall)
    ensures !reached ==> Invariant(guard, scoring, subsets, parent, recall, heap', picks', results', covered')
    ensures if reached then heap' == heap else |heap'.Keys| < |heap.Keys|
  {
    PickStep(guard, scoring, subsets, parent, recall, heap, picks, results, covered, best, rest, unused);
    results' := results + [subsets[best.pos]];
    picks' := picks + [best.pos];
    covered' := covered + subsets[best.pos];
    reached := Coverage(covered', parent) >= recall;
    heap' := heap;
    if !reached {
      heap' := Refill(guard, scoring, subsets, parent, recall, heap, picks, results, covered, covered', best, rest, unused);
      Reinstate(guard, scoring, subsets, parent, recall, heap', picks', results', covered');
    }
  }

  /** As written (set_cover.py lines 5-64).  Each pick is an input subset at
      a position not picked before, with maximal gain `|s - result_set|`; the loop goes on
      while `result_set < parent_set` and stops early once coverage reaches
      `recall`; it fails when the heap runs dry first. */
  method GreedySetCover(subsets: seq<set<nat>>, parent: set<nat>, recall: real)
    returns (r: Result<seq<set<nat>>, CoverError>, ghost picks: seq<nat>)
    ensures Returned(subsets, parent, recall, r, picks)
  {
    var heap: map<nat, int> := InitialHeap(subsets, |parent|);
    InitialInvariant(ProperSubset, subsets, subsets, parent, recall, heap);
    var results: seq<set<nat>> := [];
    var resultSet: set<nat> := {};
    picks := [];
    while resultSet < parent
      invariant Invariant(ProperSubset, subsets, subsets, parent, recall, heap, picks, results, resultSet)
      decreases |heap.Keys|
    {
      if heap == map[] {
        HeapRanDry(subsets, parent, recall, heap, picks, results, resultSet);
        return Err(HeapExhausted), picks;
      }
      var best, rest, unused := SelectBest(subsets, |parent|, resultSet, heap);
      var reached;
      heap, picks, results, resultSet, reached :=
        Advance(ProperSubset, subsets, subsets, parent, recall, heap, picks, results, resultSet, best, rest, unused);
      if reached {
        RecallReached(subsets, parent, recall, picks, results);
        return Ok(results), picks;
      }
    }
    ParentCovered(subsets, parent, recall, heap, picks, results, resultSet);
    return Ok(results), picks;
  }

  /** What the as-written function promises: its picks form a greedy record
      along which the loop condition held; a returned cover either no longer
      is a proper subset of `parent` or reaches `recall` with at least one
      pick; the failure comes only after every subset was picked with the
      loop still running; and an empty `parent` gives an empty cover. */
  ghost predicate Returned(subsets: seq<set<nat>>, parent: set<nat>, recall: real,
                           r: Result<seq<set<nat>>, CoverError>, picks: seq<nat>) {
    && ValidPicks(|subsets|, picks) && |picks| <= |subsets|
    && Record(ProperSubset, subsets, subsets, parent, recall, picks, PickedSubsets(subsets, picks))
    && (r.Ok? ==> r.value == PickedSubsets(subsets, picks))
    && (r.Ok? ==> var u := UnionOf(r.value);
         !(u < parent) || (|picks| > 0 && Coverage(u, parent) >= recall))
    && (r.Err? ==> |picks| == |subsets| && Going(ProperSubset, parent, recall, PickedSubsets(subsets, picks)))
    && (parent == {} ==> r == Ok([]))
  }

  lemma HeapRanDry(subsets: seq<set<nat>>, parent: set<nat>, recall: real, heap: map<nat, int>,
                   picks: seq<nat>, results: seq<set<nat>>, covered: set<nat>)
    requires Invariant(ProperSubset, subsets, subsets, parent, recall, heap, picks, results, covered)
    requires covered < parent && heap == map[]
    ensures Returned(subsets, parent, recall, Err(HeapExhausted), picks)
  {
    assert heap.Keys == {};
  }

  lemma RecallReached(subsets: seq<set<nat>>, parent: set<nat>, recall: real, picks: seq<nat>, results: seq<set<nat>>)
    requires Record(ProperSubset, subsets, subsets, parent, recall, picks, results) && 0 < |picks| <= |subsets|
    requires parent != {} && Coverage(UnionOf(results), parent) >= recall
    ensures Returned(subsets, parent, recall, Ok(results), picks)
  {
  }

  lemma ParentCovered(subsets: seq<set<nat>>, parent: set<nat>, recall: real, heap: map<nat, int>,
                      picks: seq<nat>, results: seq<set<nat>>, covered: set<nat>)
    requires Invariant(ProperSubset, subsets, subsets, parent, recall, heap, picks, results, covered)
    requires !(covered < parent)
    ensures Returned(subsets, parent, recall, Ok(results), picks)
  {
  }

  /** Each subset cut down to `parent`: the corrected scoring counts only
      the elements of the parent set a subset would add. */
  function Restricted(subsets: seq<set<nat>>, parent: set<nat>): (scoring: seq<set<nat>>)
    ensures |scoring| == |subsets|
    ensures forall i :: 0 <= i < |subsets| ==> scoring[i] <= parent && scoring[i] <= subsets[i]
    ensures forall i, e :: 0 <= i < |subsets| && e in subsets[i] && e in parent ==> e in scoring[i]
  {
    seq(|subsets|, i requires 0 <= i < |subsets| => subsets[i] * parent)
  }

  /** Every pick added at least one new element to the covered set. */
  ghost predicate Useful(scoring: seq<set<nat>>, picks: seq<nat>, results: seq<set<nat>>)
    requires |picks| == |results| && forall i :: 0 <= i < |picks| ==> picks[i] < |scoring|
  {
    forall i :: 0 <= i < |picks| ==> Gain(scoring[picks[i]], UnionOf(results[..i])) > 0
  }

  /** No subset has anything of `parent` left to add to `covered`. */
  ghost predicate Exhausted(subsets: seq<set<nat>>, parent: set<nat>, covered: set<nat>) {
    forall q :: 0 <= q < |subsets| ==> subsets[q] * parent <= covered
  }

  lemma ExtendUseful(scoring: seq<set<nat>>, picks: seq<nat>, results: seq<set<nat>>, p: nat, s: set<nat>)
    requires |picks| == |results| && forall i :: 0 <= i < |picks| ==> picks[i] < |scoring|
    requires p < |scoring| && Useful(scoring, picks, results)
    requires Gain(scoring[p], UnionOf(results)) > 0
    ensures Useful(scoring, picks + [p], results + [s])
  {
    forall i | 0 <= i < |picks| + 1
      ensures Gain(scoring[(picks + [p])[i]], UnionOf((results + [s])[..i])) > 0
    {
      if i < |picks| {
        assert (results + [s])[..i] == results[..i];
      } else {
        assert (results + [s])[..i] == results;
      }
    }
  }

  lemma {:induction false} InUnion(ss: seq<set<nat>>, i: nat)
    requires i < |ss|
    ensures ss[i] <= UnionOf(ss)
    decreases |ss|
  {
    if i < |ss| - 1 {
      InUnion(ss[..|ss| - 1], i);
    }
  }

  /** Once every position is picked, nothing is left to add. */
  lemma AllPicked(subsets: seq<set<nat>>, parent: set<nat>, picks: seq<nat>, results: seq<set<nat>>)
    requires ValidPicks(|subsets|, picks) && results == PickedSubsets(subsets, picks)
    requires forall q :: 0 <= q < |subsets| ==> q in picks
    ensures Exhausted(subsets, parent, UnionOf(results))
  {
    forall q | 0 <= q < |subsets| ensures subsets[q] * parent <= UnionOf(results) {
      assert q in picks;
      var i :| 0 <= i < |picks| && picks[i] == q;
      InUnion(results, i);
    }
  }

  /** When the best remaining gain is zero, nothing is left to add. */
  lemma NothingLeft(subsets: seq<set<nat>>, parent: set<nat>, heap: map<nat, int>, picks: seq<nat>,
                    results: seq<set<nat>>, covered: set<nat>)
    requires ValidPicks(|subsets|, picks) && results == PickedSubsets(subsets, picks) && covered == UnionOf(results)
    requires forall q: nat :: q in heap <==> q < |subsets| && q !in picks
    requires forall q :: q in heap ==> Gain(Restricted(subsets, parent)[q], covered) == 0
    ensures Exhausted(subsets, parent, covered)
  {
    forall q | 0 <= q < |subsets| ensures subsets[q] * parent <= covered {
      if q in picks {
        var i :| 0 <= i < |picks| && picks[i] == q;
        InUnion(results, i);
        assert results[i] == subsets[q];
        assert subsets[q] <= covered;
      } else {
        assert q in heap;
        assert Restricted(subsets, parent)[q] == subsets[q] * parent;
        assert Restricted(subsets, parent)[q] - covered == {};
        forall x | x in subsets[q] * parent ensures x in covered {
          assert x !in Restricted(subsets, parent)[q] - covered;
        }
      }
    }
  }

  lemma {:induction false} UnionExhausted(subsets: seq<set<nat>>, parent: set<nat>, covered: set<nat>)
    requires Exhausted(subsets, parent, covered)
    ensures UnionOf(subsets) * parent <= covered
    decreases |subsets|
  {
    if subsets != [] {
      UnionExhausted(subsets[..|subsets| - 1], parent, covered);
    }
  }

  /** Coverage grows with the covered part of `parent`. */
  lemma CoverageMono(a: set<nat>, b: set<nat>, parent: set<nat>)
    requires parent != {} && a * parent <= b * parent
    ensures Coverage(a, parent) <= Coverage(b, parent)
  {
    SubsetCard(a * parent, b * parent);
    DivMono(|a * parent| as real, |b * parent| as real, |parent| as real);
  }

  lemma DivMono(x: real, y: real, d: real)
    requires x <= y && d > 0.0
    ensures x / d <= y / d
  {
    assert y / d - x / d == (y - x) / d;
  }

  /** Whenever the subsets together reach `recall`, a result that covers
      `parent`, reaches `recall` or exhausts the subsets reaches it too. */
  lemma ReachesRecall(subsets: seq<set<nat>>, parent: set<nat>, recall: real, covered: set<nat>)
    requires parent != {} && Coverage(UnionOf(subsets), parent) >= recall
    requires parent <= covered || Coverage(covered, parent) >= recall || Exhausted(subsets, parent, covered)
    ensures Coverage(covered, parent) >= recall
  {
    if parent <= covered {
      CoverageMono(UnionOf(subsets), covered, parent);
    } else if Exhausted(subsets, parent, covered) {
      UnionExhausted(subsets, parent, covered);
      CoverageMono(UnionOf(subsets), covered, parent);
    }
  }

  /** How the corrected loop ends: `parent` covered, `recall` reached, or
      nothing left to add. */
  ghost predicate Finished(subsets: seq<set<nat>>, parent: set<nat>, recall: real, results: seq<set<nat>>) {
    var u := UnionOf(results);
    parent <= u || (results != [] && parent != {} && Coverage(u, parent) >= recall) || Exhausted(subsets, parent, u)
  }

  /** Corrected.  Gains count only elements of `parent`, the loop runs until
      `parent` is covered, and a round whose best gain is zero, or an empty
      heap, ends the loop with what can be covered instead of failing.  The
      result reaches `recall` whenever all the subsets together do. */
  method GreedySetCoverFixed(subsets: seq<set<nat>>, parent: set<nat>, recall: real)
    returns (r: seq<set<nat>>, ghost picks: seq<nat>)
    ensures ValidPicks(|subsets|, picks) && r == PickedSubsets(subsets, picks)
    ensures Record(NotCovered, Restricted(subsets, parent), subsets, parent, recall, picks, r)
    ensures Useful(Restricted(subsets, parent), picks, r)
    ensures Finished(subsets, parent, recall, r)
    ensures parent != {} && Coverage(UnionOf(subsets), parent) >= recall ==> Coverage(UnionOf(r), parent) >= recall
  {
    ghost var scoring := Restricted(subsets, parent);
    var heap: map<nat, int> := InitialHeap(Restricted(subsets, parent), |parent|);
    InitialInvariant(NotCovered, scoring, subsets, parent, recall, heap);
    r := [];
    var resultSet: set<nat> := {};
    picks := [];
    var done := false;
    while !done && !(parent <= resultSet)
      invariant Record(NotCovered, scoring, subsets, parent, recall, picks, r) && resultSet == UnionOf(r)
      invariant !done ==> Invariant(NotCovered, scoring, subsets, parent, recall, heap, picks, r, resultSet)
      invariant Useful(scoring, picks, r)
      invariant done ==> Finished(subsets, parent, recall, r)
      decreases |heap.Keys|, if done then 0 else 1
    {
      heap, picks, r, resultSet, done := FixedRound(subsets, parent, recall, heap, picks, r, resultSet);
    }
    FixedOutcome(subsets, parent, recall, r);
  }

  /** One pass of the corrected outer loop. */
  method FixedRound(subsets: seq<set<nat>>, parent: set<nat>, recall: real,
                    heap: map<nat, int>, ghost picks: seq<nat>, results: seq<set<nat>>, covered: set<nat>)
    returns (heap': map<nat, int>, ghost picks': seq<nat>, results': seq<set<nat>>, covered': set<nat>, done: bool)
    requires Invariant(NotCovered, Restricted(subsets, parent), subsets, parent, recall, heap, picks, results, covered)
    requires Useful(Restricted(subsets, parent), picks, results)
    requires !(parent <= covered)
    ensures Record(NotCovered, Restricted(subsets, parent), subsets, parent, recall, picks', results')
    ensures covered' == UnionOf(results')
    ensures Useful(Restricted(subsets, parent), picks', results')
    ensures done ==> Finished(subsets, parent, recall, results') && heap' == heap
    ensures !done ==> Invariant(NotCovered, Restricted(subsets, parent), subsets, parent, recall, heap', picks', results', covered')
    ensures !done ==> |heap'.Keys| < |heap.Keys|
  {
    var scoring := Restricted(subsets, parent);
    heap', picks', results', covered', done := heap, picks, results, covered, true;
    if heap == map[] {
      AllPicked(subsets, parent, picks, results);
    } else {
      var best, rest, unused := SelectBest(scoring, |parent|, covered, heap);
      if best.score == |parent| {
        NothingLeft(subsets, parent, heap, picks, results, covered);
      } else {
        ExtendUseful(scoring, picks, results, best.pos, subsets[best.pos]);
        heap', picks', results', covered', done :=
          Advance(NotCovered, scoring, subsets, parent, recall, heap, picks, results, covered, best, rest, unused);
      }
    }
  }

  lemma FixedOutcome(subsets: seq<set<nat>>, parent: set<nat>, recall: real, results: seq<set<nat>>)
    requires Finished(subsets, parent, recall, results)
    ensures parent != {} && Coverage(UnionOf(subsets), parent) >= recall ==> Coverage(UnionOf(results), parent) >= recall
  {
    if parent != {} && Coverage(UnionOf(subsets), parent) >= recall {
      ReachesRecall(subsets, parent, recall, UnionOf(results));
    }
  }

  /** The subsets at the picked positions, in pick order. */
  function PickedSubsets(subsets: seq<set<nat>>, picks: seq<nat>): (rs: seq<set<nat>>)
    requires forall i :: 0 <= i < |picks| ==> picks[i] < |subsets|
    ensures Chosen(subsets, picks, rs)
  {
    seq(|picks|, i requires 0 <= i < |picks| => subsets[picks[i]])
  }

  /** The first pick has the greatest gain of all subsets. */
  lemma FirstPickMax(scoring: seq<set<nat>>, picks: seq<nat>, results: seq<set<nat>>)
    requires |picks| == |results| > 0 && forall i :: 0 <= i < |picks| ==> picks[i] < |scoring|
    requires Greedy(scoring, picks, results)
    ensures forall q :: 0 <= q < |scoring| ==> Gain(scoring[q], {}) <= Gain(scoring[picks[0]], {})
  {
    assert MaxGainAt(scoring, picks[..0], UnionOf(results[..0]), picks[0]);
    assert results[..0] == [] && picks[..0] == [];
  }

  /** Continuing past the first pick needs the loop condition to hold after it. */
  lemma SecondPickNeedsGoing(guard: Guard, parent: set<nat>, recall: real, results: seq<set<nat>>)
    requires Continued(guard, parent, recall, results) && |results| > 1
    ensures Open(guard, results[0], parent)
  {
    assert Going(guard, parent, recall, results[..1]);
    assert results[..1] == [results[0]];
    UnionOfSingle(results[0]);
  }

  lemma UnionOfSingle(s: set<nat>)
    ensures UnionOf([s]) == s
  {
    assert [s][..0] == [];
  }

  /** Finding: the as-written guard `result_set < parent_set` ends the loop
      as soon as a pick holds an element outside `parent_set`, even though
      half of `parent_set` is still uncovered and `recall` is 1.0. */
  method GuardExitExample() returns (r: Result<seq<set<nat>>, CoverError>)
    ensures r == Ok([{0, 2}])
    ensures Coverage(UnionOf(r.value), {0, 1}) == 0.5
  {
    ghost var picks;
    r, picks := GreedySetCover([{0, 2}, {1}], {0, 1}, 1.0);
    OnePickOutcome([{0, 2}, {1}], {0, 1}, r, picks);
    assert {0, 2} * {0, 1} == {0};
  }

  /** Corrected on the same input: the cover is completed. */
  method GuardExitFixedExample() returns (r: seq<set<nat>>)
    ensures Coverage(UnionOf(r), {0, 1}) == 1.0
  {
    ghost var picks;
    r, picks := GreedySetCoverFixed([{0, 2}, {1}], {0, 1}, 1.0);
    GuardExitFixedOutcome(UnionOf(r));
  }

  lemma GuardExitFixedOutcome(u: set<nat>)
    requires Coverage(UnionOf([{0, 2}, {1}]), {0, 1}) >= 1.0 ==> Coverage(u, {0, 1}) >= 1.0
    ensures Coverage(u, {0, 1}) == 1.0
  {
    assert [{0, 2}, {1}] == [{0, 2}] + [{1}];
    UnionOfAppend([{0, 2}], {1});
    UnionOfSingle({0, 2});
    assert UnionOf([{0, 2}, {1}]) * {0, 1} == {0, 1};
    assert |{0, 1}| == 2;
    assert Coverage(UnionOf([{0, 2}, {1}]), {0, 1}) == 1.0;
    CoverageAtMostOne(u, {0, 1});
  }

  /** The as-written run on two subsets where the first has the larger gain
      and reaches outside `parent`: it returns that subset alone. */
  lemma OnePickOutcome(subsets: seq<set<nat>>, parent: set<nat>, r: Result<seq<set<nat>>, CoverError>, picks: seq<nat>)
    requires |subsets| == 2 && Gain(subsets[1], {}) < Gain(subsets[0], {})
    requires !(subsets[0] <= parent) && parent != {}
    requires Returned(subsets, parent, 1.0, r, picks)
    ensures r == Ok([subsets[0]])
    ensures Coverage(UnionOf(r.value), parent) == Coverage(subsets[0], parent)
  {
    if |picks| > 0 {
      OnlyFirstPicked(subsets, parent, picks);
      UnionOfSingle(subsets[0]);
    }
  }

  lemma OnlyFirstPicked(subsets: seq<set<nat>>, parent: set<nat>, picks: seq<nat>)
    requires |subsets| == 2 && Gain(subsets[1], {}) < Gain(subsets[0], {})
    requires !(subsets[0] <= parent) && |picks| > 0 && ValidPicks(|subsets|, picks)
    requires Record(ProperSubset, subsets, subsets, parent, 1.0, picks, PickedSubsets(subsets, picks))
    ensures PickedSubsets(subsets, picks) == [subsets[0]]
  {
    var results := PickedSubsets(subsets, picks);
    FirstPickIsLargest(ProperSubset, subsets, subsets, parent, 1.0, picks, results, 0);
    NoSecondPick(ProperSubset, parent, 1.0, results);
  }

  /** Of two subsets, the one with the larger gain, `k`, is picked first. */
  lemma FirstPickIsLargest(guard: Guard, scoring: seq<set<nat>>, subsets: seq<set<nat>>, parent: set<nat>, recall: real,
                           picks: seq<nat>, results: seq<set<nat>>, k: nat)
    requires Record(guard, scoring, subsets, parent, recall, picks, results) && |picks| > 0
    requires |subsets| == 2 && k < 2 && Gain(scoring[1 - k], {}) < Gain(scoring[k], {})
    ensures picks[0] == k && results[0] == subsets[k]
  {
    FirstPickMax(scoring, picks, results);
    assert Gain(scoring[k], {}) <= Gain(scoring[picks[0]], {});
  }

  /** No second pick once the first leaves the loop condition false. */
  lemma NoSecondPick(guard: Guard, parent: set<nat>, recall: real, results: seq<set<nat>>)
    requires Continued(guard, parent, recall, results) && results != []
    requires !Open(guard, results[0], parent)
    ensures |results| == 1
  {
    if |results| > 1 {
      SecondPickNeedsGoing(guard, parent, recall, results);
    }
  }

  /** Finding: the as-written gain `len(s - result_set)` counts elements
      outside `parent_set`, so a subset holding one element of it beats one
      that covers it all. */
  method GainOutsideExample() returns (r: Result<seq<set<nat>>, CoverError>)
    ensures r == Ok([{0, 5, 6, 7}])
    ensures Coverage(UnionOf(r.value), {0, 1}) == 0.5
  {
    ghost var picks;
    r, picks := GreedySetCover([{0, 5, 6, 7}, {0, 1}], {0, 1}, 1.0);
    GainsOfGainExample();
    OnePickOutcome([{0, 5, 6, 7}, {0, 1}], {0, 1}, r, picks);
    assert {0, 5, 6, 7} * {0, 1} == {0};
  }

  lemma GainsOfGainExample()
    ensures Gain({0, 1}, {}) < Gain({0, 5, 6, 7}, {})
  {
    assert {0, 1} - {} == {0, 1} && {0, 5, 6, 7} - {} == {0, 5, 6, 7};
    assert |{0, 1}| == 2 && |{0, 5, 6, 7}| == 4;
  }

  /** Corrected on the same input: the one subset that covers `parent_set` is picked. */
  method GainOutsideFixedExample() returns (r: seq<set<nat>>)
    ensures r == [{0, 1}]
  {
    ghost var picks;
    r, picks := GreedySetCoverFixed([{0, 5, 6, 7}, {0, 1}], {0, 1}, 1.0);
    GainOutsideFixedOutcome(r, picks);
  }

  lemma GainOutsideFixedOutcome(r: seq<set<nat>>, picks: seq<nat>)
    requires ValidPicks(2, picks) && r == PickedSubsets([{0, 5, 6, 7}, {0, 1}], picks)
    requires Record(NotCovered, Restricted([{0, 5, 6, 7}, {0, 1}], {0, 1}), [{0, 5, 6, 7}, {0, 1}], {0, 1}, 1.0, picks, r)
    requires Finished([{0, 5, 6, 7}, {0, 1}], {0, 1}, 1.0, r)
    ensures r == [{0, 1}]
  {
    var subsets: seq<set<nat>> := [{0, 5, 6, 7}, {0, 1}];
    if |picks| == 0 {
      NothingPickedUnfinished();
      assert false;
    }
    RestrictedOfGainExample();
    OnlySecondPicked(subsets, picks);
  }

  lemma NothingPickedUnfinished()
    ensures !Finished([{0, 5, 6, 7}, {0, 1}], {0, 1}, 1.0, [])
  {
    var subsets: seq<set<nat>> := [{0, 5, 6, 7}, {0, 1}];
    assert UnionOf([]) == {};
    assert 1 in subsets[1] * {0, 1};
  }

  lemma RestrictedOfGainExample()
    ensures Restricted([{0, 5, 6, 7}, {0, 1}], {0, 1}) == [{0}, {0, 1}]
  {
    assert {0, 5, 6, 7} * {0, 1} == {0};
    assert {0, 1} * {0, 1} == {0, 1};
  }

  lemma OnlySecondPicked(subsets: seq<set<nat>>, picks: seq<nat>)
    requires |subsets| == 2 && subsets[1] == {0, 1} && ValidPicks(2, picks) && |picks| > 0
    requires Record(NotCovered, [{0}, {0, 1}], subsets, {0, 1}, 1.0, picks, PickedSubsets(subsets, picks))
    ensures PickedSubsets(subsets, picks) == [{0, 1}]
  {
    var scoring: seq<set<nat>> := [{0}, {0, 1}];
    assert Gain(scoring[0], {}) == 1 && Gain(scoring[1], {}) == 2;
    var results := PickedSubsets(subsets, picks);
    FirstPickIsLargest(NotCovered, scoring, subsets, {0, 1}, 1.0, picks, results, 1);
    NoSecondPick(NotCovered, {0, 1}, 1.0, results);
  }

  /** Finding: when the heap runs dry before `parent_set` is covered, the
      as-written loop indexes the empty `best` and fails. */
  method ExhaustedExample() returns (r: Result<seq<set<nat>>, CoverError>)
    ensures r == Err(HeapExhausted)
  {
    ghost var picks;
    r, picks := GreedySetCover([{}], {0}, 1.0);
    ExhaustedOutcome(r, picks);
  }

  lemma ExhaustedOutcome(r: Result<seq<set<nat>>, CoverError>, picks: seq<nat>)
    requires Returned([{}], {0}, 1.0, r, picks)
    ensures r == Err(HeapExhausted)
  {
    if |picks| == 1 {
      assert PickedSubsets([{}], picks) == [{}];
      UnionOfSingle({});
      assert {} * {0} == {};
      assert Coverage({}, {0}) == 0.0;
    }
    assert r.error.HeapExhausted?;
  }

  /** Corrected on the same input: an empty cover, with nothing to add. */
  method ExhaustedFixedExample() returns (r: seq<set<nat>>)
    ensures r == []
  {
    ghost var picks;
    r, picks := GreedySetCoverFixed([{}], {0}, 1.0);
  }

  lemma CoverageAtMostOne(covered: set<nat>, parent: set<nat>)
    requires parent != {}
    ensures Coverage(covered, parent) <= 1.0
  {
    SubsetCard(covered * parent, parent);
    DivMono(|covered * parent| as real, |parent| as real, |parent| as real);
  }
}

=== FILE: Wrappers.dfy ===
/** Optional and fallible results shared by the other modules. */
module Wrappers {

  /** Python's `Optional[T]`: `None` or a present value. */
  datatype Option<+T> = None | Some(value: T)

  /** A computation that either succeeds with a value or raises an error. */
  datatype Result<+T, +E> = Ok(value: T) | Err(error: E)
}
